=== FILE: README.md ===
# unity-vote: voting and admin-access rules in Dafny

unity-vote is a Next.js contest site. The public votes for contestants, grouped in
categories within contests. Admins and managers log in with a password and a
one-time code sent by e-mail. They invite further admins and manage contestants.

This project models the rules the application enforces:

- the vote-cast guard chain of `POST /api/votes`;
- the client-side vote and admin state of `AppContext`;
- the vote dialog and leaderboard of the contest page;
- admin login with a one-time code, and its verification;
- invitations, and invitation acceptance;
- admin creation and listing;
- contestant creation with find-or-create of the category, and contestant listing;
- the route gate in `proxy.ts`, with the paths its matcher selects;
- the validators of `lib/utils.ts`;
- the category cards and countdown of the home page;
- the derived lists of the admin dashboard.

Everything is pure. The database is an immutable record of sequences (`Store.Db`).
Each route handler is a function from (store, request, clock, oracles) to a reply
and a new store (`Store.Handled`). The reply is `Fail(code, message)` or
`Ok(code, value)`. The following are parameters:

- the clock: integer milliseconds;
- generated ids and tokens;
- the bcrypt hash and its comparison;
- `Math.random`: a real in [0, 1);
- the outcome of sending an e-mail;
- the session user.

A request field that is absent or empty is modelled as `""`, which JavaScript
treats as falsy. A string is a sequence of Unicode characters; where the source
compares a JavaScript `length`, the model counts UTF-16 code units
(`Strings.Utf16Length`), so a character outside the Basic Multilingual Plane
counts twice. A field that has a default is modelled as an `Option`.
`findUnique`/`findFirst` return the first matching row (`Seqs.Find`), and
`orderBy` and `Array.prototype.sort` are a stable insertion sort (`Sorting.Sort`).
Each comparator is proved total and transitive (`Orders`).

Modules follow the source files: `VotesRoute`, `AppContext`, `ContestPage`,
`LoginRoute`, `VerifyOtpRoute`, `InviteRoute`, `AcceptInviteRoute`, `AdminRoute`,
`ContestantsRoute`, `Utils`, `Proxy`, `Home`, `AdminDashboard`. They rest on
`Wrappers`, `Seqs`, `Strings`, `Sorting`, `Types`, `Store` and `Orders`.

## Model

| member | source | states |
|---|---|---|
| VotesRoute.Cast | app/api/votes/route.ts:13-92 | Error precedence: missing field 400, unknown contest 404, closed contest 400, unknown contestant 404, ineligible contestant 400, an existing row for (email, contest) 400. Success holds exactly when no guard fires. A failure leaves the store unchanged. A success answers 201 with the new id and appends exactly one pending row. |
| VotesRoute.CastKeepsOneVotePerVoter | app/api/votes/route.ts:59-84 | Sequential casts keep at most one vote row per (email, contestId). |
| VotesRoute.CastKeepsCountersMatching | app/api/votes/route.ts:75-84 | A cast never changes a contestant's counter. Counters that equal the number of verified rows stay equal. |
| VotesRoute.RecastRefused | app/api/votes/route.ts:59-73 | After a successful cast, another cast by the same email in the same contest fails and changes nothing, whichever contestant it names. |
| AppContext.CastVote | services/AppContext.tsx:81-100 | Success iff the contest exists, is active, and has no verified record for the email. The message names the closed contest first, then the earlier vote. |
| AppContext.VerifyVote | services/AppContext.tsx:102-110 | Accepts only codes that `validateOTP` also accepts. |
| AppContext.MockOtpOnly | services/AppContext.tsx:102-110 | The mock accepts `123456` for every email and refuses every other code. Its answer never depends on the email, and `123456` passes `validateOTP`. |
| AppContext.ConfirmVote | services/AppContext.tsx:112-127 | Appends exactly one verified record. Adds one vote to each contestant with the id and leaves every other contestant and the rest of the state alone. |
| AppContext.ConfirmBlocksRecast | services/AppContext.tsx:81-127 | After a commit, a later cast by that email in that contest fails as already voted or closed. |
| AppContext.ConfirmTwiceCreditsTwice | services/AppContext.tsx:112-127 | A commit is not idempotent: committing twice credits the contestant twice. |
| AppContext.ToggleVisibility | services/AppContext.tsx:133-135 | Flips `isVisible` on the contestants with the id only. |
| AppContext.ToggleTwiceIsIdentity | services/AppContext.tsx:133-135 | Toggling twice restores the list. |
| AppContext.Withdraw | services/AppContext.tsx:137-139 | Swaps withdrawn and active on the contestants with the id only. |
| AppContext.WithdrawTwiceIsIdentity | services/AppContext.tsx:137-139 | Withdrawing twice restores the list. |
| AppContext.AddContestant | services/AppContext.tsx:141-143 | Appends one contestant whose status is forced to active; the rest is unchanged. |
| AppContext.DeleteContestant | services/AppContext.tsx:145-151 | Does nothing unless the role is admin. Otherwise only the contestants change: those with the id are removed, and every other one is kept as often as it occurred, in order. |
| AppContext.AddThenDeleteLeavesNone | services/AppContext.tsx:141-151 | As admin, adding and then deleting an id leaves no contestant with that id. |
| AppContext.RoleGatesDeletion | services/AppContext.tsx:145-151 | Deletion is a no-op when logged out or logged in as manager, and removes the id when logged in as admin. |
| AppContext.UpdateContestStatus | services/AppContext.tsx:153-155 | Changes only the status of the contest with the id. |
| AppContext.StatusUpdateGovernsCasting | services/AppContext.tsx:153-155 | After a status update, the cast's contest check passes iff the new status is active. |
| AppContext.InviteAdminUser | services/AppContext.tsx:163-172 | Appends one user with status invited and an empty last login. |
| AppContext.UpdateAdminUser | services/AppContext.tsx:174-176 | Patches only the user with the id, field by field. |
| AppContext.EmptyPatchIsIdentity | services/AppContext.tsx:174-176 | An empty patch changes nothing. |
| AppContext.DeleteAdminUser | services/AppContext.tsx:178-180 | Removes the users with the id and keeps every other user as often as it occurred, in order. |
| AppContext.DeleteAdminUserIdempotent | services/AppContext.tsx:178-180 | Deleting an id twice is the same as deleting it once. |
| AppContext.InviteThenDeleteRestores | services/AppContext.tsx:163-180 | Inviting a user under a fresh id and then deleting that id gives back the original list. |
| AppContext.LoginAdmin | services/AppContext.tsx:69-74 | Sets the role and nothing else. |
| AppContext.LogoutAdmin | services/AppContext.tsx:76-79 | Clears the role and nothing else. |
| AppContext.LoginLogoutRoundTrip | services/AppContext.tsx:69-79 | Logging out after a login equals logging out directly; a second login replaces the first; logging out when logged out changes nothing. |
| AppContext.RoleIrrelevantToVoting | services/AppContext.tsx:69-127 | Casting answers the same whatever the role, and committing a vote commutes with logging in. |
| ContestPage.ActiveWithdrawnPartition | pages/ContestPage.tsx:23-27 | The active and withdrawn lists are disjoint, and together they hold every visible contestant of the contest exactly once. |
| ContestPage.OpenVoteModal | pages/ContestPage.tsx:73-86 | Nothing happens unless the contest is active. Otherwise the dialog opens at idle with empty email and code, the captcha unticked and no error. |
| ContestPage.SubmitEmail | pages/ContestPage.tsx:88-105 | Without the captcha only the error is set. Otherwise a successful cast moves to awaiting the code, and a failed one moves to error with the cast's message. |
| ContestPage.SubmitOtp | pages/ContestPage.tsx:107-122 | A valid code commits the vote once and moves to success. An invalid code returns to awaiting the code with the error and commits nothing. |
| ContestPage.VoteDialogRun | pages/ContestPage.tsx:73-122 | On an open contest with no earlier vote, opening, ticking the captcha, submitting the email and then the right code ends in success with one more verified record. Running the dialog again with the same email then ends in error with the already-voted message. |
| ContestPage.CategoryNames | pages/ContestPage.tsx:137 | Holds exactly the categories of the given contestants. |
| ContestPage.UniqueCategories | pages/ContestPage.tsx:137 | Sorted by UTF-16 code units, as a comparator-less `.sort()` orders strings, and without repeats. Holds exactly the non-empty categories of the active contestants. |
| Orders.CodeUnitOrder | pages/ContestPage.tsx:137 | UTF-16 code-unit order is total and transitive, so sorting by it is well defined. |
| Strings.Utf16OrderDiffers | pages/ContestPage.tsx:137 | UTF-16 code-unit order and code-point order disagree on a pair with one character outside the Basic Multilingual Plane, so the category sort cannot be modelled by code points. |
| ContestPage.CategoryBoard | pages/ContestPage.tsx:309-311 | A permutation of the active contestants of the category, sorted by votes, most first. |
| ContestPage.MaxVotes | pages/ContestPage.tsx:314 | Never 0. On a sorted board led by a positive count it is the largest count. |
| LoginRoute.OtpNumber | app/api/admin/auth/login/route.ts:76 | The code lies in [100000, 999999] and is the floor of `100000 + random * 900000`. |
| LoginRoute.OtpCode | app/api/admin/auth/login/route.ts:76 | The rendered code passes `validateOTP`. |
| LoginRoute.Reissue | app/api/admin/auth/login/route.ts:80-92 | Afterwards the admin's only code is the new one; other admins' codes are unchanged. |
| LoginRoute.Login | app/api/admin/auth/login/route.ts:16-102 | Precedence: missing field 400, unknown email 401, inactive admin 403, wrong password 401 with the same message as unknown email. Success iff the credentials are accepted and either auto-verify is on or the mail was sent. Auto-verify appends a session and writes no code. Otherwise only the codes change: the admin's codes become exactly the issued one, expiring 600000 ms later, and a failed send answers 500. |
| LoginRoute.SessionOnlyWhenAutoVerified | app/api/admin/auth/login/route.ts:53-102 | A session is created only on the auto-verify branch. |
| VerifyOtpRoute.Consume | app/api/admin/auth/verify-otp/route.ts:43-63 | The matched code is kept, marked verified. Every other code of that admin is deleted. Other admins' codes are unchanged. |
| VerifyOtpRoute.Verify | app/api/admin/auth/verify-otp/route.ts:13-63 | Missing field 400. A row is usable when it has the admin, the code, is unverified and has `expiresAt >= now`; with no usable row the answer is 401 and nothing changes. Success iff a usable row exists and its admin exists. Success appends the session and consumes the code. Only codes and sessions ever change. |
| VerifyOtpRoute.SingleUse | app/api/admin/auth/verify-otp/route.ts:21-46 | After a success, the same request again is refused with 401. |
| InviteRoute.Invite | app/api/admin/invite/route.ts:11-112 | Precedence: 401, 403, missing field 400, bad role 400 (the role defaults to manager), existing admin 409. Only invitations ever change. A failed send answers 500 and leaves no invitation for the email. Success answers 201: the unaccepted invitation for the email is replaced by the new one, which expires seven days later and is created by the inviter. |
| InviteRoute.ClearedRemovesOnlyThatEmail | app/api/admin/invite/route.ts:59-68 | Clearing an email removes every invitation for it and keeps every other one. |
| InviteRoute.SameEmailSameRow | app/api/admin/invite/route.ts:59-62 | With unique emails, the lookup by email finds the one row with that email. |
| InviteRoute.InviteKeepsKeys | app/api/admin/invite/route.ts:59-100 | Given a fresh id and token, emails, ids and tokens stay unique, so there is at most one invitation per email. Invitations for other emails are unchanged. On success the new row is the only one for the email. |
| InviteRoute.AppendKeepsKeys | app/api/admin/invite/route.ts:75-84 | Appending a row with a fresh email, id and token keeps the keys unique. |
| InviteRoute.Views | app/api/admin/invite/route.ts:152-159 | One view per row, in order, and sorted rows give sorted views. |
| InviteRoute.PendingList | app/api/admin/invite/route.ts:142-160 | Holds exactly the unaccepted invitations with `expiresAt >= now`, newest first. |
| InviteRoute.ListPending | app/api/admin/invite/route.ts:123-162 | 401 without a user, 403 for a manager, otherwise 200 with the pending list. |
| AcceptInviteRoute.CheckToken | app/api/admin/accept-invite/route.ts:23-46 | Unknown token 404, accepted 400, `expiresAt < now` 400; so expiring exactly now is still valid. Otherwise it answers the invitation's index. |
| AcceptInviteRoute.Check | app/api/admin/accept-invite/route.ts:15-55 | A missing token gives 400, and a bad token fails as above. Otherwise the answer is the invitation's email, name and role. |
| AcceptInviteRoute.Accept | app/api/admin/accept-invite/route.ts:71-142 | Missing field 400, then a password under 8 UTF-16 code units gives 400, then the token checks, then an existing admin 409. A failure changes nothing. Success appends an active admin with the invitation's email, name and role, marks the invitation accepted and opens a session. |
| AcceptInviteRoute.ShortPasswordRefusedBeforeLookup | app/api/admin/accept-invite/route.ts:79-84 | A short password gets the same answer whatever the store holds. |
| AcceptInviteRoute.AcceptIsOneShot | app/api/admin/accept-invite/route.ts:98-103 | Once a token is accepted, accepting it again is refused, so one invitation yields at most one admin. |
| AdminRoute.Guard | app/api/admin/route.ts:11-26 | Passes iff the user is an admin: 401 without a user, 403 for another role. |
| AdminRoute.AdminList | app/api/admin/route.ts:28-41 | A permutation of the admins' views, newest first. |
| AdminRoute.List | app/api/admin/route.ts:11-44 | The guard's answer, or 200 with the admin list. |
| AdminRoute.Create | app/api/admin/route.ts:57-129 | Guard, missing field 400, bad role 400 (the role defaults to manager), taken email 409. A failure changes nothing. Success answers 201 with the view of an active admin carrying the given email, name and role, appended to the admins. |
| AdminRoute.CreateKeepsEmailsUnique | app/api/admin/route.ts:93-124 | Admin emails stay unique. |
| AdminRoute.HashNeverShown | app/api/admin/route.ts:28-41 | The replies of both handlers are the same for stores that differ only in password hashes. |
| ContestantsRoute.ParseStatus | app/api/contestants/route.ts:88 | Only `active` and `withdrawn` are statuses. |
| ContestantsRoute.FindOrCreate | app/api/contestants/route.ts:112-130 | Reuses the first category with the same name and contest, or appends one new category. Unique (name, contest) pairs stay unique. |
| ContestantsRoute.Create | app/api/contestants/route.ts:79-145 | Missing field 400, unknown contest 404. Only categories and contestants change, and category uniqueness is kept. Success stores the contestant with zero votes, the category's id, visibility defaulting to true and status to active. |
| ContestantsRoute.SecondCreateReusesCategory | app/api/contestants/route.ts:112-130 | A second create for the same category and contest reuses the category the first one found or made. |
| ContestantsRoute.Selected | app/api/contestants/route.ts:15-38 | A permutation of the rows that match every given parameter, by votes descending then name ascending. |
| ContestantsRoute.WithNames | app/api/contestants/route.ts:59-63 | Defined iff every row's category exists; each output carries its row and category name. |
| ContestantsRoute.List | app/api/contestants/route.ts:15-72 | The corrected listing: selected rows with their category names. A given status other than `active` or `withdrawn` gives 500, as does a row with a missing category. |
| ContestantsRoute.ListAsWritten | app/api/contestants/route.ts:21-23 | As written: a category parameter makes the query fail (500). Otherwise it answers as `List`. |
| ContestantsRoute.CategoryFilterCounterexample | app/api/contestants/route.ts:21-23 | A store with category "Tech": as written the answer is 500, corrected it is the one contestant. |
| Utils.ValidatePassword | lib/utils.ts:4-37 | Valid iff the UTF-16 length is at least 8, with an upper-case letter, a lower-case letter and a digit. The message names the first failing check. |
| Utils.ValidateEmail | lib/utils.ts:42-45 | True iff non-empty local part, one `@`, no white space, and a `.` in the domain that is neither first nor last. |
| Utils.EmailCharacterisation | lib/utils.ts:42-45 | The split-based reading of the pattern equals the character-class reading. |
| Utils.GenerateSecurePassword | lib/utils.ts:50-72 | Length max(n, 4), drawn from the four alphabets, with one of each class. For n >= 8 it passes `validatePassword`. |
| Utils.Shuffle | lib/utils.ts:71 | Rearranging by a permutation keeps the length and every character, each as often as in the input (equal multisets). |
| Utils.ShuffleMultiset | lib/utils.ts:71 | Every rearrangement by a permutation of the positions has the same multiset of characters as the input. |
| Utils.ShuffleKeeps | lib/utils.ts:71 | Every character of the input appears in the shuffle. |
| Utils.SanitizeInput | lib/utils.ts:77-79 | No `<` or `>` remains. The result is a sub-sequence of the trimmed input, and every other character occurs exactly as often as in the trimmed input. |
| Utils.SanitizeKeepsCleanInput | lib/utils.ts:77-79 | On input without `<` or `>`, sanitising is exactly trimming. |
| Utils.SanitizeNotIdempotent | lib/utils.ts:77-79 | Sanitizing `"< a"` twice differs from sanitizing it once. |
| Utils.HasRole | lib/utils.ts:84-89 | `admin` satisfies both roles, `manager` only manager, anything else neither. |
| Utils.AdminIncludesManager | lib/utils.ts:84-89 | Whoever passes as admin passes as manager. |
| Utils.ValidateOtp | lib/utils.ts:108-110 | True iff exactly six ASCII digits. |
| Types.ParseRole | app/api/admin/route.ts:85-90 | Only `admin` and `manager` are roles. |
| Proxy.Decide | proxy.ts:21-75 | The auth bypass prefixes and public routes pass. A non-public `/admin` path without the session cookie redirects to login. A non-public `/api/admin` path outside `/api/admin/auth` without it gets 401. With the cookie, or on any other path, it passes. |
| Proxy.OnlyCookiePresenceMatters | proxy.ts:44-72 | The decision depends on whether the session cookie is present, not on its value. |
| Proxy.NoRedirectLoop | proxy.ts:5-51 | The login page is public, so it never redirects. |
| Proxy.RootIsExact | proxy.ts:32-35 | `/` matches only itself; other routes match by prefix. |
| Proxy.AdminPathsNotPublic | proxy.ts:5-16 | The admin dashboard and the invite API are not public. |
| Proxy.GateExamples | proxy.ts:42-72 | Without the cookie, the dashboard redirects and the invite API gets 401. With the cookie, the dashboard passes. |
| Proxy.Gate | proxy.ts:21-89 | A path the matcher excludes always passes: `_next/static`, `_next/image`, `favicon.ico` (its dot matches any character), `public`, and any path with a dot. A matched path is decided as in `Decide`. |
| Proxy.DashboardMatched | proxy.ts:78-89 | The dashboard path is matched, so without the cookie the deployed gate redirects it. |
| Proxy.DotPathUngated | proxy.ts:42-89 | Without the cookie, `proxy` alone would redirect `/admin/report.csv`, but the matcher skips it, so it passes. |
| Strings.Utf16LengthBmp | lib/utils.ts:5 | The JavaScript length equals the character count exactly when every character is in the Basic Multilingual Plane. |
| Home.Categories | pages/Home.tsx:22-44 | The corrected aggregation: one card per (contest, category). Each count is at least one and equals the number of retained contestants with that pair. Every retained contestant is counted, and the counts sum to the number retained. |
| Home.AggregateSummarises | pages/Home.tsx:25-43 | The fold's entries have distinct keys. Each card is built from the first retained member of its key and counts its members. The keys cover the retained contestants, and the counts sum to the number retained. |
| Home.JoinedKeyMergesCategories | pages/Home.tsx:29 | Contest "x" with category "y-z" and contest "x-y" with category "z" share a joined key. As written they make one card of count 2; corrected they make two cards. |
| Home.Decompose | pages/Home.tsx:75-86 | A diff <= 0 gives zeros. Otherwise hours < 24, minutes < 60, seconds < 60, and the fields' milliseconds are within one second below the diff. |
| Home.DecomposeMillis | pages/Home.tsx:81-86 | Decomposing a normal time plus under a second gives that time back. |
| Home.CalculateTime | pages/Home.tsx:56-86 | Before the start, count to the start with "Voting Opens In". Between, count to the end with "Voting Closes In". Otherwise "Voting Ended" with zeros. |
| AdminDashboard.Filtered | pages/AdminDashboard.tsx:175-191 | Exactly the contestants passing search, status and category, as a sub-sequence of the list. |
| AdminDashboard.ListContestants | pages/AdminDashboard.tsx:175-202 | A permutation of the filtered list: votes non-increasing, non-decreasing or names ascending by the key; an unknown key keeps the filtered order. |
| AdminDashboard.StatusesExclusive | pages/AdminDashboard.tsx:180-184 | `all` takes every contestant; every contestant matches exactly one of `active`, `paused` and `withdrawn`. |
| AdminDashboard.StatusFiltersPartition | pages/AdminDashboard.tsx:180-184 | The active, paused and withdrawn filters split the contestants into three parts holding each exactly once. |
| AdminDashboard.SearchIgnoresCase | pages/AdminDashboard.tsx:177-178 | Lower-casing the search text first changes nothing. |
| AdminDashboard.DefaultQueryListsAll | pages/AdminDashboard.tsx:175-202 | An empty search with `all` and `All` lists every contestant. |
| AdminDashboard.Overview | pages/AdminDashboard.tsx:133-137 | `All` gives the whole list. Otherwise it gives exactly that category's contestants, as a sub-sequence. |
| AdminDashboard.FilteredTotalVotes | pages/AdminDashboard.tsx:159-161 | Over all time with `All`, the sum of every counter. In a window, the number of votes in it. |
| AdminDashboard.TotalsSplitByCategory | pages/AdminDashboard.tsx:159-161 | One category's total plus the other contestants' votes is the overall total. |
| AdminDashboard.Top5 | pages/AdminDashboard.tsx:204-210 | At most five, sorted by votes descending, drawn from the overview. No omitted contestant has more votes than the last shown. |
| AdminDashboard.FirstWord | pages/AdminDashboard.tsx:318 | A prefix of the name without a space, ending at the name's end or at its first space. |
| AdminDashboard.VoteData | pages/AdminDashboard.tsx:317-320 | At most ten bars, sorted by votes descending, drawn from the candidate bars without repeating any (a sub-multiset), each for a shown contestant who has not withdrawn. No omitted bar has more votes than the last shown. |
| AdminDashboard.UpdatePassword | pages/AdminDashboard.tsx:542-556 | A mismatch is refused first, then a password under 6 UTF-16 code units; otherwise it succeeds. |
| AdminDashboard.SupplementaryCharactersCountTwice | pages/AdminDashboard.tsx:548 | Three emoji count as six code units, so they pass the length check. |

## Left out

- The `updatedAt` columns and other timestamps the database fills in. Only `createdAt` and `expiresAt` matter to the rules.
- Database string ordering. `orderBy: { name: 'asc' }` and `localeCompare` depend on the collation. The model orders names by code points (`Strings.StrLe`), which differs from UTF-16 code-unit order for characters outside the Basic Multilingual Plane. The comparator-less `.sort()` of categories is modelled in UTF-16 code-unit order (`Strings.Utf16Le`).
- AdminDashboard.ListContestants: the `nameAsc` order is code-point order, not `localeCompare`. The search inherits the ASCII-only case folding of `AdminDashboard.Filtered`.
- AdminDashboard.Filtered: `toLowerCase` is modelled for ASCII letters only (`Strings.ToLower`). JavaScript folds every cased Unicode letter, so a search for "ø" finds "Øyvind" in the source but not in the model. Unicode case mapping tables are not modelled.
- AdminDashboard.SearchIgnoresCase: stated for the ASCII-only `ToLower`, for the same reason.
- `Math.random` is a real in [0, 1); floating-point rounding of `100000 + random * 900000` is not modelled.
- Generated ids, tokens and password hashes are parameters and are assumed fresh where a lemma says so.
- The Prisma schema file is not part of this model. Three constraints are inferred from the `findUnique` calls:
  - unique admin emails;
  - unique invitation emails and tokens;
  - unique vote (email, contest) pairs.

  Defaults the code relies on are inferred too: `isActive` is true for a new admin and for a new category.
- Sessions are modelled as the list of admin ids a session was opened for. Cookies and Lucia are left out.
- `updateContestant` and `updateContest` in `AppContext` are whole-record merges with no rule of their own.
- The vote verification endpoint is not part of this model, so server-side confirmation is not modelled.
- Concurrency: concurrent requests, unique-constraint races, `setTimeout` delays and React batching.
- E-mail transport and templates, the Gemini call, seeding, `sessionStorage`, and all rendering, charts and exports.
- The dashboard's time-window vote filtering uses date-fns calendar arithmetic. Its count is a parameter of `FilteredTotalVotes`.
- Percentages, averages and growth figures are floating point.
- The database schema is not part of this model. The contestant `status` column is taken to be an enumeration of `active` and `withdrawn`, and both handlers follow from that. A `GET` with any other non-empty `status` is rejected by the query layer, so the catch answers 500 (`ContestantsRoute.List`). A `POST` with any other status is refused by the database (500) after the category has been created (`ContestantsRoute.Create`).
- `verify-otp` does not check `isActive`, and the model does not either.
- Proxy.Gate: the matcher is read as a regular expression over the path. Next.js path normalisation, locales and `basePath` are not modelled. The `.` in `.*` does not match line terminators, which a URL path cannot hold unencoded.
- Home.Categories is stated for the corrected (contest, category) key. The joined-string key of the source is `Home.CategoriesAsWritten`.

## Findings

| source | as written | input that shows it | evidently intended | confidence | as-written member | corrected member |
|---|---|---|---|---|---|---|
| app/api/contestants/route.ts:21-23 | `where.category = category` filters on the `category` relation with a plain string, which the ORM rejects, so the listing fails with 500 | `GET /api/contestants?category=Tech` with one contestant in category "Tech" | filter by the category's name | medium, not executed | ContestantsRoute.ListAsWritten (CategoryFilterCounterexample) | ContestantsRoute.List |
| pages/Home.tsx:29 | the card key is `` `${contestId}-${category}` ``, so distinct (contest, category) pairs can share a key and be merged into one card | contest "x" with category "y-z" and contest "x-y" with category "z" | one card per (contest, category) pair | low, not executed | Home.CategoriesAsWritten (JoinedKeyMergesCategories) | Home.Categories |

=== FILE: accept_invite_route.dfy ===
/** `/api/admin/accept-invite`: `GET` checks a token, `POST` redeems it for a new
    admin account and a session. */
module AcceptInviteRoute {
  import opened Wrappers
  import opened Types
  import opened Seqs
  import opened Store
  import opened Strings

  /** What `GET` reveals about a valid invitation. */
  datatype Invitee = Invitee(email: string, name: string, role: Role)

  datatype AcceptRequest = AcceptRequest(token: string, password: string)

  const TokenRequired := "Token is required"
  const InvalidToken := "Invalid invitation token"
  const AlreadyAccepted := "Invitation has already been accepted"
  const Expired := "Invitation has expired"
  const MissingFields := "Token and password are required"
  const PasswordTooShort := "Password must be at least 8 characters long"
  const AccountExists := "An account with this email already exists"

  /** The smallest password length the route takes. */
  const MinPasswordLength := 8

  /** The index of the invitation the token names. */
  function TokenIndex(db: Db, token: string): Option<nat> {
    FindIndex(db.invitations, (i: InvitationRow) => i.token == token)
  }

  /** The lookup, accepted and expiry checks both verbs share; an invitation
      expiring exactly at `now` still passes. */
  function CheckToken(db: Db, token: string, now: int): (r: Reply<nat>)
    ensures TokenIndex(db, token).None? ==> r == Fail(404, InvalidToken)
    ensures r.Ok? <==>
      && TokenIndex(db, token).Some?
      && !db.invitations[TokenIndex(db, token).value].accepted
      && db.invitations[TokenIndex(db, token).value].expiresAt >= now
    ensures r.Ok? ==> r.value == TokenIndex(db, token).value
    ensures (TokenIndex(db, token).Some? && db.invitations[TokenIndex(db, token).value].accepted) ==>
      r == Fail(400, AlreadyAccepted)
    ensures (TokenIndex(db, token).Some? && !db.invitations[TokenIndex(db, token).value].accepted
             && db.invitations[TokenIndex(db, token).value].expiresAt < now) ==>
      r == Fail(400, Expired)
  {
    match TokenIndex(db, token)
    case None => Fail(404, InvalidToken)
    case Some(k) =>
      var inv := db.invitations[k];
      if inv.accepted then Fail(400, AlreadyAccepted)
      else if inv.expiresAt < now then Fail(400, Expired)
      else Ok(200, k)
  }

  /** `GET`: a read-only check; only email, name and role are revealed. */
  function Check(db: Db, token: string, now: int): (r: Reply<Invitee>)
    ensures token == "" ==> r == Fail(400, TokenRequired)
    ensures token != "" && CheckToken(db, token, now).Fail? ==>
      r == Fail(CheckToken(db, token, now).code, CheckToken(db, token, now).message)
    ensures r.Ok? <==> token != "" && CheckToken(db, token, now).Ok?
    ensures r.Ok? ==>
      var inv := db.invitations[CheckToken(db, token, now).value];
      inv.token == token && r.value == Invitee(inv.email, inv.name, inv.role)
  {
    if token == "" then Fail(400, TokenRequired)
    else match CheckToken(db, token, now)
      case Fail(code, message) => Fail(code, message)
      case Ok(_, k) =>
        var inv := db.invitations[k];
        Ok(200, Invitee(inv.email, inv.name, inv.role))
  }

  /** `POST`. `adminId` is the generated id and `passwordHash` the hash of the
      password. The length check comes before any lookup. */
  function Accept(db: Db, req: AcceptRequest, adminId: Id, passwordHash: string, now: int): (h: Handled<AdminSummary>)
    ensures req.token == "" || req.password == "" ==> h == Handled(Fail(400, MissingFields), db)
    ensures (req.token != "" && req.password != "" && Utf16Length(req.password) < MinPasswordLength) ==>
      h == Handled(Fail(400, PasswordTooShort), db)
    ensures (req.token != "" && Utf16Length(req.password) >= MinPasswordLength && CheckToken(db, req.token, now).Fail?) ==>
      h == Handled(Fail(CheckToken(db, req.token, now).code, CheckToken(db, req.token, now).message), db)
    ensures (req.token != "" && Utf16Length(req.password) >= MinPasswordLength && CheckToken(db, req.token, now).Ok?
             && AdminByEmail(db, db.invitations[CheckToken(db, req.token, now).value].email).Some?) ==>
      h == Handled(Fail(409, AccountExists), db)
    ensures h.reply.Fail? ==> h.db == db
    ensures h.reply.Ok? ==>
      var k := CheckToken(db, req.token, now).value;
      var inv := db.invitations[k];
      var admin := AdminRow(adminId, inv.email, passwordHash, inv.name, inv.role, true, now);
      && h.reply == Ok(200, Summary(admin))
      && h.db == db.(admins := db.admins + [admin],
                     invitations := db.invitations[k := inv.(accepted := true)],
                     sessions := db.sessions + [adminId])
  {
    if req.token == "" || req.password == "" then Handled(Fail(400, MissingFields), db)
    else if Utf16Length(req.password) < MinPasswordLength then Handled(Fail(400, PasswordTooShort), db)
    else match CheckToken(db, req.token, now)
      case Fail(code, message) => Handled(Fail(code, message), db)
      case Ok(_, k) =>
        var inv := db.invitations[k];
        if AdminByEmail(db, inv.email).Some? then Handled(Fail(409, AccountExists), db)
        else
          var admin := AdminRow(adminId, inv.email, passwordHash, inv.name, inv.role, true, now);
          Handled(Ok(200, Summary(admin)),
                  db.(admins := db.admins + [admin],
                      invitations := db.invitations[k := inv.(accepted := true)],
                      sessions := db.sessions + [adminId]))
  }

  /** A short password is refused whatever the store holds. */
  lemma ShortPasswordRefusedBeforeLookup(db1: Db, db2: Db, req: AcceptRequest, id: Id, hash: string, now: int)
    requires req.token != "" && req.password != "" && Utf16Length(req.password) < MinPasswordLength
    ensures Accept(db1, req, id, hash, now).reply == Accept(db2, req, id, hash, now).reply
  {
  }

  /** One-shot: after a successful accept, the same token is refused by both
      verbs as already accepted, so one invitation yields at most one admin. */
  lemma AcceptIsOneShot(db: Db, req: AcceptRequest, id: Id, hash: string, now: int,
                        req2: AcceptRequest, id2: Id, hash2: string, later: int)
    requires Accept(db, req, id, hash, now).reply.Ok?
    requires req2.token == req.token && Utf16Length(req2.password) >= MinPasswordLength
    ensures var after := Accept(db, req, id, hash, now).db;
      && Accept(after, req2, id2, hash2, later) == Handled(Fail(400, AlreadyAccepted), after)
      && Check(after, req.token, later) == Fail(400, AlreadyAccepted)
  {
    var k := CheckToken(db, req.token, now).value;
    var after := Accept(db, req, id, hash, now).db;
    var p := (i: InvitationRow) => i.token == req.token;
    assert forall j :: 0 <= j < |after.invitations| ==> (p(after.invitations[j]) <==> p(db.invitations[j]));
    FindIndexSameAnswers(db.invitations, after.invitations, p);
  }

  /** Two sequences the predicate cannot tell apart give the same first
      match. */
  lemma FindIndexSameAnswers<T>(a: seq<T>, b: seq<T>, p: T -> bool)
    requires |a| == |b|
    requires forall j :: 0 <= j < |a| ==> (p(a[j]) <==> p(b[j]))
    ensures FindIndex(a, p) == FindIndex(b, p)
  {
  }
}

=== FILE: admin_dashboard.dfy ===
/** The derived lists of the admin dashboard (`pages/AdminDashboard.tsx`): the
    contestants tab's filter and sort, the overview's category filter, vote total,
    top five and bar chart, and the password form's checks. Each is a pure
    function of the page state. */
module AdminDashboard {
  import opened Seqs
  import opened Strings
  import opened Sorting
  import opened Types
  import opened Orders

  // ---------------------------------------------------------------------------
  // Contestants tab

  /** The status dropdown's choices. */
  datatype StatusChoice = AnyStatus | ShownOnly | HiddenOnly | WithdrawnOnly

  /** `all`, `active` and `paused` name their choice; any other value selects the
      withdrawn contestants. */
  function StatusChoiceOf(filter: string): StatusChoice {
    if filter == "all" then AnyStatus
    else if filter == "active" then ShownOnly
    else if filter == "paused" then HiddenOnly
    else WithdrawnOnly
  }

  /** `active` means active and visible, `paused` active and hidden. */
  predicate MatchesStatus(choice: StatusChoice, c: Contestant) {
    match choice
    case AnyStatus => true
    case ShownOnly => c.status == ContestantStatus.Active && c.isVisible
    case HiddenOnly => c.status == ContestantStatus.Active && !c.isVisible
    case WithdrawnOnly => c.status == ContestantStatus.Withdrawn
  }

  /** The search box: a case-insensitive match in the name or the e-mail. */
  predicate MatchesSearch(search: string, c: Contestant) {
    Includes(ToLower(c.name), ToLower(search)) || Includes(ToLower(c.email), ToLower(search))
  }

  /** The category dropdown: `All`, or one category by exact name. */
  predicate MatchesCategory(filter: string, c: Contestant) {
    filter == "All" || c.category == filter
  }

  datatype ListQuery = ListQuery(search: string, status: string, category: string, sort: string)

  predicate Listed(q: ListQuery, c: Contestant) {
    MatchesSearch(q.search, c) && MatchesStatus(StatusChoiceOf(q.status), c) && MatchesCategory(q.category, c)
  }

  function ListedBy(q: ListQuery): Contestant -> bool {
    (c: Contestant) => Listed(q, c)
  }

  /** The contestants the three controls let through, in their original order. */
  function Filtered(cs: seq<Contestant>, q: ListQuery): (r: seq<Contestant>)
    ensures forall c :: c in r <==> c in cs && Listed(q, c)
    ensures IsSubsequence(r, cs)
  {
    FilterIsSubsequence(cs, ListedBy(q));
    Filter(cs, ListedBy(q))
  }

  /** The comparator that reports every pair as equal (an unknown sort key). */
  predicate Unordered(a: Contestant, b: Contestant) { true }

  /** The sort dropdown's comparator. */
  function Order(sort: string): (Contestant, Contestant) -> bool {
    if sort == "votesDesc" then ByVotesDesc
    else if sort == "votesAsc" then ByVotesAsc
    else if sort == "nameAsc" then ByNameAsc
    else Unordered
  }

  /** `filteredListContestants`: the filtered contestants, sorted by the chosen key;
      an unknown key keeps the filtered order, since the sort is stable. */
  function ListContestants(cs: seq<Contestant>, q: ListQuery): (r: seq<Contestant>)
    ensures multiset(r) == multiset(Filtered(cs, q))
    ensures forall c :: c in r <==> c in cs && Listed(q, c)
    ensures q.sort == "votesDesc" ==> SortedBy(r, ByVotesDesc)
    ensures q.sort == "votesAsc" ==> SortedBy(r, ByVotesAsc)
    ensures q.sort == "nameAsc" ==> SortedBy(r, ByNameAsc)
    ensures q.sort != "votesDesc" && q.sort != "votesAsc" && q.sort != "nameAsc" ==> r == Filtered(cs, q)
  {
    var f := Filtered(cs, q);
    ContestantOrders();
    SortSorted(f, Order(q.sort));
    SortSameElements(f, Order(q.sort));
    SortOfSorted(f, Unordered);
    Sort(f, Order(q.sort))
  }

  function StatusFilter(choice: StatusChoice): Contestant -> bool {
    (c: Contestant) => MatchesStatus(choice, c)
  }

  /** `all` takes every contestant, and every contestant falls under exactly one
      of `active`, `paused` and `withdrawn`. */
  lemma StatusesExclusive(c: Contestant)
    ensures StatusChoiceOf("all") == AnyStatus && MatchesStatus(AnyStatus, c)
    ensures StatusChoiceOf("active") == ShownOnly && StatusChoiceOf("paused") == HiddenOnly
    ensures StatusChoiceOf("withdrawn") == WithdrawnOnly
    ensures MatchesStatus(ShownOnly, c) || MatchesStatus(HiddenOnly, c) || MatchesStatus(WithdrawnOnly, c)
    ensures !(MatchesStatus(ShownOnly, c) && MatchesStatus(HiddenOnly, c))
    ensures !(MatchesStatus(ShownOnly, c) && MatchesStatus(WithdrawnOnly, c))
    ensures !(MatchesStatus(HiddenOnly, c) && MatchesStatus(WithdrawnOnly, c))
  {
    assert "active" != "all" by { assert "active"[1] != "all"[1]; }
    assert "paused" != "all" by { assert "paused"[0] != "all"[0]; }
    assert "paused" != "active" by { assert "paused"[0] != "active"[0]; }
    assert "withdrawn" != "all" by { assert "withdrawn"[0] != "all"[0]; }
    assert "withdrawn" != "active" by { assert "withdrawn"[0] != "active"[0]; }
    assert "withdrawn" != "paused" by { assert "withdrawn"[0] != "paused"[0]; }
  }

  /** Filtering by `active`, `paused` and `withdrawn` splits the contestants into
      three parts that together hold each of them exactly as often as the list. */
  lemma StatusFiltersPartition(cs: seq<Contestant>)
    ensures multiset(Filter(cs, StatusFilter(ShownOnly))) + multiset(Filter(cs, StatusFilter(HiddenOnly)))
      + multiset(Filter(cs, StatusFilter(WithdrawnOnly))) == multiset(cs)
  {
    var a, p, w := StatusFilter(ShownOnly), StatusFilter(HiddenOnly), StatusFilter(WithdrawnOnly);
    forall c: Contestant
      ensures (a(c) || p(c) || w(c)) && !(a(c) && p(c)) && !(a(c) && w(c)) && !(p(c) && w(c))
    {
      StatusesExclusive(c);
    }
    FilterPartition3(cs, a, p, w);
  }

  /** Lower-casing the search text first changes nothing. */
  lemma SearchIgnoresCase(search: string, c: Contestant)
    ensures MatchesSearch(ToLower(search), c) == MatchesSearch(search, c)
  {
    assert ToLower(ToLower(search)) == ToLower(search);
  }

  /** With an empty search and the `all` and `All` choices, every contestant is
      listed. */
  lemma DefaultQueryListsAll(cs: seq<Contestant>, sort: string)
    ensures multiset(ListContestants(cs, ListQuery("", "all", "All", sort))) == multiset(cs)
  {
    var q := ListQuery("", "all", "All", sort);
    forall c | c in cs ensures ListedBy(q)(c) {
      assert ToLower("") == "";
      assert Includes(ToLower(c.name), "");
    }
    FilterAll(cs, ListedBy(q));
  }

  // ---------------------------------------------------------------------------
  // Overview

  function InOverview(category: string): Contestant -> bool {
    (c: Contestant) => MatchesCategory(category, c)
  }

  /** `filteredOverviewContestants`: all contestants, or those of one category. */
  function Overview(cs: seq<Contestant>, category: string): (r: seq<Contestant>)
    ensures category == "All" ==> r == cs
    ensures forall c :: c in r <==> c in cs && (category == "All" || c.category == category)
    ensures IsSubsequence(r, cs)
  {
    FilterIsSubsequence(cs, InOverview(category));
    if category == "All" then
      FilterAll(cs, InOverview(category));
      cs
    else Filter(cs, InOverview(category))
  }

  function Votes(c: Contestant): int { c.votes }

  /** `filteredTotalVotes`: over all time, the sum of the shown contestants'
      counters; for a time window, the number of vote records in it, which the
      date arithmetic computes and the model takes as `votesInWindow`. */
  function FilteredTotalVotes(cs: seq<Contestant>, category: string, timeRange: string, votesInWindow: nat): (r: int)
    ensures timeRange != "all" ==> r == votesInWindow
    ensures timeRange == "all" && category == "All" ==> r == SumBy(cs, Votes)
  {
    if timeRange == "all" then SumBy(Overview(cs, category), Votes) else votesInWindow
  }

  function OutsideCategory(category: string): Contestant -> bool {
    (c: Contestant) => c.category != category
  }

  /** Over all time, the total of one category plus the votes of every other
      contestant is the total of all categories. */
  lemma TotalsSplitByCategory(cs: seq<Contestant>, category: string, n: nat)
    requires category != "All"
    ensures FilteredTotalVotes(cs, "All", "all", n)
      == FilteredTotalVotes(cs, category, "all", n) + SumBy(Filter(cs, OutsideCategory(category)), Votes)
  {
    SumByPartition(cs, InOverview(category), OutsideCategory(category), Votes);
  }

  /** The first `n` elements of `s` in the order `le`. */
  function Top<T(!new)>(s: seq<T>, n: nat, le: (T, T) -> bool): (r: seq<T>)
    ensures |r| == if |s| < n then |s| else n
    ensures multiset(r) <= multiset(s)
    ensures Total(le) && Transitive(le) ==> SortedBy(r, le)
    ensures Total(le) && Transitive(le) && |r| > 0 ==>
      forall x :: x in multiset(s) - multiset(r) ==> le(r[|r| - 1], x)
  {
    var sorted := Sort(s, le);
    var k := if |s| < n then |s| else n;
    var r := sorted[..k];
    TopProperties(s, sorted, k, le, r);
    r
  }

  lemma TopProperties<T(!new)>(s: seq<T>, sorted: seq<T>, k: nat, le: (T, T) -> bool, r: seq<T>)
    requires sorted == Sort(s, le) && k <= |s| && r == sorted[..k]
    ensures |r| == k
    ensures multiset(r) <= multiset(s)
    ensures Total(le) && Transitive(le) ==> SortedBy(r, le)
    ensures Total(le) && Transitive(le) && k > 0 ==>
      forall x :: x in multiset(s) - multiset(r) ==> le(r[k - 1], x)
  {
    PrefixSplit(sorted, k);
    if Total(le) && Transitive(le) {
      SortSorted(s, le);
      if k > 0 {
        BeyondPrefix(sorted, k, le);
      }
    }
  }

  lemma PrefixSplit<T>(s: seq<T>, k: nat)
    requires k <= |s|
    ensures multiset(s) == multiset(s[..k]) + multiset(s[k..])
  {
    assert s == s[..k] + s[k..];
  }

  /** In a sorted list, everything after the first `k` follows the `k`-th. */
  lemma BeyondPrefix<T>(s: seq<T>, k: nat, le: (T, T) -> bool)
    requires SortedBy(s, le) && 0 < k <= |s|
    ensures forall x :: x in multiset(s) - multiset(s[..k]) ==> le(s[k - 1], x)
  {
    PrefixSplit(s, k);
    forall x | x in multiset(s) - multiset(s[..k]) ensures le(s[k - 1], x) {
      assert x in multiset(s[k..]);
      var j :| 0 <= j < |s[k..]| && s[k..][j] == x;
      assert s[k + j] == x;
    }
  }

  /** `top5ContestantsMemo`: the five shown contestants with the most votes, most
      first; no contestant left out has more votes than the fifth. */
  function Top5(overview: seq<Contestant>): (r: seq<Contestant>)
    ensures |r| == if |overview| < 5 then |overview| else 5
    ensures multiset(r) <= multiset(overview)
    ensures SortedBy(r, ByVotesDesc)
    ensures |r| > 0 ==> forall c :: c in multiset(overview) - multiset(r) ==> c.votes <= r[|r| - 1].votes
  {
    ContestantOrders();
    if |overview| == 0 then [] else Top(overview, 5, ByVotesDesc)
  }

  /** The part of a name before its first space (`name.split(' ')[0]`). */
  function FirstWord(name: string): (r: string)
    ensures r <= name
    ensures ' ' !in r
    ensures r == name || name[|r|] == ' '
  {
    if |name| == 0 || name[0] == ' ' then "" else [name[0]] + FirstWord(name[1..])
  }

  datatype VoteBar = VoteBar(name: string, votes: int)

  function Bar(c: Contestant): VoteBar { VoteBar(FirstWord(c.name), c.votes) }

  function Bars(cs: seq<Contestant>): (r: seq<VoteBar>)
    ensures |r| == |cs|
    ensures forall i :: 0 <= i < |cs| ==> r[i] == Bar(cs[i])
  {
    seq(|cs|, i requires 0 <= i < |cs| => Bar(cs[i]))
  }

  predicate BarsByVotesDesc(a: VoteBar, b: VoteBar) { a.votes >= b.votes }

  predicate NotWithdrawn(c: Contestant) { c.status != ContestantStatus.Withdrawn }

  /** Every bar the chart could show: one per shown contestant who has not withdrawn. */
  function Candidates(overview: seq<Contestant>): seq<VoteBar> {
    Bars(Filter(overview, NotWithdrawn))
  }

  /** `voteData`: at most ten bars, most votes first, each for a shown contestant
      who has not withdrawn, and no bar left out above the last one shown. */
  function VoteData(overview: seq<Contestant>): (r: seq<VoteBar>)
    ensures |r| == if |Candidates(overview)| < 10 then |Candidates(overview)| else 10
    ensures SortedBy(r, BarsByVotesDesc)
    ensures multiset(r) <= multiset(Candidates(overview))
    ensures forall b :: b in r ==> exists c :: c in overview && c.status != ContestantStatus.Withdrawn && b == Bar(c)
    ensures |r| > 0 ==>
      forall b :: b in multiset(Candidates(overview)) - multiset(r) ==> b.votes <= r[|r| - 1].votes
  {
    var bars := Candidates(overview);
    var r := Top(bars, 10, BarsByVotesDesc);
    CandidatesFromOverview(overview);
    forall b | b in r ensures b in bars {
      assert b in multiset(r);
    }
    r
  }

  /** Every candidate bar is the bar of a shown contestant who has not withdrawn. */
  lemma CandidatesFromOverview(overview: seq<Contestant>)
    ensures forall b :: b in Candidates(overview) ==>
      exists c :: c in overview && c.status != ContestantStatus.Withdrawn && b == Bar(c)
  {
    var kept := Filter(overview, NotWithdrawn);
    forall b | b in Candidates(overview)
      ensures exists c :: c in overview && c.status != ContestantStatus.Withdrawn && b == Bar(c)
    {
      var i :| 0 <= i < |kept| && Candidates(overview)[i] == b;
      assert kept[i] in kept;
    }
  }

  // ---------------------------------------------------------------------------
  // Password form

  datatype Notice = Refused(message: string) | Saved(message: string)

  const PasswordMismatch := "New passwords do not match."
  const PasswordTooShort := "Password must be at least 6 characters."
  const PasswordUpdated := "Password updated successfully."

  const MinPasswordLength := 6

  /** `handleUpdatePassword`: the confirmation must match, then the new password
      must have six UTF-16 code units. */
  function UpdatePassword(newPassword: string, confirmPassword: string): (r: Notice)
    ensures r.Saved? <==> newPassword == confirmPassword && Utf16Length(newPassword) >= MinPasswordLength
    ensures newPassword != confirmPassword ==> r == Refused(PasswordMismatch)
    ensures r == Refused(PasswordTooShort) <==> newPassword == confirmPassword && Utf16Length(newPassword) < MinPasswordLength
    ensures r.Saved? ==> r.message == PasswordUpdated
  {
    if newPassword != confirmPassword then Refused(PasswordMismatch)
    else if Utf16Length(newPassword) < MinPasswordLength then Refused(PasswordTooShort)
    else Saved(PasswordUpdated)
  }

  /** Three emoji are six UTF-16 code units, so they make an acceptable
      password although they are only three characters. */
  lemma SupplementaryCharactersCountTwice()
    ensures var pw := ['\U{1F600}', '\U{1F600}', '\U{1F600}'];
      |pw| == 3 && UpdatePassword(pw, pw) == Saved(PasswordUpdated)
  {
    var pw := ['\U{1F600}', '\U{1F600}', '\U{1F600}'];
    assert pw[1..][1..][1..] == [];
  }
}

=== FILE: admin_route.dfy ===
/** `/api/admin`: `GET` lists the admin accounts, `POST` creates one. Both are
    for the `admin` role only. */
module AdminRoute {
  import opened Wrappers
  import opened Types
  import opened Seqs
  import opened Sorting
  import opened Orders
  import opened Store

  /** An absent `role` is `None`; it then defaults to `manager`. */
  datatype CreateRequest = CreateRequest(email: string, password: string, name: string, role: Option<string>)

  const Unauthorized := "Unauthorized"
  const Forbidden := "Forbidden: Insufficient permissions"
  const MissingFields := "Email, password, and name are required"
  const InvalidRole := "Invalid role. Must be \"admin\" or \"manager\""
  const EmailExists := "Email already exists"

  /** The admin table's email key. */
  ghost predicate UniqueEmails(admins: seq<AdminRow>) {
    Pairwise(admins, (a: AdminRow, b: AdminRow) => a.email != b.email)
  }

  /** The status and message of a refused request. */
  datatype Denial = Denial(code: int, message: string)

  /** The `401`/`403` guard both verbs open with. */
  function Guard(user: Option<SessionUser>): (r: Option<Denial>)
    ensures r.None? <==> user.Some? && user.value.role == Role.Admin
    ensures user.None? ==> r == Some(Denial(401, Unauthorized))
    ensures user.Some? && user.value.role != Role.Admin ==> r == Some(Denial(403, Forbidden))
  {
    if user.None? then Some(Denial(401, Unauthorized))
    else if user.value.role != Role.Admin then Some(Denial(403, Forbidden))
    else None
  }

  function Views(admins: seq<AdminRow>): (r: seq<AdminView>)
    ensures |r| == |admins|
    ensures forall k :: 0 <= k < |r| ==> r[k] == View(admins[k])
  {
    seq(|admins|, k requires 0 <= k < |admins| => View(admins[k]))
  }

  /** All admins, newest first, without their password hashes. */
  function AdminList(admins: seq<AdminRow>): (r: seq<AdminView>)
    ensures multiset(r) == multiset(Views(admins))
    ensures forall a :: a in admins ==> View(a) in r
    ensures forall v :: v in r ==> exists a :: a in admins && v == View(a)
    ensures SortedBy(r, AdminsNewestFirst)
  {
    var views := Views(admins);
    NewestFirstOrders();
    SortSorted(views, AdminsNewestFirst);
    SortSameElements(views, AdminsNewestFirst);
    assert forall a :: a in admins ==> View(a) in views by {
      forall a | a in admins ensures View(a) in views {
        var k :| 0 <= k < |admins| && admins[k] == a;
        assert views[k] == View(a);
      }
    }
    assert forall v :: v in views ==> exists a :: a in admins && v == View(a) by {
      forall v | v in views ensures exists a :: a in admins && v == View(a) {
        var k :| 0 <= k < |views| && views[k] == v;
        assert admins[k] in admins;
      }
    }
    Sort(views, AdminsNewestFirst)
  }

  /** `GET`. */
  function List(db: Db, user: Option<SessionUser>): (r: Reply<seq<AdminView>>)
    ensures Guard(user).Some? ==> r == Fail(Guard(user).value.code, Guard(user).value.message)
    ensures r.Ok? <==> Guard(user).None?
    ensures r.Ok? ==> r == Ok(200, AdminList(db.admins))
  {
    match Guard(user)
    case Some(Denial(code, message)) => Fail(code, message)
    case None => Ok(200, AdminList(db.admins))
  }

  /** `POST`. `id` is the generated id and `passwordHash` the hash of the
      password; `isActive` takes the column default `true`. */
  function Create(db: Db, user: Option<SessionUser>, req: CreateRequest, id: Id, passwordHash: string, now: int): (h: Handled<AdminView>)
    ensures Guard(user).Some? ==> h == Handled(Fail(Guard(user).value.code, Guard(user).value.message), db)
    ensures (Guard(user).None? && (req.email == "" || req.password == "" || req.name == "")) ==>
      h == Handled(Fail(400, MissingFields), db)
    ensures (Guard(user).None? && req.email != "" && req.password != "" && req.name != ""
             && ParseRole(req.role.GetOr("manager")).None?) ==>
      h == Handled(Fail(400, InvalidRole), db)
    ensures (Guard(user).None? && req.email != "" && req.password != "" && req.name != ""
             && ParseRole(req.role.GetOr("manager")).Some? && AdminByEmail(db, req.email).Some?) ==>
      h == Handled(Fail(409, EmailExists), db)
    ensures h.reply.Fail? ==> h.db == db
    ensures h.reply.Ok? ==>
      && Guard(user).None? && ParseRole(req.role.GetOr("manager")).Some?
      && AdminByEmail(db, req.email).None?
      && var a := AdminRow(id, req.email, passwordHash, req.name, ParseRole(req.role.GetOr("manager")).value, true, now);
         h == Handled(Ok(201, View(a)), db.(admins := db.admins + [a]))
  {
    if Guard(user).Some? then Handled(Fail(Guard(user).value.code, Guard(user).value.message), db)
    else if req.email == "" || req.password == "" || req.name == "" then Handled(Fail(400, MissingFields), db)
    else match ParseRole(req.role.GetOr("manager"))
      case None => Handled(Fail(400, InvalidRole), db)
      case Some(role) =>
        if AdminByEmail(db, req.email).Some? then Handled(Fail(409, EmailExists), db)
        else
          var a := AdminRow(id, req.email, passwordHash, req.name, role, true, now);
          Handled(Ok(201, View(a)), db.(admins := db.admins + [a]))
  }

  /** The duplicate check keeps admin emails unique. */
  lemma CreateKeepsEmailsUnique(db: Db, user: Option<SessionUser>, req: CreateRequest, id: Id, hash: string, now: int)
    requires UniqueEmails(db.admins)
    ensures UniqueEmails(Create(db, user, req, id, hash, now).db.admins)
  {
    var h := Create(db, user, req, id, hash, now);
    if h.reply.Ok? {
      var s := h.db.admins;
      forall i, j | 0 <= i < j < |s| ensures s[i].email != s[j].email {
        if j == |db.admins| {
          assert s[i] == db.admins[i];
        }
      }
    }
  }

  /** Two stores whose admins differ at most in their password hashes. */
  ghost predicate SameButHashes(a: seq<AdminRow>, b: seq<AdminRow>) {
    |a| == |b| && forall k :: 0 <= k < |a| ==> a[k].(passwordHash := b[k].passwordHash) == b[k]
  }

  /** No reply of either verb depends on a password hash. */
  lemma HashNeverShown(db1: Db, db2: Db, user: Option<SessionUser>, req: CreateRequest, id: Id,
                       hash1: string, hash2: string, now: int)
    requires db2 == db1.(admins := db2.admins) && SameButHashes(db1.admins, db2.admins)
    ensures List(db1, user) == List(db2, user)
    ensures Create(db1, user, req, id, hash1, now).reply == Create(db2, user, req, id, hash2, now).reply
  {
    assert Views(db1.admins) == Views(db2.admins);
    var p := (a: AdminRow) => a.email == req.email;
    assert forall j :: 0 <= j < |db1.admins| ==> (p(db1.admins[j]) <==> p(db2.admins[j]));
    FindSameAnswers(db1.admins, db2.admins, p);
  }

  lemma FindSameAnswers<T>(a: seq<T>, b: seq<T>, p: T -> bool)
    requires |a| == |b|
    requires forall j :: 0 <= j < |a| ==> (p(a[j]) <==> p(b[j]))
    ensures Find(a, p).Some? == Find(b, p).Some?
  {
    if Find(a, p).Some? {
      var i :| 0 <= i < |a| && p(a[i]);
      assert p(b[i]);
    }
    if Find(b, p).Some? {
      var i :| 0 <= i < |b| && p(b[i]);
      assert p(a[i]);
    }
  }
}

=== FILE: app_context.dfy ===
/** The client-side application state of `services/AppContext.tsx` and its
    operations, each a pure transformation of that state. */
module AppContext {
  import opened Wrappers
  import opened Types
  import opened Seqs
  import Utils

  datatype ClientState = ClientState(
    contests: seq<Contest>,
    contestants: seq<Contestant>,
    votes: seq<VoteRecord>,
    adminRole: Option<Role>,
    adminUsers: seq<AdminUser>)

  /** What `castVote` resolves to. */
  datatype CastOutcome = CastOutcome(success: bool, message: string)

  const ClosedMessage := "Voting is currently closed or paused for this contest."
  const AlreadyVotedMessage := "This email has already voted in this contest."
  const OtpSentMessage := "OTP sent to your email."

  /** The one code the mock verification accepts. */
  const MockOtp := "123456"

  /** The first contest with the id is open for voting. */
  predicate ContestOpen(contests: seq<Contest>, contestId: Id) {
    var c := Find(contests, (c: Contest) => c.id == contestId);
    c.Some? && c.value.status.Active?
  }

  /** A verified vote of `email` in the contest is recorded. */
  predicate HasVerifiedVote(votes: seq<VoteRecord>, email: string, contestId: Id) {
    exists i :: 0 <= i < |votes| && votes[i].email == email && votes[i].contestId == contestId
                                 && votes[i].status == Verified
  }

  /** `castVote`: a check only, which never changes the state. The contest check
      comes first; pending votes do not block. */
  function CastVote(st: ClientState, email: string, contestantId: Id, contestId: Id): (r: CastOutcome)
    ensures r.success <==> ContestOpen(st.contests, contestId) && !HasVerifiedVote(st.votes, email, contestId)
    ensures !ContestOpen(st.contests, contestId) ==> r.message == ClosedMessage
    ensures ContestOpen(st.contests, contestId) && HasVerifiedVote(st.votes, email, contestId)
      ==> r.message == AlreadyVotedMessage
    ensures r.success ==> r.message == OtpSentMessage
  {
    if !ContestOpen(st.contests, contestId) then CastOutcome(false, ClosedMessage)
    else if Find(st.votes, (v: VoteRecord) => v.email == email && v.contestId == contestId && v.status == Verified).Some? then
      CastOutcome(false, AlreadyVotedMessage)
    else CastOutcome(true, OtpSentMessage)
  }

  /** `verifyVote`: the mock check, which accepts one fixed code. */
  function VerifyVote(email: string, otp: string): (ok: bool)
    ensures ok ==> Utils.ValidateOtp(otp)
  {
    otp == MockOtp
  }

  /** The mock accepts its code for every email, refuses every other code, and
      never looks at the email; the code it accepts is one the real format
      check also accepts. */
  lemma MockOtpOnly(email: string, other: string, otp: string)
    ensures VerifyVote(email, MockOtp) && Utils.ValidateOtp(MockOtp)
    ensures otp != MockOtp ==> !VerifyVote(email, otp)
    ensures VerifyVote(email, otp) == VerifyVote(other, otp)
  {
    assert Utils.ValidateOtp(MockOtp);
  }

  /** The record `confirmVote` appends; `id` stands for the random id and `now`
      for `Date.now()`. */
  function VerifiedRecord(id: Id, email: string, contestantId: Id, contestId: Id, now: int): VoteRecord {
    VoteRecord(id, email, contestantId, contestId, now, Verified, None)
  }

  /** `c` with one more vote when it is the contestant `id`. */
  function Credit(c: Contestant, id: Id): Contestant {
    if c.id == id then c.(votes := c.votes + 1) else c
  }

  /** `confirmVote`: commits a verified vote and credits the contestant. */
  function ConfirmVote(st: ClientState, email: string, contestantId: Id, contestId: Id,
                       id: Id, now: int): (r: ClientState)
    ensures r.votes == st.votes + [VerifiedRecord(id, email, contestantId, contestId, now)]
    ensures |r.contestants| == |st.contestants|
    ensures forall k :: 0 <= k < |st.contestants| && st.contestants[k].id == contestantId ==>
      r.contestants[k] == st.contestants[k].(votes := st.contestants[k].votes + 1)
    ensures forall k :: 0 <= k < |st.contestants| && st.contestants[k].id != contestantId ==>
      r.contestants[k] == st.contestants[k]
    ensures r.contests == st.contests && r.adminRole == st.adminRole && r.adminUsers == st.adminUsers
  {
    st.(votes := st.votes + [VerifiedRecord(id, email, contestantId, contestId, now)],
        contestants := seq(|st.contestants|, k requires 0 <= k < |st.contestants| => Credit(st.contestants[k], contestantId)))
  }

  /** After a vote is committed, every later cast by the same email in the same
      contest fails, either as already voted or as closed. */
  lemma ConfirmBlocksRecast(st: ClientState, email: string, contestantId: Id, contestId: Id,
                            id: Id, now: int, otherContestant: Id)
    ensures var r := CastVote(ConfirmVote(st, email, contestantId, contestId, id, now), email, otherContestant, contestId);
            !r.success && (r.message == AlreadyVotedMessage || r.message == ClosedMessage)
  {
    var st2 := ConfirmVote(st, email, contestantId, contestId, id, now);
    assert st2.votes[|st2.votes| - 1] == VerifiedRecord(id, email, contestantId, contestId, now);
  }

  /** `confirmVote` is not idempotent: committing the same vote twice credits the
      contestant twice. */
  lemma ConfirmTwiceCreditsTwice(st: ClientState, email: string, contestantId: Id, contestId: Id,
                                 id1: Id, id2: Id, t1: int, t2: int, k: nat)
    requires k < |st.contestants| && st.contestants[k].id == contestantId
    ensures var r := ConfirmVote(ConfirmVote(st, email, contestantId, contestId, id1, t1),
                                 email, contestantId, contestId, id2, t2);
            r.contestants[k].votes == st.contestants[k].votes + 2 && |r.votes| == |st.votes| + 2
  {
  }

  // ---------------------------------------------------------------------------
  // Contestant list edits

  /** `toggleContestantVisibility`. */
  function ToggleVisibility(cs: seq<Contestant>, id: Id): (r: seq<Contestant>)
    ensures |r| == |cs|
    ensures forall k :: 0 <= k < |cs| && cs[k].id == id ==> r[k] == cs[k].(isVisible := !cs[k].isVisible)
    ensures forall k :: 0 <= k < |cs| && cs[k].id != id ==> r[k] == cs[k]
  {
    seq(|cs|, k requires 0 <= k < |cs| => if cs[k].id == id then cs[k].(isVisible := !cs[k].isVisible) else cs[k])
  }

  /** Toggling visibility twice restores the list. */
  lemma {:induction false} ToggleTwiceIsIdentity(cs: seq<Contestant>, id: Id)
    ensures ToggleVisibility(ToggleVisibility(cs, id), id) == cs
  {
    var r := ToggleVisibility(ToggleVisibility(cs, id), id);
    assert forall k :: 0 <= k < |cs| ==> r[k] == cs[k];
  }

  function Flip(s: ContestantStatus): ContestantStatus {
    if s == Withdrawn then ContestantStatus.Active else Withdrawn
  }

  /** `withdrawContestant`: swaps `withdrawn` and `active` for the matching
      contestants. */
  function Withdraw(cs: seq<Contestant>, id: Id): (r: seq<Contestant>)
    ensures |r| == |cs|
    ensures forall k :: 0 <= k < |cs| && cs[k].id == id ==>
      r[k] == cs[k].(status := Flip(cs[k].status)) && r[k].status != cs[k].status
    ensures forall k :: 0 <= k < |cs| && cs[k].id != id ==> r[k] == cs[k]
  {
    seq(|cs|, k requires 0 <= k < |cs| => if cs[k].id == id then cs[k].(status := Flip(cs[k].status)) else cs[k])
  }

  /** Withdrawing twice restores the list. */
  lemma {:induction false} WithdrawTwiceIsIdentity(cs: seq<Contestant>, id: Id)
    ensures Withdraw(Withdraw(cs, id), id) == cs
  {
    var r := Withdraw(Withdraw(cs, id), id);
    assert forall k :: 0 <= k < |cs| ==> r[k] == cs[k];
  }

  /** `addContestant`: appends the contestant, forced to `active`. */
  function AddContestant(cs: seq<Contestant>, c: Contestant): (r: seq<Contestant>)
    ensures |r| == |cs| + 1 && r[..|cs|] == cs
    ensures r[|cs|].status == ContestantStatus.Active && r[|cs|] == c.(status := ContestantStatus.Active)
  {
    cs + [c.(status := ContestantStatus.Active)]
  }

  /** `deleteContestant`: only an `admin` deletes; it removes exactly the
      contestants with the id and keeps the others in order. */
  function DeleteContestant(st: ClientState, id: Id): (r: ClientState)
    ensures st.adminRole != Some(Admin) ==> r == st
    ensures st.adminRole == Some(Admin) ==>
      && r == st.(contestants := r.contestants)
      && (forall c :: c in r.contestants <==> c in st.contestants && c.id != id)
      && (forall c :: multiset(r.contestants)[c] == if c.id != id then multiset(st.contestants)[c] else 0)
      && IsSubsequence(r.contestants, st.contestants)
  {
    if st.adminRole != Some(Admin) then st
    else
      FilterIsSubsequence(st.contestants, (c: Contestant) => c.id != id);
      FilterCount(st.contestants, (c: Contestant) => c.id != id);
      st.(contestants := Filter(st.contestants, (c: Contestant) => c.id != id))
  }

  /** Adding a contestant and deleting its id as admin leaves no contestant with
      that id. */
  lemma AddThenDeleteLeavesNone(st: ClientState, c: Contestant)
    requires st.adminRole == Some(Admin)
    ensures var r := DeleteContestant(st.(contestants := AddContestant(st.contestants, c)), c.id);
            forall x :: x in r.contestants ==> x.id != c.id
  {
  }

  // ---------------------------------------------------------------------------
  // Contests

  /** `updateContestStatus`. */
  function UpdateContestStatus(contests: seq<Contest>, id: Id, status: ContestStatus): (r: seq<Contest>)
    ensures |r| == |contests|
    ensures forall k :: 0 <= k < |contests| && contests[k].id == id ==> r[k] == contests[k].(status := status)
    ensures forall k :: 0 <= k < |contests| && contests[k].id != id ==> r[k] == contests[k]
  {
    seq(|contests|, k requires 0 <= k < |contests| => if contests[k].id == id then contests[k].(status := status) else contests[k])
  }

  /** Pausing or ending a contest closes client-side casting for it; reopening
      makes the contest check pass again. */
  lemma {:induction false} StatusUpdateGovernsCasting(st: ClientState, contestId: Id, status: ContestStatus,
                                                      email: string, contestantId: Id)
    requires exists k :: 0 <= k < |st.contests| && st.contests[k].id == contestId
    ensures var st2 := st.(contests := UpdateContestStatus(st.contests, contestId, status));
            ContestOpen(st2.contests, contestId) <==> status.Active?
  {
    var cs2 := UpdateContestStatus(st.contests, contestId, status);
    var i := FindIndex(cs2, (c: Contest) => c.id == contestId);
    var j := FindIndex(st.contests, (c: Contest) => c.id == contestId);
    assert j.Some?;
    assert i.Some?  by { assert cs2[j.value].id == contestId; }
    assert cs2[i.value] == st.contests[i.value].(status := status);
  }

  // ---------------------------------------------------------------------------
  // Admin users and role

  /** `inviteAdminUser`: appends an invited user who never logged in. */
  function InviteAdminUser(users: seq<AdminUser>, email: string, role: Role, id: Id): (r: seq<AdminUser>)
    ensures |r| == |users| + 1 && r[..|users|] == users
    ensures r[|users|] == AdminUser(id, email, role, Invited, "")
  {
    users + [AdminUser(id, email, role, Invited, "")]
  }

  /** A `Partial<AdminUser>`: the fields an update sets. */
  datatype AdminUserPatch = AdminUserPatch(
    id: Option<Id>,
    email: Option<string>,
    role: Option<Role>,
    status: Option<AdminUserStatus>,
    lastLogin: Option<string>)

  /** `{ ...u, ...updates }`. */
  function ApplyPatch(u: AdminUser, p: AdminUserPatch): AdminUser {
    AdminUser(p.id.GetOr(u.id), p.email.GetOr(u.email), p.role.GetOr(u.role),
              p.status.GetOr(u.status), p.lastLogin.GetOr(u.lastLogin))
  }

  /** `updateAdminUser`. */
  function UpdateAdminUser(users: seq<AdminUser>, id: Id, p: AdminUserPatch): (r: seq<AdminUser>)
    ensures |r| == |users|
    ensures forall k :: 0 <= k < |users| && users[k].id == id ==> r[k] == ApplyPatch(users[k], p)
    ensures forall k :: 0 <= k < |users| && users[k].id != id ==> r[k] == users[k]
  {
    seq(|users|, k requires 0 <= k < |users| => if users[k].id == id then ApplyPatch(users[k], p) else users[k])
  }

  /** An empty patch changes nothing. */
  lemma EmptyPatchIsIdentity(users: seq<AdminUser>, id: Id)
    ensures UpdateAdminUser(users, id, AdminUserPatch(None, None, None, None, None)) == users
  {
    var r := UpdateAdminUser(users, id, AdminUserPatch(None, None, None, None, None));
    assert forall k :: 0 <= k < |users| ==> r[k] == users[k];
  }

  /** `deleteAdminUser`: removes exactly the users with the id and keeps every
      other one, as often as it occurs, in order. */
  function DeleteAdminUser(users: seq<AdminUser>, id: Id): (r: seq<AdminUser>)
    ensures forall u :: u in r <==> u in users && u.id != id
    ensures forall u :: multiset(r)[u] == if u.id != id then multiset(users)[u] else 0
    ensures IsSubsequence(r, users)
  {
    FilterIsSubsequence(users, (u: AdminUser) => u.id != id);
    FilterCount(users, (u: AdminUser) => u.id != id);
    Filter(users, (u: AdminUser) => u.id != id)
  }

  /** Deleting an id twice is deleting it once. */
  lemma DeleteAdminUserIdempotent(users: seq<AdminUser>, id: Id)
    ensures DeleteAdminUser(DeleteAdminUser(users, id), id) == DeleteAdminUser(users, id)
  {
    FilterAll(DeleteAdminUser(users, id), (u: AdminUser) => u.id != id);
  }

  /** Inviting a user under a fresh id and deleting that id restores the list. */
  lemma InviteThenDeleteRestores(users: seq<AdminUser>, email: string, role: Role, id: Id)
    requires forall u :: u in users ==> u.id != id
    ensures DeleteAdminUser(InviteAdminUser(users, email, role, id), id) == users
  {
    var keep := (u: AdminUser) => u.id != id;
    FilterAppend(users, [AdminUser(id, email, role, Invited, "")], keep);
    FilterAll(users, keep);
  }

  /** `loginAdmin`: sets the role and nothing else. */
  function LoginAdmin(st: ClientState, role: Option<Role>): (r: ClientState)
    ensures r.adminRole == role
    ensures r.contests == st.contests && r.contestants == st.contestants
    ensures r.votes == st.votes && r.adminUsers == st.adminUsers
  {
    st.(adminRole := role)
  }

  /** `logoutAdmin`: clears the role and nothing else. */
  function LogoutAdmin(st: ClientState): (r: ClientState)
    ensures r.adminRole.None?
    ensures r.contests == st.contests && r.contestants == st.contestants
    ensures r.votes == st.votes && r.adminUsers == st.adminUsers
  {
    st.(adminRole := None)
  }

  /** Logging out after any login is the same as logging out directly, and a
      second login replaces the first. */
  lemma LoginLogoutRoundTrip(st: ClientState, a: Option<Role>, b: Option<Role>)
    ensures LogoutAdmin(LoginAdmin(st, a)) == LogoutAdmin(st)
    ensures LoginAdmin(LoginAdmin(st, a), b) == LoginAdmin(st, b)
    ensures st.adminRole.None? ==> LogoutAdmin(st) == st
  {
  }

  /** The role flag plays no part in voting: casting answers the same and
      committing a vote commutes with logging in. */
  lemma RoleIrrelevantToVoting(st: ClientState, role: Option<Role>, email: string,
                               contestantId: Id, contestId: Id, id: Id, now: int)
    ensures CastVote(LoginAdmin(st, role), email, contestantId, contestId)
      == CastVote(st, email, contestantId, contestId)
    ensures ConfirmVote(LoginAdmin(st, role), email, contestantId, contestId, id, now)
      == LoginAdmin(ConfirmVote(st, email, contestantId, contestId, id, now), role)
  {
  }

  /** The client role flag gates deletion: after logout, or logged in as
      manager, `deleteContestant` changes nothing; as admin it removes the id. */
  lemma RoleGatesDeletion(st: ClientState, id: Id)
    ensures DeleteContestant(LogoutAdmin(st), id) == LogoutAdmin(st)
    ensures DeleteContestant(LoginAdmin(st, Some(Manager)), id) == LoginAdmin(st, Some(Manager))
    ensures forall c :: c in DeleteContestant(LoginAdmin(st, Some(Admin)), id).contestants ==> c.id != id
  {
  }
}

=== FILE: contest_page.dfy ===
/** The public contest page (`pages/ContestPage.tsx`): the split of a contest's
    contestants, the vote dialog's state machine and the per-category
    leaderboard. */
module ContestPage {
  import opened Wrappers
  import opened Types
  import opened Seqs
  import opened Strings
  import opened Sorting
  import opened Orders
  import opened AppContext

  // ---------------------------------------------------------------------------
  // Contestant lists

  /** `allContestants`: the shown contestants of the contest. */
  function VisibleIn(cs: seq<Contestant>, contestId: Id): seq<Contestant> {
    Filter(cs, (c: Contestant) => c.isVisible && c.contestId == contestId)
  }

  /** `activeContestants`. */
  function ActiveIn(cs: seq<Contestant>, contestId: Id): seq<Contestant> {
    Filter(VisibleIn(cs, contestId), (c: Contestant) => c.status != Withdrawn)
  }

  /** `withdrawnContestants`. */
  function WithdrawnIn(cs: seq<Contestant>, contestId: Id): seq<Contestant> {
    Filter(VisibleIn(cs, contestId), (c: Contestant) => c.status == Withdrawn)
  }

  /** The active and withdrawn lists split the shown contestants of the contest:
      no contestant is in both, and together they hold every one of them, as
      often as it occurs. */
  lemma ActiveWithdrawnPartition(cs: seq<Contestant>, contestId: Id)
    ensures multiset(ActiveIn(cs, contestId)) + multiset(WithdrawnIn(cs, contestId))
            == multiset(VisibleIn(cs, contestId))
    ensures forall c :: c in ActiveIn(cs, contestId) ==> c !in WithdrawnIn(cs, contestId)
    ensures forall c :: c in VisibleIn(cs, contestId) <==> c in cs && c.isVisible && c.contestId == contestId
  {
    FilterPartition(VisibleIn(cs, contestId), (c: Contestant) => c.status != Withdrawn,
                    (c: Contestant) => c.status == Withdrawn);
  }

  // ---------------------------------------------------------------------------
  // Vote dialog

  /** The dialog's state: open flag, chosen contestant, the two inputs, the
      captcha tick, the step and the error line. */
  datatype Modal = Modal(
    open: bool,
    selected: Option<Id>,
    email: string,
    otp: string,
    captcha: bool,
    status: VoteStatus,
    error: string)

  const HumanCheckMessage := "Please verify you are human."
  const InvalidCodeMessage := "Invalid code. Please try again (Use 123456)."

  /** `openVoteModal`: only while the contest is active; it then starts afresh. */
  function OpenVoteModal(m: Modal, contest: Contest, contestantId: Id): (r: Modal)
    ensures !contest.status.Active? ==> r == m
    ensures contest.status.Active? ==>
      r.open && r.selected == Some(contestantId) && r.status == Idle
      && r.email == "" && r.otp == "" && !r.captcha && r.error == ""
  {
    if !contest.status.Active? then m
    else Modal(true, Some(contestantId), "", "", false, Idle, "")
  }

  /** `handleEmailSubmit` once `castVote` has resolved. Without the captcha it
      only shows an error; otherwise the cast decides the next step. The cast
      reads the chosen contestant (`selectedContestantId!`). */
  function SubmitEmail(m: Modal, st: ClientState, contest: Contest): (r: Modal)
    requires m.captcha ==> m.selected.Some?
    ensures !m.captcha ==> r == m.(error := HumanCheckMessage)
    ensures m.captcha && CastVote(st, m.email, m.selected.value, contest.id).success ==>
      r == m.(status := AwaitingOtp, error := "")
    ensures m.captcha && !CastVote(st, m.email, m.selected.value, contest.id).success ==>
      r == m.(status := Error, error := CastVote(st, m.email, m.selected.value, contest.id).message)
  {
    if !m.captcha then m.(error := HumanCheckMessage)
    else
      var result := CastVote(st, m.email, m.selected.value, contest.id);
      if result.success then m.(status := AwaitingOtp, error := "")
      else m.(status := Error, error := result.message)
  }

  datatype Step = Step(modal: Modal, state: ClientState)

  /** `handleOtpSubmit` once `verifyVote` has resolved. A valid code commits the
      vote once and succeeds; an invalid one returns to code entry and commits
      nothing. `id` and `now` stand for the new record's random id and time. */
  function SubmitOtp(m: Modal, st: ClientState, contest: Contest, id: Id, now: int): (r: Step)
    requires m.selected.Some?
    ensures m.otp == MockOtp ==>
      r.modal == m.(status := Success)
      && r.state == ConfirmVote(st, m.email, m.selected.value, contest.id, id, now)
      && |r.state.votes| == |st.votes| + 1
    ensures m.otp != MockOtp ==>
      r.modal == m.(status := AwaitingOtp, error := InvalidCodeMessage) && r.state == st
  {
    if VerifyVote(m.email, m.otp) then
      Step(m.(status := Success), ConfirmVote(st, m.email, m.selected.value, contest.id, id, now))
    else
      Step(m.(status := AwaitingOtp, error := InvalidCodeMessage), st)
  }

  /** The whole dialog for one voter: open it, type the email, tick the captcha,
      submit, type the mock code, submit. On an active contest with no verified
      vote of that email the run ends in SUCCESS with one verified record more;
      running the dialog again with the same email then ends in ERROR at the
      email step, showing the already-voted message. */
  lemma VoteDialogRun(m: Modal, st: ClientState, contest: Contest, contestantId: Id,
                      email: string, id: Id, now: int, again: Id)
    requires contest.status.Active?
    requires ContestOpen(st.contests, contest.id)
    requires !HasVerifiedVote(st.votes, email, contest.id)
    ensures var m1 := OpenVoteModal(m, contest, contestantId).(email := email, captcha := true);
            var m2 := SubmitEmail(m1, st, contest);
            var s3 := SubmitOtp(m2.(otp := MockOtp), st, contest, id, now);
            && m2.status == AwaitingOtp
            && s3.modal.status == Success
            && s3.state.votes == st.votes + [VerifiedRecord(id, email, contestantId, contest.id, now)]
            && var m4 := OpenVoteModal(s3.modal, contest, again).(email := email, captcha := true);
               var m5 := SubmitEmail(m4, s3.state, contest);
               m5.status == Error && m5.error == AlreadyVotedMessage
  {
    var m1 := OpenVoteModal(m, contest, contestantId).(email := email, captcha := true);
    var s3 := SubmitOtp(SubmitEmail(m1, st, contest).(otp := MockOtp), st, contest, id, now);
    assert s3.state.contests == st.contests;
    assert s3.state.votes[|s3.state.votes| - 1] == VerifiedRecord(id, email, contestantId, contest.id, now);
  }

  // ---------------------------------------------------------------------------
  // Leaderboard

  /** The category of every contestant, in order. */
  function CategoryNames(active: seq<Contestant>): (names: seq<string>)
    ensures forall x :: x in names <==> exists c :: c in active && c.category == x
  {
    var names := seq(|active|, i requires 0 <= i < |active| => active[i].category);
    forall x | x in names ensures exists c :: c in active && c.category == x {
      var i :| 0 <= i < |names| && names[i] == x;
      assert active[i] in active;
    }
    forall x | exists c :: c in active && c.category == x ensures x in names {
      var c :| c in active && c.category == x;
      var i :| 0 <= i < |active| && active[i] == c;
      assert names[i] == x;
    }
    names
  }

  /** `uniqueCategories`: the distinct non-empty categories of the active
      contestants, in JavaScript's default order of UTF-16 code units. */
  function UniqueCategories(active: seq<Contestant>): (r: seq<string>)
    ensures SortedBy(r, Utf16Le) && Distinct(r)
    ensures forall x :: x in r <==> x != "" && exists c :: c in active && c.category == x
  {
    var d := Dedup(Filter(CategoryNames(active), (x: string) => x != ""));
    CodeUnitOrder();
    SortSorted(d, Utf16Le);
    SortSameElements(d, Utf16Le);
    DistinctMultiset(d);
    DistinctMultiset(Sort(d, Utf16Le));
    Sort(d, Utf16Le)
  }

  /** One category's board: its active contestants, most votes first. */
  function CategoryBoard(cs: seq<Contestant>, contestId: Id, category: string): (r: seq<Contestant>)
    ensures multiset(r) == multiset(Filter(ActiveIn(cs, contestId), (c: Contestant) => c.category == category))
    ensures forall c :: c in r ==>
      c in cs && c.isVisible && c.contestId == contestId && c.status != Withdrawn && c.category == category
    ensures SortedBy(r, ByVotesDesc)
  {
    var f := Filter(ActiveIn(cs, contestId), (c: Contestant) => c.category == category);
    ContestantOrders();
    SortSorted(f, ByVotesDesc);
    SortSameElements(f, ByVotesDesc);
    Sort(f, ByVotesDesc)
  }

  /** `maxVotes`: the leader's votes, or 1 when the board is empty or the leader
      has none, so the percentage bars never divide by zero. */
  function MaxVotes(board: seq<Contestant>): (m: int)
    ensures m != 0
    ensures SortedBy(board, ByVotesDesc) && |board| > 0 && board[0].votes > 0 ==>
      m == board[0].votes && forall c :: c in board ==> c.votes <= m
  {
    if |board| == 0 || board[0].votes == 0 then 1 else board[0].votes
  }
}

=== FILE: contestants_route.dfy ===
/** `/api/contestants`: `POST` creates a contestant, finding or creating its
    category; `GET` lists contestants under optional filters. */
module ContestantsRoute {
  import opened Wrappers
  import opened Types
  import opened Seqs
  import opened Sorting
  import opened Orders
  import opened Store

  /** The body of `POST`. Absent strings are empty; absent `isVisible` and
      `status` are `None` and take their defaults. */
  datatype CreateRequest = CreateRequest(
    name: string,
    bio: string,
    category: string,
    photoUrl: string,
    linkedinUrl: Option<string>,
    email: string,
    contestId: Id,
    isVisible: Option<bool>,
    status: Option<string>)

  /** A contestant as the routes return it: the row with its category's name. */
  datatype ContestantOut = ContestantOut(row: ContestantRow, category: string)

  /** The query parameters of `GET`; an absent parameter is `None`. */
  datatype ListQuery = ListQuery(
    contestId: Option<string>,
    category: Option<string>,
    status: Option<string>,
    isVisible: Option<string>)

  const MissingFields := "Missing required fields"
  const ContestNotFound := "Contest not found"
  const CreateFailed := "Failed to create contestant"
  const FetchFailed := "Failed to fetch contestants"
  const DefaultCover := "https://images.unsplash.com/photo-1511578314322-379afb476865?auto=format&fit=crop&q=80&w=800"

  function StatusName(s: ContestantStatus): string {
    match s
    case Active => "active"
    case Withdrawn => "withdrawn"
  }

  function ParseStatus(s: string): (r: Option<ContestantStatus>)
    ensures r.Some? <==> s == "active" || s == "withdrawn"
    ensures r.Some? ==> StatusName(r.value) == s
  {
    if s == "active" then Some(ContestantStatus.Active)
    else if s == "withdrawn" then Some(Withdrawn)
    else None
  }

  /** The category table's key: one category per name within a contest. */
  ghost predicate UniqueCategories(cats: seq<Category>) {
    Pairwise(cats, (a: Category, b: Category) => a.name != b.name || a.contestId != b.contestId)
  }

  function CategoryByKey(cats: seq<Category>, name: string, contestId: Id): Option<Category> {
    Find(cats, (c: Category) => c.name == name && c.contestId == contestId)
  }

  function NewCategory(id: Id, name: string, contestId: Id): Category {
    Category(id, name, "Award category for " + name, DefaultCover, None, 0, true, contestId)
  }

  /** The category a new contestant goes into: the existing one with that name in
      that contest, or a new one. */
  function FindOrCreate(cats: seq<Category>, name: string, contestId: Id, newId: Id): (r: (seq<Category>, Category))
    ensures r.1.name == name && r.1.contestId == contestId
    ensures r.1 in r.0
    ensures CategoryByKey(cats, name, contestId).Some? ==> r == (cats, CategoryByKey(cats, name, contestId).value)
    ensures CategoryByKey(cats, name, contestId).None? ==> r == (cats + [NewCategory(newId, name, contestId)], NewCategory(newId, name, contestId))
    ensures UniqueCategories(cats) ==> UniqueCategories(r.0)
  {
    match CategoryByKey(cats, name, contestId)
    case Some(c) => (cats, c)
    case None =>
      var c := NewCategory(newId, name, contestId);
      var s := cats + [c];
      assert c == s[|cats|];
      assert UniqueCategories(cats) ==> UniqueCategories(s) by {
        if UniqueCategories(cats) {
          forall i, j | 0 <= i < j < |s| ensures s[i].name != s[j].name || s[i].contestId != s[j].contestId {
            if j == |cats| { assert s[i] == cats[i]; }
          }
        }
      }
      (s, c)
  }

  predicate HasFields(req: CreateRequest) {
    req.name != "" && req.bio != "" && req.category != "" && req.photoUrl != ""
    && req.email != "" && req.contestId != ""
  }

  /** `POST`. `categoryId` and `contestantId` are the generated ids. The category
      is written before the contestant, so an unknown `status` (refused by the
      contestant insert) leaves a newly created category behind. */
  function Create(db: Db, req: CreateRequest, categoryId: Id, contestantId: Id): (h: Handled<ContestantOut>)
    ensures !HasFields(req) ==> h == Handled(Fail(400, MissingFields), db)
    ensures HasFields(req) && ContestById(db, req.contestId).None? ==> h == Handled(Fail(404, ContestNotFound), db)
    ensures h.reply.Ok? <==>
      HasFields(req) && ContestById(db, req.contestId).Some? && ParseStatus(req.status.GetOr("active")).Some?
    ensures h.db.(categories := db.categories, contestants := db.contestants) == db
    ensures UniqueCategories(db.categories) ==> UniqueCategories(h.db.categories)
    ensures h.reply.Ok? ==>
      var (cats, cat) := FindOrCreate(db.categories, req.category, req.contestId, categoryId);
      var row := ContestantRow(contestantId, req.name, req.bio, cat.id, req.photoUrl, req.linkedinUrl,
                               req.email, req.contestId, req.isVisible.GetOr(true),
                               ParseStatus(req.status.GetOr("active")).value, 0);
      && h.reply == Ok(201, ContestantOut(row, req.category))
      && h.db == db.(categories := cats, contestants := db.contestants + [row])
  {
    if !HasFields(req) then Handled(Fail(400, MissingFields), db)
    else if ContestById(db, req.contestId).None? then Handled(Fail(404, ContestNotFound), db)
    else
      var (cats, cat) := FindOrCreate(db.categories, req.category, req.contestId, categoryId);
      var withCategory := db.(categories := cats);
      match ParseStatus(req.status.GetOr("active"))
      case None => Handled(Fail(500, CreateFailed), withCategory)
      case Some(status) =>
        var row := ContestantRow(contestantId, req.name, req.bio, cat.id, req.photoUrl, req.linkedinUrl,
                                 req.email, req.contestId, req.isVisible.GetOr(true), status, 0);
        Handled(Ok(201, ContestantOut(row, cat.name)),
                withCategory.(contestants := db.contestants + [row]))
  }

  /** Creating two contestants with the same category name in the same contest
      files both under one category. */
  lemma SecondCreateReusesCategory(db: Db, r1: CreateRequest, r2: CreateRequest, c1: Id, c2: Id, p1: Id, p2: Id)
    requires Create(db, r1, c1, p1).reply.Ok?
    requires HasFields(r2) && r2.category == r1.category && r2.contestId == r1.contestId
    requires ParseStatus(r2.status.GetOr("active")).Some?
    ensures var h1 := Create(db, r1, c1, p1);
      var h2 := Create(h1.db, r2, c2, p2);
      && h2.reply.Ok? && h2.db.categories == h1.db.categories
      && h2.reply.value.row.categoryId == h1.reply.value.row.categoryId
  {
    var h1 := Create(db, r1, c1, p1);
    var cat := FindOrCreate(db.categories, r1.category, r1.contestId, c1).1;
    assert ContestById(h1.db, r2.contestId) == ContestById(db, r1.contestId);
    var key := (c: Category) => c.name == r1.category && c.contestId == r1.contestId;
    var cats := h1.db.categories;
    if CategoryByKey(db.categories, r1.category, r1.contestId).None? {
      assert cats == db.categories + [cat];
      FirstMatchAfterAppend(db.categories, cat, key);
    }
  }

  /** Appending the first element that matches makes it the first match. */
  lemma FirstMatchAfterAppend<T>(s: seq<T>, x: T, p: T -> bool)
    requires Find(s, p).None? && p(x)
    ensures Find(s + [x], p) == Some(x)
  {
    var t := s + [x];
    assert p(t[|s|]);
    var i := FindIndex(t, p).value;
  }

  // GET

  /** A parameter the handler uses: present and non-empty. */
  predicate Given(p: Option<string>) {
    p.Some? && p.value != ""
  }

  function CategoryName(db: Db, id: Id): Option<string> {
    match Find(db.categories, (c: Category) => c.id == id)
    case Some(c) => Some(c.name)
    case None => None
  }

  /** A row passes the filters the query sets: `contestId`, `status` and the
      category when given, and `isVisible` whenever present (only `"true"` means
      true). */
  predicate Matches(db: Db, q: ListQuery, c: ContestantRow) {
    && (Given(q.contestId) ==> c.contestId == q.contestId.value)
    && (Given(q.category) ==> CategoryName(db, c.categoryId) == Some(q.category.value))
    && (Given(q.status) ==> StatusName(c.status) == q.status.value)
    && (q.isVisible.Some? ==> c.isVisible == (q.isVisible.value == "true"))
  }

  /** The matching rows, most votes first and then by name. */
  function Selected(db: Db, q: ListQuery): (r: seq<ContestantRow>)
    ensures multiset(r) == multiset(Filter(db.contestants, (c: ContestantRow) => Matches(db, q, c)))
    ensures forall c :: c in r <==> c in db.contestants && Matches(db, q, c)
    ensures SortedBy(r, RowsByVotesThenName)
  {
    var matching := Filter(db.contestants, (c: ContestantRow) => Matches(db, q, c));
    RowOrder();
    SortSorted(matching, RowsByVotesThenName);
    SortSameElements(matching, RowsByVotesThenName);
    Sort(matching, RowsByVotesThenName)
  }

  /** Each row with its category's name; `None` when a row's category is
      missing (reading the name of the missing relation throws). */
  function WithNames(db: Db, rows: seq<ContestantRow>): (r: Option<seq<ContestantOut>>)
    ensures r.Some? <==> forall k :: 0 <= k < |rows| ==> CategoryName(db, rows[k].categoryId).Some?
    ensures r.Some? ==> |r.value| == |rows| && forall k :: 0 <= k < |rows| ==>
      r.value[k] == ContestantOut(rows[k], CategoryName(db, rows[k].categoryId).value)
  {
    if |rows| == 0 then Some([])
    else match (CategoryName(db, rows[0].categoryId), WithNames(db, rows[1..]))
      case (Some(n), Some(rest)) => Some([ContestantOut(rows[0], n)] + rest)
      case _ => None
  }

  /** The `status` parameter is absent, empty or one of the column's two values.
      The column is an enumeration, so the query layer rejects any other value,
      as it rejects one in `POST`. */
  predicate KnownStatus(q: ListQuery) {
    Given(q.status) ==> ParseStatus(q.status.value).Some?
  }

  /** `GET` as it is meant to work: the category parameter filters on the
      category's name. An unknown status fails validation and the catch answers
      500. */
  function List(db: Db, q: ListQuery): (r: Reply<seq<ContestantOut>>)
    ensures r.Ok? <==> KnownStatus(q) && WithNames(db, Selected(db, q)).Some?
    ensures Given(q.status) && q.status.value != "active" && q.status.value != "withdrawn" ==>
      r == Fail(500, FetchFailed)
    ensures r.Fail? ==> r == Fail(500, FetchFailed)
    ensures r.Ok? ==>
      && r.code == 200 && |r.value| == |Selected(db, q)|
      && forall k :: 0 <= k < |r.value| ==>
           && r.value[k].row == Selected(db, q)[k]
           && Some(r.value[k].category) == CategoryName(db, r.value[k].row.categoryId)
  {
    if !KnownStatus(q) then Fail(500, FetchFailed)
    else match WithNames(db, Selected(db, q))
      case Some(out) => Ok(200, out)
      case None => Fail(500, FetchFailed)
  }

  /** `GET` as written: the category parameter is put into the filter as a
      plain string on the `category` relation, which the query layer rejects, so
      the handler's catch answers 500. */
  function ListAsWritten(db: Db, q: ListQuery): (r: Reply<seq<ContestantOut>>)
    ensures Given(q.category) ==> r == Fail(500, FetchFailed)
    ensures !Given(q.category) ==> r == List(db, q)
  {
    if Given(q.category) then Fail(500, FetchFailed) else List(db, q)
  }

  /** A store with one contest, one category `Tech` and one contestant in it:
      asking for category `Tech` fails as written and returns the contestant as
      intended. */
  lemma CategoryFilterCounterexample()
    ensures var cat := NewCategory("k1", "Tech", "c1");
      var row := ContestantRow("p1", "Ada", "bio", "k1", "photo", None, "ada@x.io", "c1", true, ContestantStatus.Active, 0);
      var db := Db([Contest("c1", "Awards", "", 0, 1, ContestStatus.Active, "")], [cat], [row], [], [], [], [], []);
      var q := ListQuery(None, Some("Tech"), None, None);
      && ListAsWritten(db, q) == Fail(500, FetchFailed)
      && List(db, q) == Ok(200, [ContestantOut(row, "Tech")])
  {
    var cat := NewCategory("k1", "Tech", "c1");
    var row := ContestantRow("p1", "Ada", "bio", "k1", "photo", None, "ada@x.io", "c1", true, ContestantStatus.Active, 0);
    var db := Db([Contest("c1", "Awards", "", 0, 1, ContestStatus.Active, "")], [cat], [row], [], [], [], [], []);
    var q := ListQuery(None, Some("Tech"), None, None);
    assert CategoryName(db, "k1") == Some("Tech");
    assert Matches(db, q, row);
    var sel := Selected(db, q);
    assert row in sel;
    assert |sel| == 1 by {
      assert Filter(db.contestants, (c: ContestantRow) => Matches(db, q, c)) == [row];
    }
    assert sel == [row];
    var w := WithNames(db, [row]);
    assert CategoryName(db, [row][0].categoryId) == Some("Tech");
    assert w.Some? && |w.value| == 1 && w.value[0] == ContestantOut(row, "Tech");
    assert w.value == [ContestantOut(row, "Tech")];
  }
}

=== FILE: home.dfy ===
/** The landing page's logic: the category cards aggregated from the visible
    contestants, and the countdown to the first contest's opening or close. */
module Home {
  import opened Wrappers
  import opened Types
  import opened Seqs

  // Category aggregation

  /** One card: a category of one contest, how many contestants it shows and
      the photo of the first of them. */
  datatype CategoryCard = CategoryCard(
    name: string,
    contestId: Id,
    contestTitle: string,
    count: int,
    image: string)

  function ContestOf(contests: seq<Contest>, c: Contestant): Option<Contest> {
    Find(contests, (x: Contest) => x.id == c.contestId)
  }

  /** A contestant the aggregation counts: its contest is known and it is
      visible. */
  predicate Retained(contests: seq<Contest>, c: Contestant) {
    ContestOf(contests, c).Some? && c.isVisible
  }

  /** The card a new key starts with. */
  function FirstCard(contests: seq<Contest>, c: Contestant): CategoryCard
    requires Retained(contests, c)
  {
    CategoryCard(c.category, c.contestId, ContestOf(contests, c).value.title, 1, c.photoUrl)
  }

  function KeyIndex<K(==)>(acc: seq<(K, CategoryCard)>, k: K): Option<nat> {
    FindIndex(acc, (e: (K, CategoryCard)) => e.0 == k)
  }

  /** Count `c` under key `k`: bump the existing card, or append a new one (the
      map keeps insertion order). */
  function Bump<K(==)>(contests: seq<Contest>, acc: seq<(K, CategoryCard)>, k: K, c: Contestant): seq<(K, CategoryCard)>
    requires Retained(contests, c)
  {
    match KeyIndex(acc, k)
    case Some(i) => acc[i := (k, acc[i].1.(count := acc[i].1.count + 1))]
    case None => acc + [(k, FirstCard(contests, c))]
  }

  /** The `forEach` over the contestants, as a fold from the left. */
  function Aggregate<K(==)>(contests: seq<Contest>, cs: seq<Contestant>, key: Contestant -> K): seq<(K, CategoryCard)>
    decreases |cs|
  {
    if |cs| == 0 then []
    else
      var acc := Aggregate(contests, cs[..|cs| - 1], key);
      var c := cs[|cs| - 1];
      if Retained(contests, c) then Bump(contests, acc, key(c), c) else acc
  }

  /** The retained contestants under key `k`, in array order. */
  ghost function Members<K>(contests: seq<Contest>, cs: seq<Contestant>, key: Contestant -> K, k: K): seq<Contestant>
    decreases |cs|
  {
    if |cs| == 0 then []
    else
      var c := cs[|cs| - 1];
      Members(contests, cs[..|cs| - 1], key, k) + (if Retained(contests, c) && key(c) == k then [c] else [])
  }

  /** How many contestants are retained. */
  ghost function RetainedCount(contests: seq<Contest>, cs: seq<Contestant>): nat
    decreases |cs|
  {
    if |cs| == 0 then 0
    else RetainedCount(contests, cs[..|cs| - 1]) + (if Retained(contests, cs[|cs| - 1]) then 1 else 0)
  }

  /** Retained under key `k`. */
  ghost function Hits<K>(contests: seq<Contest>, key: Contestant -> K, k: K): Contestant -> bool {
    (c: Contestant) => Retained(contests, c) && key(c) == k
  }

  /** Retained, in contest `contestId` and category `name`. */
  function InCategory(contests: seq<Contest>, contestId: Id, name: string): Contestant -> bool {
    (c: Contestant) => Retained(contests, c) && c.contestId == contestId && c.category == name
  }

  /** The members are the filter of the contestants by retention and key. */
  lemma {:induction false} MembersFilter<K>(contests: seq<Contest>, cs: seq<Contestant>, key: Contestant -> K, k: K)
    ensures Members(contests, cs, key, k) == Filter(cs, Hits(contests, key, k))
    decreases |cs|
  {
    if |cs| > 0 {
      var init := cs[..|cs| - 1];
      assert cs == init + [cs[|cs| - 1]];
      MembersFilter(contests, init, key, k);
      FilterAppend(init, [cs[|cs| - 1]], Hits(contests, key, k));
    }
  }

  lemma {:induction false} RetainedCountFilter(contests: seq<Contest>, cs: seq<Contestant>)
    ensures RetainedCount(contests, cs) == |Filter(cs, (c: Contestant) => Retained(contests, c))|
    decreases |cs|
  {
    if |cs| > 0 {
      var init := cs[..|cs| - 1];
      assert cs == init + [cs[|cs| - 1]];
      RetainedCountFilter(contests, init);
      FilterAppend(init, [cs[|cs| - 1]], (c: Contestant) => Retained(contests, c));
    }
  }

  function CardCount<K>(e: (K, CategoryCard)): int { e.1.count }

  ghost predicate DistinctKeys<K>(r: seq<(K, CategoryCard)>) {
    forall i, j :: 0 <= i < j < |r| ==> r[i].0 != r[j].0
  }

  /** Each entry holds the card of its key's first member, with the number of
      its members. */
  ghost predicate CardsMatch<K>(contests: seq<Contest>, cs: seq<Contestant>, key: Contestant -> K,
                                r: seq<(K, CategoryCard)>) {
    forall i :: 0 <= i < |r| ==>
      var ms := Members(contests, cs, key, r[i].0);
      && |ms| > 0 && Retained(contests, ms[0])
      && r[i].1 == FirstCard(contests, ms[0]).(count := |ms|)
  }

  /** Every retained contestant's key has an entry. */
  ghost predicate Covers<K>(contests: seq<Contest>, cs: seq<Contestant>, key: Contestant -> K,
                            r: seq<(K, CategoryCard)>) {
    forall c :: c in cs && Retained(contests, c) ==> exists i :: 0 <= i < |r| && r[i].0 == key(c)
  }

  /** What the aggregation promises: one entry per key, each holding the card of
      its first member with the number of its members, every retained contestant
      counted under its key, and the counts summing to the number retained. */
  ghost predicate Summarises<K>(contests: seq<Contest>, cs: seq<Contestant>, key: Contestant -> K,
                                r: seq<(K, CategoryCard)>) {
    && DistinctKeys(r)
    && CardsMatch(contests, cs, key, r)
    && Covers(contests, cs, key, r)
    && SumBy(r, CardCount) == RetainedCount(contests, cs)
  }

  lemma {:induction false} AggregateSummarises<K>(contests: seq<Contest>, cs: seq<Contestant>, key: Contestant -> K)
    ensures Summarises(contests, cs, key, Aggregate(contests, cs, key))
    decreases |cs|
  {
    if |cs| > 0 {
      var init, c := cs[..|cs| - 1], cs[|cs| - 1];
      assert cs == init + [c];
      AggregateSummarises(contests, init, key);
      var acc := Aggregate(contests, init, key);
      assert RetainedCount(contests, cs) == RetainedCount(contests, init) + (if Retained(contests, c) then 1 else 0);
      if !Retained(contests, c) {
        StepSkip(contests, init, c, key, acc);
      } else if KeyIndex(acc, key(c)).Some? {
        StepBump(contests, init, c, key, acc);
      } else {
        StepAdd(contests, init, c, key, acc);
      }
    }
  }

  lemma MembersAppend<K>(contests: seq<Contest>, cs: seq<Contestant>, c: Contestant, key: Contestant -> K, k: K)
    ensures Members(contests, cs + [c], key, k) ==
            Members(contests, cs, key, k) + (if Retained(contests, c) && key(c) == k then [c] else [])
  {
    assert (cs + [c])[..|cs|] == cs;
  }

  lemma StepSkip<K>(contests: seq<Contest>, cs: seq<Contestant>, c: Contestant, key: Contestant -> K,
                    acc: seq<(K, CategoryCard)>)
    requires Summarises(contests, cs, key, acc) && !Retained(contests, c)
    ensures CardsMatch(contests, cs + [c], key, acc) && Covers(contests, cs + [c], key, acc)
  {
    forall i | 0 <= i < |acc|
      ensures Members(contests, cs + [c], key, acc[i].0) == Members(contests, cs, key, acc[i].0)
    {
      MembersAppend(contests, cs, c, key, acc[i].0);
    }
  }

  lemma StepBump<K>(contests: seq<Contest>, cs: seq<Contestant>, c: Contestant, key: Contestant -> K,
                        acc: seq<(K, CategoryCard)>)
    requires Summarises(contests, cs, key, acc) && Retained(contests, c) && KeyIndex(acc, key(c)).Some?
    ensures var r := Bump(contests, acc, key(c), c);
      && DistinctKeys(r) && CardsMatch(contests, cs + [c], key, r) && Covers(contests, cs + [c], key, r)
      && SumBy(r, CardCount) == SumBy(acc, CardCount) + 1
  {
    var k := key(c);
    var i := KeyIndex(acc, k).value;
    var r := Bump(contests, acc, k, c);
    assert r == acc[i := (k, acc[i].1.(count := acc[i].1.count + 1))];
    SumByUpdate(acc, i, r[i], CardCount);
    forall j | 0 <= j < |r| ensures r[j].0 == acc[j].0 {}
    forall j | 0 <= j < |r|
      ensures var ms := Members(contests, cs + [c], key, r[j].0);
        && |ms| > 0 && Retained(contests, ms[0]) && r[j].1 == FirstCard(contests, ms[0]).(count := |ms|)
    {
      MembersAppend(contests, cs, c, key, r[j].0);
    }
  }

  /** A key without an entry has no members. */
  lemma {:induction false} NoEntryNoMembers<K>(contests: seq<Contest>, cs: seq<Contestant>, key: Contestant -> K,
                                              acc: seq<(K, CategoryCard)>, k: K)
    requires Covers(contests, cs, key, acc)
    requires forall i :: 0 <= i < |acc| ==> acc[i].0 != k
    ensures Members(contests, cs, key, k) == []
    decreases |cs|
  {
    if |cs| > 0 {
      var init := cs[..|cs| - 1];
      assert forall x :: x in init ==> x in cs;
      NoEntryNoMembers(contests, init, key, acc, k);
      assert cs[|cs| - 1] in cs;
    }
  }

  lemma StepAdd<K>(contests: seq<Contest>, cs: seq<Contestant>, c: Contestant, key: Contestant -> K,
                   acc: seq<(K, CategoryCard)>)
    requires Summarises(contests, cs, key, acc) && Retained(contests, c) && KeyIndex(acc, key(c)).None?
    ensures var r := Bump(contests, acc, key(c), c);
      && DistinctKeys(r) && CardsMatch(contests, cs + [c], key, r) && Covers(contests, cs + [c], key, r)
      && SumBy(r, CardCount) == SumBy(acc, CardCount) + 1
  {
    var k := key(c);
    var r := Bump(contests, acc, k, c);
    assert r == acc + [(k, FirstCard(contests, c))];
    SumByAppend(acc, [(k, FirstCard(contests, c))], CardCount);
    NoEntryNoMembers(contests, cs, key, acc, k);
    forall j | 0 <= j < |r|
      ensures var ms := Members(contests, cs + [c], key, r[j].0);
        && |ms| > 0 && Retained(contests, ms[0]) && r[j].1 == FirstCard(contests, ms[0]).(count := |ms|)
    {
      AddEntry(contests, cs, c, key, acc, j);
    }
    assert Covers(contests, cs + [c], key, r) by {
      forall x | x in cs + [c] && Retained(contests, x) ensures exists i :: 0 <= i < |r| && r[i].0 == key(x) {
        if x == c {
          assert r[|acc|].0 == key(x);
        } else {
          assert x in cs;
          var i :| 0 <= i < |acc| && acc[i].0 == key(x);
          assert r[i].0 == key(x);
        }
      }
    }
  }

  lemma AddEntry<K>(contests: seq<Contest>, cs: seq<Contestant>, c: Contestant, key: Contestant -> K,
                    acc: seq<(K, CategoryCard)>, j: nat)
    requires CardsMatch(contests, cs, key, acc) && Retained(contests, c)
    requires forall i :: 0 <= i < |acc| ==> acc[i].0 != key(c)
    requires Members(contests, cs, key, key(c)) == []
    requires j <= |acc|
    ensures var r := acc + [(key(c), FirstCard(contests, c))];
      var ms := Members(contests, cs + [c], key, r[j].0);
      && |ms| > 0 && Retained(contests, ms[0]) && r[j].1 == FirstCard(contests, ms[0]).(count := |ms|)
  {
    var r := acc + [(key(c), FirstCard(contests, c))];
    MembersAppend(contests, cs, c, key, r[j].0);
    if j < |acc| {
      assert r[j] == acc[j];
    } else {
      assert Members(contests, cs + [c], key, key(c)) == [c];
    }
  }

  /** The key as written: contest id and category joined with `-`. */
  function JoinedKey(c: Contestant): string {
    c.contestId + "-" + c.category
  }

  /** The key as intended: the pair itself. */
  function PairKey(c: Contestant): (Id, string) {
    (c.contestId, c.category)
  }

  function Cards<K>(entries: seq<(K, CategoryCard)>): (r: seq<CategoryCard>)
    ensures |r| == |entries|
    ensures forall i :: 0 <= i < |r| ==> r[i] == entries[i].1
  {
    seq(|entries|, i requires 0 <= i < |entries| => entries[i].1)
  }

  /** The `categories` memo as written. */
  function CategoriesAsWritten(contests: seq<Contest>, cs: seq<Contestant>): seq<CategoryCard> {
    Cards(Aggregate(contests, cs, JoinedKey))
  }

  /** The `categories` memo keyed by the pair: one card per (contest, category)
      of the retained contestants, counting exactly that pair's contestants. */
  function Categories(contests: seq<Contest>, cs: seq<Contestant>): (r: seq<CategoryCard>)
    ensures forall i, j :: 0 <= i < j < |r| ==> r[i].contestId != r[j].contestId || r[i].name != r[j].name
    ensures forall i :: 0 <= i < |r| ==>
      && r[i].count >= 1
      && r[i].count == |Filter(cs, InCategory(contests, r[i].contestId, r[i].name))|
    ensures forall c :: c in cs && Retained(contests, c) ==>
      exists i :: 0 <= i < |r| && r[i].contestId == c.contestId && r[i].name == c.category
    ensures SumBy(r, (x: CategoryCard) => x.count) == |Filter(cs, (c: Contestant) => Retained(contests, c))|
  {
    var entries := Aggregate(contests, cs, PairKey);
    AggregateSummarises(contests, cs, PairKey);
    var r := Cards(entries);
    PairCards(contests, cs, entries);
    SumCards(entries);
    RetainedCountFilter(contests, cs);
    r
  }

  lemma PairCards(contests: seq<Contest>, cs: seq<Contestant>, entries: seq<((Id, string), CategoryCard)>)
    requires CardsMatch(contests, cs, PairKey, entries)
    ensures forall i :: 0 <= i < |entries| ==> entries[i].0 == (entries[i].1.contestId, entries[i].1.name)
    ensures forall i :: 0 <= i < |entries| ==>
      entries[i].1.count == |Filter(cs, InCategory(contests, entries[i].1.contestId, entries[i].1.name))|
  {
    forall i | 0 <= i < |entries|
      ensures entries[i].0 == (entries[i].1.contestId, entries[i].1.name)
      ensures entries[i].1.count == |Filter(cs, InCategory(contests, entries[i].1.contestId, entries[i].1.name))|
    {
      PairCard(contests, cs, entries, i);
    }
  }

  lemma PairCard(contests: seq<Contest>, cs: seq<Contestant>, entries: seq<((Id, string), CategoryCard)>, i: nat)
    requires CardsMatch(contests, cs, PairKey, entries) && i < |entries|
    ensures entries[i].0 == (entries[i].1.contestId, entries[i].1.name)
    ensures entries[i].1.count == |Filter(cs, InCategory(contests, entries[i].1.contestId, entries[i].1.name))|
  {
    var k, card := entries[i].0, entries[i].1;
    var ms := Members(contests, cs, PairKey, k);
    assert |ms| > 0 && card == FirstCard(contests, ms[0]).(count := |ms|);
    MembersFilter(contests, cs, PairKey, k);
    assert ms[0] in ms;
    assert Hits(contests, PairKey, k)(ms[0]);
    assert k == (card.contestId, card.name);
    forall c: Contestant
      ensures Hits(contests, PairKey, k)(c) == InCategory(contests, card.contestId, card.name)(c)
    {
      assert Hits(contests, PairKey, k)(c) == (Retained(contests, c) && PairKey(c) == k);
      assert InCategory(contests, card.contestId, card.name)(c)
        == (Retained(contests, c) && c.contestId == card.contestId && c.category == card.name);
    }
    FilterSame(cs, Hits(contests, PairKey, k), InCategory(contests, card.contestId, card.name));
  }

  lemma {:induction false} SumCards<K>(entries: seq<(K, CategoryCard)>)
    ensures SumBy(Cards(entries), (x: CategoryCard) => x.count) == SumBy(entries, CardCount)
    decreases |entries|
  {
    if |entries| > 0 {
      SumCards(entries[1..]);
      assert Cards(entries)[1..] == Cards(entries[1..]);
    }
  }

  /** Two contests `x` and `x-y` whose contestants sit in categories `y-z` and
      `z`: the joined key merges them into one card of the first contest with a
      count of 2, while the pair key keeps two cards of one each. */
  lemma JoinedKeyMergesCategories()
    ensures var contests := [Contest("x", "X", "", 0, 1, ContestStatus.Active, ""),
                             Contest("x-y", "XY", "", 0, 1, ContestStatus.Active, "")];
      var a := Contestant("a", "A", "", "y-z", "pa", 0, None, true, ContestantStatus.Active, "a@e.io", "x");
      var b := Contestant("b", "B", "", "z", "pb", 0, None, true, ContestantStatus.Active, "b@e.io", "x-y");
      && CategoriesAsWritten(contests, [a, b]) == [CategoryCard("y-z", "x", "X", 2, "pa")]
      && |Categories(contests, [a, b])| == 2
  {
    var contests := [Contest("x", "X", "", 0, 1, ContestStatus.Active, ""),
                     Contest("x-y", "XY", "", 0, 1, ContestStatus.Active, "")];
    var a := Contestant("a", "A", "", "y-z", "pa", 0, None, true, ContestantStatus.Active, "a@e.io", "x");
    var b := Contestant("b", "B", "", "z", "pb", 0, None, true, ContestantStatus.Active, "b@e.io", "x-y");
    assert ContestOf(contests, a) == Some(contests[0]);
    assert ContestOf(contests, b) == Some(contests[1]);
    assert JoinedKey(a) == JoinedKey(b) == "x-y-z";
    assert [a, b][..1] == [a];
    assert [a][..0] == [];
    assert Retained(contests, a) && Retained(contests, b);
    assert FirstCard(contests, a) == CategoryCard("y-z", "x", "X", 1, "pa");
    assert Aggregate(contests, [], JoinedKey) == [] && Aggregate(contests, [], PairKey) == [];
    assert KeyIndex([], "x-y-z").None? && KeyIndex([], ("x", "y-z")).None?;
    var first := Aggregate(contests, [a], JoinedKey);
    assert first == [("x-y-z", CategoryCard("y-z", "x", "X", 1, "pa"))];
    assert KeyIndex(first, "x-y-z") == Some(0);
    var joined := Aggregate(contests, [a, b], JoinedKey);
    assert joined == [("x-y-z", CategoryCard("y-z", "x", "X", 2, "pa"))];
    var paired := Aggregate(contests, [a, b], PairKey);
    var pfirst := Aggregate(contests, [a], PairKey);
    assert pfirst == [(("x", "y-z"), CategoryCard("y-z", "x", "X", 1, "pa"))];
    assert KeyIndex(pfirst, ("x-y", "z")).None?;
  }

  // Countdown

  datatype TimeLeft = TimeLeft(days: int, hours: int, minutes: int, seconds: int)

  datatype Countdown = Countdown(timerLabel: string, left: TimeLeft)

  const SecondMs := 1000
  const MinuteMs := 60000
  const HourMs := 3600000
  const DayMs := 86400000

  const OpensLabel := "Voting Opens In"
  const ClosesLabel := "Voting Closes In"
  const EndedLabel := "Voting Ended"

  const Zero := TimeLeft(0, 0, 0, 0)

  /** The milliseconds a reading stands for. */
  function Millis(t: TimeLeft): int {
    t.days * DayMs + t.hours * HourMs + t.minutes * MinuteMs + t.seconds * SecondMs
  }

  /** A reading with every field in its range. */
  predicate Normal(t: TimeLeft) {
    t.days >= 0 && 0 <= t.hours < 24 && 0 <= t.minutes < 60 && 0 <= t.seconds < 60
  }

  /** Split a positive difference into days, hours, minutes and whole seconds
      (for positive operands the truncating `Math.floor(a / b)` and `%` agree
      with Dafny's). */
  function Decompose(diff: int): (t: TimeLeft)
    ensures diff <= 0 ==> t == Zero
    ensures diff > 0 ==> Normal(t) && Millis(t) <= diff < Millis(t) + SecondMs
  {
    if diff <= 0 then Zero
    else
      var t := TimeLeft(diff / DayMs, (diff % DayMs) / HourMs, (diff % HourMs) / MinuteMs, (diff % MinuteMs) / SecondMs);
      DecomposeBounds(diff);
      t
  }

  lemma DecomposeBounds(diff: int)
    requires diff > 0
    ensures var t := TimeLeft(diff / DayMs, (diff % DayMs) / HourMs, (diff % HourMs) / MinuteMs, (diff % MinuteMs) / SecondMs);
      Normal(t) && Millis(t) <= diff < Millis(t) + SecondMs
  {
    var d, rd := diff / DayMs, diff % DayMs;
    var h, rh := rd / HourMs, rd % HourMs;
    var m, rm := rh / MinuteMs, rh % MinuteMs;
    DivModUnique(diff, d * 24 + h, rh, HourMs);
    DivModUnique(diff, (d * 24 + h) * 60 + m, rm, MinuteMs);
  }

  /** Decompose undoes `Millis` on any normal reading, whatever the leftover
      milliseconds below a second. */
  lemma DecomposeMillis(t: TimeLeft, ms: int)
    requires Normal(t) && 0 <= ms < SecondMs && Millis(t) + ms > 0
    ensures Decompose(Millis(t) + ms) == t
  {
    var diff := Millis(t) + ms;
    var rs := t.seconds * SecondMs + ms;
    var rm := t.minutes * MinuteMs + rs;
    var rh := t.hours * HourMs + rm;
    DivModUnique(diff, t.days, rh, DayMs);
    DivModUnique(rh, t.hours, rm, HourMs);
    DivModUnique(diff, t.days * 24 + t.hours, rm, HourMs);
    DivModUnique(rm, t.minutes, rs, MinuteMs);
    DivModUnique(diff, (t.days * 24 + t.hours) * 60 + t.minutes, rs, MinuteMs);
    DivModUnique(rs, t.seconds, ms, SecondMs);
  }

  /** The quotient and remainder of a division are the only ones. */
  lemma DivModUnique(x: int, q: int, r: int, b: int)
    requires b > 0 && 0 <= r < b && x == q * b + r
    ensures x / b == q && x % b == r
  {
    var q2 := x / b;
    MulMonotone(q + 1, q2, b);
    MulMonotone(q2 + 1, q, b);
  }

  lemma MulMonotone(a: int, c: int, b: int)
    ensures a <= c && b >= 0 ==> a * b <= c * b
  {
    if a <= c && b >= 0 {
      assert c * b - a * b == (c - a) * b;
    }
  }

  /** `calculateTime`: before the start it counts down to the start, during
      voting to the end, and afterwards it reads zero under the ended label. */
  function CalculateTime(now: int, start: int, end: int): (c: Countdown)
    ensures now < start ==>
      c.timerLabel == OpensLabel && Normal(c.left) && Millis(c.left) <= start - now < Millis(c.left) + SecondMs
    ensures start <= now < end ==>
      c.timerLabel == ClosesLabel && Normal(c.left) && Millis(c.left) <= end - now < Millis(c.left) + SecondMs
    ensures c.timerLabel == EndedLabel <==> start <= now && end <= now
    ensures c.timerLabel == EndedLabel ==> c.left == Zero
  {
    if now < start then Countdown(OpensLabel, Decompose(start - now))
    else if now < end then Countdown(ClosesLabel, Decompose(end - now))
    else Countdown(EndedLabel, Zero)
  }
}

=== FILE: invite_route.dfy ===
/** `POST /api/admin/invite` (create or replace an invitation, undone when the
    mail cannot be sent) and `GET` (the pending invitations). */
module InviteRoute {
  import opened Wrappers
  import opened Types
  import opened Seqs
  import opened Sorting
  import opened Orders
  import opened Store

  /** An absent `role` is `None`; it then defaults to `manager`. */
  datatype InviteRequest = InviteRequest(email: string, name: string, role: Option<string>)

  /** The fields the create reply returns. */
  datatype InvitationView = InvitationView(id: Id, email: string, name: string, role: Role, expiresAt: int)

  /** The fields the list selects; the token is not among them. */
  datatype PendingView = PendingView(
    id: Id,
    email: string,
    name: string,
    role: Role,
    expiresAt: int,
    createdAt: int)

  const Unauthorized := "Unauthorized"
  const CreateForbidden := "Forbidden: Only admins can invite users"
  const ListForbidden := "Forbidden: Only admins can view invitations"
  const MissingFields := "Email and name are required"
  const InvalidRole := "Invalid role. Must be \"admin\" or \"manager\""
  const AdminExists := "An admin with this email already exists"
  const SendFailed := "Failed to send invitation email"
  const InternalError := "Internal server error"

  /** Seven days. */
  const InvitationLifetimeMs := 7 * 24 * 60 * 60 * 1000

  /** The table's unique keys: `id`, `email` and `token` (the latter two are
      looked up with `findUnique`). */
  ghost predicate WellKeyed(invs: seq<InvitationRow>) {
    && Pairwise(invs, (a: InvitationRow, b: InvitationRow) => a.email != b.email)
    && Pairwise(invs, (a: InvitationRow, b: InvitationRow) => a.id != b.id)
    && Pairwise(invs, (a: InvitationRow, b: InvitationRow) => a.token != b.token)
  }

  function RequestedRole(req: InviteRequest): Option<Role> {
    ParseRole(req.role.GetOr("manager"))
  }

  predicate IsAdmin(user: Option<SessionUser>) {
    user.Some? && user.value.role == Role.Admin
  }

  /** The guards up to and including the duplicate-admin check pass. */
  predicate Admissible(db: Db, user: Option<SessionUser>, req: InviteRequest) {
    && IsAdmin(user) && req.email != "" && req.name != ""
    && RequestedRole(req).Some? && AdminByEmail(db, req.email).None?
  }

  /** An earlier invitation for the email that was already accepted: creating
      another breaks the unique email key and the handler's catch answers 500. */
  predicate AcceptedBefore(db: Db, email: string) {
    InvitationByEmail(db, email).Some? && InvitationByEmail(db, email).value.accepted
  }

  /** The invitation table once any unaccepted invitation for `email` is
      gone. */
  function Cleared(invs: seq<InvitationRow>, email: string): seq<InvitationRow> {
    match Find(invs, (i: InvitationRow) => i.email == email)
    case Some(prev) =>
      if prev.accepted then invs else Filter(invs, (i: InvitationRow) => i.id != prev.id)
    case None => invs
  }

  function NewInvitation(user: SessionUser, req: InviteRequest, role: Role, id: Id, token: string, now: int): InvitationRow {
    InvitationRow(id, req.email, req.name, role, token, now + InvitationLifetimeMs, false, user.id, now)
  }

  /** `POST`. `id` and `token` are the generated identifiers and `emailSent`
      the outcome of sending the mail. */
  function Invite(db: Db, user: Option<SessionUser>, req: InviteRequest, id: Id, token: string,
                  emailSent: bool, now: int): (h: Handled<InvitationView>)
    ensures user.None? ==> h == Handled(Fail(401, Unauthorized), db)
    ensures user.Some? && user.value.role != Role.Admin ==> h == Handled(Fail(403, CreateForbidden), db)
    ensures (IsAdmin(user) && (req.email == "" || req.name == "")) ==>
      h == Handled(Fail(400, MissingFields), db)
    ensures (IsAdmin(user) && req.email != "" && req.name != "" && RequestedRole(req).None?) ==>
      h == Handled(Fail(400, InvalidRole), db)
    ensures (IsAdmin(user) && req.email != "" && req.name != "" && RequestedRole(req).Some?
             && AdminByEmail(db, req.email).Some?) ==>
      h == Handled(Fail(409, AdminExists), db)
    ensures h.reply.Ok? <==> Admissible(db, user, req) && !AcceptedBefore(db, req.email) && emailSent
    ensures h.db.(invitations := db.invitations) == db
    ensures (Admissible(db, user, req) && !AcceptedBefore(db, req.email) && !emailSent) ==>
      h == Handled(Fail(500, SendFailed), db.(invitations := Cleared(db.invitations, req.email)))
    ensures h.reply.Ok? ==>
      var row := NewInvitation(user.value, req, RequestedRole(req).value, id, token, now);
      && h.reply == Ok(201, InvitationView(id, req.email, req.name, row.role, now + InvitationLifetimeMs))
      && h.db.invitations == Cleared(db.invitations, req.email) + [row]
  {
    if user.None? then Handled(Fail(401, Unauthorized), db)
    else if user.value.role != Role.Admin then Handled(Fail(403, CreateForbidden), db)
    else if req.email == "" || req.name == "" then Handled(Fail(400, MissingFields), db)
    else match RequestedRole(req)
      case None => Handled(Fail(400, InvalidRole), db)
      case Some(role) =>
        if AdminByEmail(db, req.email).Some? then Handled(Fail(409, AdminExists), db)
        else if AcceptedBefore(db, req.email) then Handled(Fail(500, InternalError), db)
        else
          var cleared := db.(invitations := Cleared(db.invitations, req.email));
          var row := NewInvitation(user.value, req, role, id, token, now);
          if !emailSent then Handled(Fail(500, SendFailed), cleared)
          else Handled(Ok(201, InvitationView(row.id, row.email, row.name, row.role, row.expiresAt)),
                       cleared.(invitations := cleared.invitations + [row]))
  }

  /** On a well-keyed table with no accepted invitation for the email, clearing
      removes every row with that email and keeps every other row. */
  lemma ClearedRemovesOnlyThatEmail(invs: seq<InvitationRow>, email: string)
    requires WellKeyed(invs)
    requires !(exists k :: 0 <= k < |invs| && invs[k].email == email && invs[k].accepted)
    ensures WellKeyed(Cleared(invs, email))
    ensures forall x :: x in Cleared(invs, email) ==> x.email != email
    ensures forall x: InvitationRow :: x.email != email ==> (x in Cleared(invs, email) <==> x in invs)
  {
    var emailKey := (a: InvitationRow, b: InvitationRow) => a.email != b.email;
    var idKey := (a: InvitationRow, b: InvitationRow) => a.id != b.id;
    var tokenKey := (a: InvitationRow, b: InvitationRow) => a.token != b.token;
    var found := FindIndex(invs, (i: InvitationRow) => i.email == email);
    if found.Some? {
      var k := found.value;
      var prev := invs[k];
      assert Find(invs, (i: InvitationRow) => i.email == email) == Some(prev) by {
        assert prev in invs;
        SameEmailSameRow(invs, k);
      }
      var keep := (i: InvitationRow) => i.id != prev.id;
      FilterPairwise(invs, keep, emailKey);
      FilterPairwise(invs, keep, idKey);
      FilterPairwise(invs, keep, tokenKey);
      assert forall x :: x in Filter(invs, keep) ==> x.email != email;
      forall x: InvitationRow | x.email != email && x in invs ensures x in Filter(invs, keep) {
        var j :| 0 <= j < |invs| && invs[j] == x;
        assert j != k;
      }
    } else {
      forall x | x in invs ensures x.email != email {
        var j :| 0 <= j < |invs| && invs[j] == x;
      }
    }
  }

  /** Under the email key, the row with a given email is unique, so any search
      for it finds the row at `k`. */
  lemma SameEmailSameRow(invs: seq<InvitationRow>, k: nat)
    requires k < |invs|
    requires Pairwise(invs, (a: InvitationRow, b: InvitationRow) => a.email != b.email)
    ensures forall j :: 0 <= j < |invs| && invs[j].email == invs[k].email ==> j == k
    ensures Find(invs, (i: InvitationRow) => i.email == invs[k].email) == Some(invs[k])
  {
    var r := Find(invs, (i: InvitationRow) => i.email == invs[k].email);
    var x := r.value;
    var j :| 0 <= j < |invs| && invs[j] == x;
    assert j == k;
  }

  /** Invite keeps the keys and leaves at most one invitation per email: after
      success it is the new one; after a failed mail there is none; rows for other
      emails are untouched either way. */
  lemma InviteKeepsKeys(db: Db, user: Option<SessionUser>, req: InviteRequest, id: Id, token: string,
                        emailSent: bool, now: int)
    requires WellKeyed(db.invitations)
    requires forall x :: x in db.invitations ==> x.id != id && x.token != token
    ensures var h := Invite(db, user, req, id, token, emailSent, now);
      && WellKeyed(h.db.invitations)
      && (forall x: InvitationRow :: x.email != req.email ==> (x in h.db.invitations <==> x in db.invitations))
      && (h.reply.Ok? ==> forall x :: x in h.db.invitations && x.email == req.email ==> x == Last(h.db.invitations))
      && (h.reply == Fail(500, SendFailed) ==> forall x :: x in h.db.invitations ==> x.email != req.email)
  {
    var h := Invite(db, user, req, id, token, emailSent, now);
    if Admissible(db, user, req) && !AcceptedBefore(db, req.email) {
      assert !(exists k :: 0 <= k < |db.invitations| && db.invitations[k].email == req.email
                             && db.invitations[k].accepted) by {
        forall k | 0 <= k < |db.invitations| && db.invitations[k].email == req.email
          ensures !db.invitations[k].accepted
        {
          SameEmailSameRow(db.invitations, k);
        }
      }
      var cleared := Cleared(db.invitations, req.email);
      ClearedRemovesOnlyThatEmail(db.invitations, req.email);
      if emailSent {
        var row := Last(h.db.invitations);
        AppendKeepsKeys(cleared, row);
      }
    }
  }

  function Last<T>(s: seq<T>): T
    requires |s| > 0
  {
    s[|s| - 1]
  }

  lemma AppendKeepsKeys(invs: seq<InvitationRow>, row: InvitationRow)
    requires WellKeyed(invs)
    requires forall x :: x in invs ==> x.email != row.email && x.id != row.id && x.token != row.token
    ensures WellKeyed(invs + [row])
  {
    var s := invs + [row];
    forall i, j | 0 <= i < j < |s| ensures s[i].email != s[j].email && s[i].id != s[j].id && s[i].token != s[j].token {
      if j == |invs| { assert s[i] in invs; }
    }
  }

  /** An invitation listed by `GET`: not accepted and not expired. */
  predicate Pending(i: InvitationRow, now: int) {
    !i.accepted && i.expiresAt >= now
  }

  function PendingOf(i: InvitationRow): PendingView {
    PendingView(i.id, i.email, i.name, i.role, i.expiresAt, i.createdAt)
  }

  /** The selected fields of each row, in order. */
  function Views(rows: seq<InvitationRow>): (r: seq<PendingView>)
    ensures |r| == |rows|
    ensures forall k :: 0 <= k < |r| ==> r[k] == PendingOf(rows[k])
    ensures forall x :: x in rows ==> PendingOf(x) in r
    ensures SortedBy(rows, InvitationsNewestFirst) ==>
      forall i, j :: 0 <= i < j < |r| ==> r[i].createdAt >= r[j].createdAt
  {
    var r := seq(|rows|, k requires 0 <= k < |rows| => PendingOf(rows[k]));
    assert forall x :: x in rows ==> PendingOf(x) in r by {
      forall x | x in rows ensures PendingOf(x) in r {
        var k :| 0 <= k < |rows| && rows[k] == x;
        assert r[k] == PendingOf(x);
      }
    }
    r
  }

  /** The pending invitations, newest first: exactly the pending rows' views,
      each once per row, in non-increasing `createdAt` order. */
  function PendingList(invs: seq<InvitationRow>, now: int): (r: seq<PendingView>)
    ensures |r| == |Filter(invs, (i: InvitationRow) => Pending(i, now))|
    ensures forall k :: 0 <= k < |r| ==>
      exists x :: x in invs && Pending(x, now) && r[k] == PendingOf(x)
    ensures forall x :: x in invs && Pending(x, now) ==> PendingOf(x) in r
    ensures forall i, j :: 0 <= i < j < |r| ==> r[i].createdAt >= r[j].createdAt
  {
    var pending := Filter(invs, (i: InvitationRow) => Pending(i, now));
    var sorted := Sort(pending, InvitationsNewestFirst);
    NewestFirstOrders();
    SortSorted(pending, InvitationsNewestFirst);
    SortSameElements(pending, InvitationsNewestFirst);
    var r := Views(sorted);
    assert forall k :: 0 <= k < |r| ==> sorted[k] in sorted;
    r
  }

  /** `GET`: admins only. */
  function ListPending(db: Db, user: Option<SessionUser>, now: int): (r: Reply<seq<PendingView>>)
    ensures user.None? ==> r == Fail(401, Unauthorized)
    ensures user.Some? && user.value.role != Role.Admin ==> r == Fail(403, ListForbidden)
    ensures r.Ok? <==> IsAdmin(user)
    ensures r.Ok? ==> r == Ok(200, PendingList(db.invitations, now))
  {
    if user.None? then Fail(401, Unauthorized)
    else if user.value.role != Role.Admin then Fail(403, ListForbidden)
    else Ok(200, PendingList(db.invitations, now))
  }
}

=== FILE: login_route.dfy ===
/** `POST /api/admin/auth/login`: credential checks, then either an immediate
    session (auto-verify) or a fresh six-digit one-time code. */
module LoginRoute {
  import opened Wrappers
  import opened Types
  import opened Seqs
  import opened Strings
  import opened Store
  import Utils

  datatype LoginRequest = LoginRequest(email: string, password: string)

  /** The two success bodies: a session right away, or a code on its way. */
  datatype LoginResult = AutoVerified(admin: AdminSummary) | OtpSent(adminId: Id)

  /** What the handler takes from outside: the password-hash comparison, the
      auto-verify switch (development mode or `AUTO_VERIFY_OTP`), the random
      draw, the generated row id and the outcome of sending the mail. */
  datatype Oracles = Oracles(
    passwordMatches: (string, string) -> bool,
    autoVerify: bool,
    random: real,
    otpId: Id,
    emailSent: bool)

  const MissingFields := "Email and password are required"
  const InvalidCredentials := "Invalid credentials"
  const Deactivated := "Account is deactivated"
  const SendFailed := "Failed to send OTP email"

  /** Ten minutes. */
  const OtpLifetimeMs := 10 * 60 * 1000

  /** `Math.floor(100000 + random * 900000)` for a draw in [0, 1). */
  function OtpNumber(random: real): (n: nat)
    requires 0.0 <= random < 1.0
    ensures 100000 <= n <= 999999
    ensures n as real <= 100000.0 + random * 900000.0 < n as real + 1.0
  {
    (100000.0 + random * 900000.0).Floor
  }

  /** The decimal rendering of the drawn number; it always passes the six-digit
      code check of `validateOTP`. */
  function OtpCode(random: real): (code: string)
    requires 0.0 <= random < 1.0
    ensures Utils.ValidateOtp(code)
  {
    var n := OtpNumber(random);
    assert Pow10(5) == 100000 && Pow10(6) == 1000000;
    DecimalLength(n, 6);
    NatToDecimal(n)
  }

  /** All of the admin's old codes dropped, then `row` added. */
  function Reissue(otps: seq<OtpRow>, row: OtpRow): (r: seq<OtpRow>)
    ensures CodesOf(r, row.adminId) == [row]
    ensures forall b :: b != row.adminId ==> CodesOf(r, b) == CodesOf(otps, b)
  {
    var kept := Filter(otps, (o: OtpRow) => o.adminId != row.adminId);
    ReissueCodes(otps, kept, row);
    kept + [row]
  }

  lemma ReissueCodes(otps: seq<OtpRow>, kept: seq<OtpRow>, row: OtpRow)
    requires kept == Filter(otps, (o: OtpRow) => o.adminId != row.adminId)
    ensures CodesOf(kept + [row], row.adminId) == [row]
    ensures forall b :: b != row.adminId ==> CodesOf(kept + [row], b) == CodesOf(otps, b)
  {
    ReissueOwn(kept, row);
    forall b | b != row.adminId
      ensures CodesOf(kept + [row], b) == CodesOf(otps, b)
    {
      ReissueOther(otps, kept, row, b);
    }
  }

  lemma ReissueOwn(kept: seq<OtpRow>, row: OtpRow)
    requires forall x :: x in kept ==> x.adminId != row.adminId
    ensures CodesOf(kept + [row], row.adminId) == [row]
  {
    var mine := (o: OtpRow) => o.adminId == row.adminId;
    FilterAppend(kept, [row], mine);
    assert Filter([row], mine) == [row];
    FilterNone(kept, mine);
  }

  lemma ReissueOther(otps: seq<OtpRow>, kept: seq<OtpRow>, row: OtpRow, b: Id)
    requires kept == Filter(otps, (o: OtpRow) => o.adminId != row.adminId)
    requires b != row.adminId
    ensures CodesOf(kept + [row], b) == CodesOf(otps, b)
  {
    var theirs := (o: OtpRow) => o.adminId == b;
    FilterAppend(kept, [row], theirs);
    assert Filter([row], theirs) == [];
    FilterFilter(otps, (o: OtpRow) => o.adminId != row.adminId, theirs, theirs);
  }

  /** Every check passed: fields present, a known and active admin, and the
      password matching the stored hash. */
  predicate Accepts(db: Db, req: LoginRequest, o: Oracles) {
    && req.email != "" && req.password != ""
    && AdminByEmail(db, req.email).Some?
    && AdminByEmail(db, req.email).value.isActive
    && o.passwordMatches(req.password, AdminByEmail(db, req.email).value.passwordHash)
  }

  /** The code row issued to admin `a` at `now`. */
  function IssuedCode(a: AdminRow, o: Oracles, now: int): OtpRow
    requires 0.0 <= o.random < 1.0
  {
    OtpRow(o.otpId, a.id, OtpCode(o.random), now + OtpLifetimeMs, false)
  }

  /** `POST`. The checks run in the order missing fields, unknown email,
      deactivated account, wrong password; an unknown email and a wrong
      password are indistinguishable to the caller. */
  function Login(db: Db, req: LoginRequest, o: Oracles, now: int): (h: Handled<LoginResult>)
    requires 0.0 <= o.random < 1.0
    ensures req.email == "" || req.password == "" ==> h == Handled(Fail(400, MissingFields), db)
    ensures (req.email != "" && req.password != "" && AdminByEmail(db, req.email).None?) ==>
      h == Handled(Fail(401, InvalidCredentials), db)
    ensures (req.email != "" && req.password != "" && AdminByEmail(db, req.email).Some?
             && !AdminByEmail(db, req.email).value.isActive) ==>
      h == Handled(Fail(403, Deactivated), db)
    ensures (req.email != "" && req.password != "" && AdminByEmail(db, req.email).Some?
             && AdminByEmail(db, req.email).value.isActive && !Accepts(db, req, o)) ==>
      h == Handled(Fail(401, InvalidCredentials), db)
    ensures h.reply.Ok? <==> Accepts(db, req, o) && (o.autoVerify || o.emailSent)
    ensures (Accepts(db, req, o) && o.autoVerify) ==>
      var a := AdminByEmail(db, req.email).value;
      h == Handled(Ok(200, AutoVerified(Summary(a))), db.(sessions := db.sessions + [a.id]))
    ensures (Accepts(db, req, o) && !o.autoVerify) ==>
      var a := AdminByEmail(db, req.email).value;
      && h.db.(otps := db.otps) == db
      && CodesOf(h.db.otps, a.id) == [IssuedCode(a, o, now)]
      && (forall b :: b != a.id ==> CodesOf(h.db.otps, b) == CodesOf(db.otps, b))
      && h.reply == (if o.emailSent then Ok(200, OtpSent(a.id)) else Fail(500, SendFailed))
  {
    if req.email == "" || req.password == "" then Handled(Fail(400, MissingFields), db)
    else match AdminByEmail(db, req.email)
      case None => Handled(Fail(401, InvalidCredentials), db)
      case Some(a) =>
        if !a.isActive then Handled(Fail(403, Deactivated), db)
        else if !o.passwordMatches(req.password, a.passwordHash) then
          Handled(Fail(401, InvalidCredentials), db)
        else if o.autoVerify then
          Handled(Ok(200, AutoVerified(Summary(a))), db.(sessions := db.sessions + [a.id]))
        else
          var issued := db.(otps := Reissue(db.otps, IssuedCode(a, o, now)));
          if o.emailSent then Handled(Ok(200, OtpSent(a.id)), issued)
          else Handled(Fail(500, SendFailed), issued)
  }

  /** Only the auto-verify branch opens a session, and it writes no code; a
      failed mail leaves no session behind. */
  lemma SessionOnlyWhenAutoVerified(db: Db, req: LoginRequest, o: Oracles, now: int)
    requires 0.0 <= o.random < 1.0
    ensures var h := Login(db, req, o, now);
      && (h.db.sessions != db.sessions ==> o.autoVerify && h.reply.Ok?)
      && (o.autoVerify ==> h.db.otps == db.otps)
      && (h.reply == Fail(500, SendFailed) ==> h.db.sessions == db.sessions)
  {
  }
}

=== FILE: orders.dfy ===
/** The comparators the pages and routes sort by, each proved total and
    transitive so that `Sorting.Sort` yields a sorted permutation. */
module Orders {
  import opened Types
  import opened Strings
  import opened Sorting
  import opened Store

  /** `(a, b) => b.votes - a.votes`. */
  predicate ByVotesDesc(a: Contestant, b: Contestant) { a.votes >= b.votes }

  /** `(a, b) => a.votes - b.votes`. */
  predicate ByVotesAsc(a: Contestant, b: Contestant) { a.votes <= b.votes }

  /** Names in code-point order, standing in for `localeCompare`. */
  predicate ByNameAsc(a: Contestant, b: Contestant) { StrLe(a.name, b.name) }

  /** `orderBy: [{ votes: 'desc' }, { name: 'asc' }]`. */
  predicate RowsByVotesThenName(a: ContestantRow, b: ContestantRow) {
    a.votes > b.votes || (a.votes == b.votes && StrLe(a.name, b.name))
  }

  /** `orderBy: { createdAt: 'desc' }` on admins. */
  predicate AdminsNewestFirst(a: AdminView, b: AdminView) { a.createdAt >= b.createdAt }

  /** `orderBy: { createdAt: 'desc' }` on invitations. */
  predicate InvitationsNewestFirst(a: InvitationRow, b: InvitationRow) { a.createdAt >= b.createdAt }

  lemma StringOrder()
    ensures Total(StrLe) && Transitive(StrLe)
  {
    forall a, b ensures StrLe(a, b) || StrLe(b, a) { StrLeTotal(a, b); }
    forall a, b, c | StrLe(a, b) && StrLe(b, c) ensures StrLe(a, c) { StrLeTransitive(a, b, c); }
  }

  lemma CodeUnitOrder()
    ensures Total(Utf16Le) && Transitive(Utf16Le)
  {
    forall a, b ensures Utf16Le(a, b) || Utf16Le(b, a) { UnitsLeTotal(Utf16(a), Utf16(b)); }
    forall a, b, c | Utf16Le(a, b) && Utf16Le(b, c) ensures Utf16Le(a, c) {
      UnitsLeTransitive(Utf16(a), Utf16(b), Utf16(c));
    }
  }

  lemma ContestantOrders()
    ensures Total(ByVotesDesc) && Transitive(ByVotesDesc)
    ensures Total(ByVotesAsc) && Transitive(ByVotesAsc)
    ensures Total(ByNameAsc) && Transitive(ByNameAsc)
  {
    forall a, b ensures ByNameAsc(a, b) || ByNameAsc(b, a) { StrLeTotal(a.name, b.name); }
    forall a, b, c | ByNameAsc(a, b) && ByNameAsc(b, c) ensures ByNameAsc(a, c) {
      StrLeTransitive(a.name, b.name, c.name);
    }
  }

  lemma RowOrder()
    ensures Total(RowsByVotesThenName) && Transitive(RowsByVotesThenName)
  {
    forall a, b ensures RowsByVotesThenName(a, b) || RowsByVotesThenName(b, a) { StrLeTotal(a.name, b.name); }
    forall a, b, c | RowsByVotesThenName(a, b) && RowsByVotesThenName(b, c)
      ensures RowsByVotesThenName(a, c)
    {
      if a.votes == b.votes == c.votes { StrLeTransitive(a.name, b.name, c.name); }
    }
  }

  lemma NewestFirstOrders()
    ensures Total(AdminsNewestFirst) && Transitive(AdminsNewestFirst)
    ensures Total(InvitationsNewestFirst) && Transitive(InvitationsNewestFirst)
  {
  }
}

=== FILE: proxy.dfy ===
/** The route gate of `proxy.ts`: the paths its matcher selects, and for those
    a decision from the request path and the request's cookies. */
module Proxy {

  datatype Decision = Next | RedirectToLogin | Unauthorized

  const LoginPath := "/admin/login"
  const SessionCookie := "unity-vote-session"

  const PublicRoutes: seq<string> := [
    "/", "/admin/login", "/admin/accept-invite", "/guide", "/privacy", "/terms",
    "/contest", "/api/contests", "/api/contestants", "/api/votes"]

  const AdminRoutes: seq<string> := ["/admin"]

  /** Admin login, code check and invitation acceptance are reachable without a
      session. */
  predicate AuthBypass(path: string) {
    "/api/admin/auth/login" <= path || "/api/admin/auth/verify-otp" <= path
    || "/api/admin/accept-invite" <= path
  }

  /** `/` matches only itself; every other public route matches as a prefix. */
  predicate MatchesRoute(route: string, path: string) {
    if route == "/" then path == "/" else route <= path
  }

  predicate IsPublic(path: string) {
    exists i :: 0 <= i < |PublicRoutes| && MatchesRoute(PublicRoutes[i], path)
  }

  predicate IsAdminRoute(path: string) {
    exists i :: 0 <= i < |AdminRoutes| && AdminRoutes[i] <= path
  }

  /** An admin API path outside the auth endpoints. */
  predicate IsAdminApi(path: string) {
    "/api/admin" <= path && !("/api/admin/auth" <= path)
  }

  /** `proxy`: only the presence of the session cookie is consulted. */
  function Decide(path: string, cookies: map<string, string>): (d: Decision)
    ensures AuthBypass(path) || IsPublic(path) ==> d == Next
    ensures d == RedirectToLogin <==>
      !AuthBypass(path) && !IsPublic(path) && IsAdminRoute(path) && SessionCookie !in cookies
    ensures d == Unauthorized <==>
      !AuthBypass(path) && !IsPublic(path) && !IsAdminRoute(path) && IsAdminApi(path)
      && SessionCookie !in cookies
    ensures SessionCookie in cookies ==> d == Next
  {
    if AuthBypass(path) then Next
    else if IsPublic(path) then Next
    else if IsAdminRoute(path) then
      if SessionCookie !in cookies then RedirectToLogin else Next
    else if IsAdminApi(path) then
      if SessionCookie !in cookies then Unauthorized else Next
    else Next
  }

  /** The decision depends on whether the session cookie is present, never on
      its value or on other cookies. */
  lemma OnlyCookiePresenceMatters(path: string, c1: map<string, string>, c2: map<string, string>)
    requires (SessionCookie in c1) == (SessionCookie in c2)
    ensures Decide(path, c1) == Decide(path, c2)
  {
  }

  /** The login page the gate redirects to is public, so following the redirect
      never redirects again. */
  lemma NoRedirectLoop(cookies: map<string, string>)
    ensures IsPublic(LoginPath)
    ensures Decide(LoginPath, cookies) == Next
  {
    assert MatchesRoute(PublicRoutes[1], LoginPath);
  }

  /** `/` is public on exact match only; `/contest` and the other public entries
      also cover the paths below them. */
  lemma RootIsExact(path: string)
    requires path != "/"
    ensures !MatchesRoute("/", path)
    ensures MatchesRoute("/contest", "/contest/" + path)
  {
    assert ("/contest/" + path)[..8] == "/contest";
  }

  /** A route differing from the path at some index is not a prefix of it. */
  lemma MismatchNotPrefix(p: string, s: string, k: nat)
    requires k < |p| && k < |s| && p[k] != s[k]
    ensures !(p <= s)
  {
  }

  /** None of the public routes covers an admin page or an admin API path. */
  lemma AdminPathsNotPublic()
    ensures !IsPublic("/admin/dashboard")
    ensures !IsPublic("/api/admin/invite")
  {
    var page, api := "/admin/dashboard", "/api/admin/invite";
    forall i | 0 <= i < |PublicRoutes| ensures !MatchesRoute(PublicRoutes[i], page) {
      var r := PublicRoutes[i];
      if i == 1 || i == 2 { MismatchNotPrefix(r, page, 7); }
      else if 3 <= i <= 6 { MismatchNotPrefix(r, page, 1); }
      else if 7 <= i { MismatchNotPrefix(r, page, 2); }
    }
    forall i | 0 <= i < |PublicRoutes| ensures !MatchesRoute(PublicRoutes[i], api) {
      var r := PublicRoutes[i];
      if i == 1 || i == 2 { MismatchNotPrefix(r, api, 2); }
      else if 3 <= i <= 6 { MismatchNotPrefix(r, api, 1); }
      else if 7 <= i { MismatchNotPrefix(r, api, 5); }
    }
  }

  /** Without a session, an admin page redirects to login and an admin API call
      is refused; with one, both pass. */
  lemma GateExamples(cookies: map<string, string>)
    requires SessionCookie !in cookies
    ensures Decide("/admin/dashboard", cookies) == RedirectToLogin
    ensures Decide("/api/admin/invite", cookies) == Unauthorized
    ensures Decide("/admin/dashboard", cookies[SessionCookie := ""]) == Next
  {
    AdminPathsNotPublic();
    assert IsAdminRoute("/admin/dashboard") by { assert AdminRoutes[0] <= "/admin/dashboard"; }
    assert !AuthBypass("/admin/dashboard") by {
      MismatchNotPrefix("/api/admin/auth/login", "/admin/dashboard", 2);
      MismatchNotPrefix("/api/admin/auth/verify-otp", "/admin/dashboard", 2);
      MismatchNotPrefix("/api/admin/accept-invite", "/admin/dashboard", 2);
    }
    assert !AuthBypass("/api/admin/invite") by {
      MismatchNotPrefix("/api/admin/auth/login", "/api/admin/invite", 11);
      MismatchNotPrefix("/api/admin/auth/verify-otp", "/api/admin/invite", 11);
      MismatchNotPrefix("/api/admin/accept-invite", "/api/admin/invite", 11);
    }
    assert !IsAdminRoute("/api/admin/invite") by {
      MismatchNotPrefix(AdminRoutes[0], "/api/admin/invite", 2);
    }
    assert IsAdminApi("/api/admin/invite") by {
      assert "/api/admin" <= "/api/admin/invite";
      MismatchNotPrefix("/api/admin/auth", "/api/admin/invite", 11);
    }
  }

  // ---------------------------------------------------------------------------
  // The matcher

  /** `favicon.ico` read as a regular expression, where the dot matches any
      character. */
  predicate FaviconLike(rest: string) {
    |rest| >= 11 && rest[..7] == "favicon" && rest[8..11] == "ico"
  }

  /** The negative lookahead of the matcher, applied after the leading `/`:
      Next.js assets, the favicon, the public folder and every path with a dot
      in it. */
  predicate Excluded(rest: string) {
    "_next/static" <= rest || "_next/image" <= rest || FaviconLike(rest)
    || '.' in rest || "public" <= rest
  }

  /** `config.matcher`: the paths the middleware runs on. */
  predicate Matched(path: string) {
    |path| > 0 && path[0] == '/' && !Excluded(path[1..])
  }

  /** The middleware as deployed: an unmatched path is never gated; a matched
      one is decided by `proxy`. */
  function Gate(path: string, cookies: map<string, string>): (d: Decision)
    ensures !Matched(path) ==> d == Next
    ensures d == RedirectToLogin <==>
      Matched(path) && !AuthBypass(path) && !IsPublic(path) && IsAdminRoute(path)
      && SessionCookie !in cookies
    ensures d == Unauthorized <==>
      Matched(path) && !AuthBypass(path) && !IsPublic(path) && !IsAdminRoute(path)
      && IsAdminApi(path) && SessionCookie !in cookies
    ensures SessionCookie in cookies ==> d == Next
  {
    if Matched(path) then Decide(path, cookies) else Next
  }

  /** The dashboard page passes the matcher, so it stays gated. */
  lemma DashboardMatched(cookies: map<string, string>)
    requires SessionCookie !in cookies
    ensures Matched("/admin/dashboard")
    ensures Gate("/admin/dashboard", cookies) == RedirectToLogin
  {
    var rest := "admin/dashboard";
    assert "/admin/dashboard"[1..] == rest;
    assert forall k :: 0 <= k < |rest| ==> rest[k] != '.';
    MismatchNotPrefix("_next/static", rest, 0);
    MismatchNotPrefix("_next/image", rest, 0);
    MismatchNotPrefix("public", rest, 0);
    GateExamples(cookies);
  }

  /** Without a session, `proxy` would redirect an admin path with a dot in it,
      but the matcher never hands that path to `proxy`, so it passes. */
  lemma DotPathUngated(cookies: map<string, string>)
    requires SessionCookie !in cookies
    ensures Decide("/admin/report.csv", cookies) == RedirectToLogin
    ensures Gate("/admin/report.csv", cookies) == Next
  {
    var file := "/admin/report.csv";
    assert file[1..][12] == '.';
    assert !AuthBypass(file) by {
      MismatchNotPrefix("/api/admin/auth/login", file, 2);
      MismatchNotPrefix("/api/admin/auth/verify-otp", file, 2);
      MismatchNotPrefix("/api/admin/accept-invite", file, 2);
    }
    assert !IsPublic(file) by {
      forall i | 0 <= i < |PublicRoutes| ensures !MatchesRoute(PublicRoutes[i], file) {
        var r := PublicRoutes[i];
        if i == 1 || i == 2 { MismatchNotPrefix(r, file, 7); }
        else if 3 <= i <= 6 { MismatchNotPrefix(r, file, 1); }
        else if 7 <= i { MismatchNotPrefix(r, file, 2); }
      }
    }
    assert IsAdminRoute(file) by { assert AdminRoutes[0] <= file; }
  }
}

=== FILE: seqs.dfy ===
/** Sequence helpers shared by the model: filtering, first-match lookup, sums and
    the sub-sequence relation. */
module Seqs {
  import opened Wrappers

  /** The elements of `s` that satisfy `p`, in their original order
      (`Array.prototype.filter`). */
  function Filter<T(!new)>(s: seq<T>, p: T -> bool): (r: seq<T>)
    ensures |r| <= |s|
    ensures forall x :: x in r <==> x in s && p(x)
    ensures multiset(r) <= multiset(s)
  {
    if |s| == 0 then []
    else
      assert s == [s[0]] + s[1..];
      if p(s[0]) then [s[0]] + Filter(s[1..], p) else Filter(s[1..], p)
  }

  /** Index of the first element of `s[from..]` that satisfies `p`. */
  function FindIndexFrom<T>(s: seq<T>, p: T -> bool, from: nat): (r: Option<nat>)
    requires from <= |s|
    ensures r.Some? ==> from <= r.value < |s| && p(s[r.value])
    ensures r.Some? ==> forall j :: from <= j < r.value ==> !p(s[j])
    ensures r.None? ==> forall j :: from <= j < |s| ==> !p(s[j])
    decreases |s| - from
  {
    if from == |s| then None
    else if p(s[from]) then Some(from)
    else FindIndexFrom(s, p, from + 1)
  }

  /** Index of the first element of `s` that satisfies `p`
      (`Array.prototype.findIndex`, or the row a `findFirst` query returns). */
  function FindIndex<T>(s: seq<T>, p: T -> bool): (r: Option<nat>)
    ensures r.Some? ==> r.value < |s| && p(s[r.value])
    ensures r.Some? ==> forall j :: 0 <= j < r.value ==> !p(s[j])
    ensures r.None? ==> forall j :: 0 <= j < |s| ==> !p(s[j])
  {
    FindIndexFrom(s, p, 0)
  }

  /** The first element of `s` that satisfies `p` (`Array.prototype.find`). */
  function Find<T>(s: seq<T>, p: T -> bool): (r: Option<T>)
    ensures r.Some? <==> exists i :: 0 <= i < |s| && p(s[i])
    ensures r.Some? ==> r.value in s && p(r.value)
  {
    match FindIndex(s, p)
    case Some(i) => Some(s[i])
    case None => None
  }

  /** `s.reduce((sum, x) => sum + f(x), 0)`. */
  function SumBy<T>(s: seq<T>, f: T -> int): int
  {
    if |s| == 0 then 0 else f(s[0]) + SumBy(s[1..], f)
  }

  /** `a` is obtained from `b` by deleting elements. */
  ghost predicate IsSubsequence<T>(a: seq<T>, b: seq<T>)
    decreases |b|
  {
    |a| == 0 ||
    (|b| > 0 && ((a[0] == b[0] && IsSubsequence(a[1..], b[1..])) || IsSubsequence(a, b[1..])))
  }

  /** No element occurs twice. */
  predicate Distinct<T(==)>(s: seq<T>) {
    forall i, j :: 0 <= i < j < |s| ==> s[i] != s[j]
  }

  /** `rel` holds of every pair of elements in order. */
  ghost predicate Pairwise<T>(s: seq<T>, rel: (T, T) -> bool) {
    forall i, j :: 0 <= i < j < |s| ==> rel(s[i], s[j])
  }

  /** Dropping elements keeps a pairwise property. */
  lemma {:induction false} FilterPairwise<T(!new)>(s: seq<T>, p: T -> bool, rel: (T, T) -> bool)
    requires Pairwise(s, rel)
    ensures Pairwise(Filter(s, p), rel)
    decreases |s|
  {
    if |s| > 0 {
      FilterPairwise(s[1..], p, rel);
      var t := Filter(s[1..], p);
      if p(s[0]) {
        var r := Filter(s, p);
        assert r == [s[0]] + t;
        forall i, j | 0 <= i < j < |r| ensures rel(r[i], r[j]) {
          if i == 0 {
            assert r[j] in s[1..];
            var k :| 0 <= k < |s[1..]| && s[1..][k] == r[j];
            assert s[k + 1] == r[j];
          } else {
            assert r[i] == t[i - 1] && r[j] == t[j - 1];
          }
        }
      }
    }
  }

  /** A filter keeps every passing element exactly as often as `s` holds it and
      no other element. */
  lemma {:induction false} FilterCount<T(!new)>(s: seq<T>, p: T -> bool)
    ensures forall x :: multiset(Filter(s, p))[x] == if p(x) then multiset(s)[x] else 0
    decreases |s|
  {
    if |s| > 0 {
      FilterCount(s[1..], p);
      assert s == [s[0]] + s[1..];
    }
  }

  lemma {:induction false} FilterAppend<T(!new)>(a: seq<T>, b: seq<T>, p: T -> bool)
    ensures Filter(a + b, p) == Filter(a, p) + Filter(b, p)
    decreases |a|
  {
    if |a| == 0 {
      assert a + b == b;
    } else {
      assert (a + b)[1..] == a[1..] + b;
      FilterAppend(a[1..], b, p);
    }
  }

  /** A filter keeps a sub-sequence of its input. */
  lemma {:induction false} FilterIsSubsequence<T(!new)>(s: seq<T>, p: T -> bool)
    ensures IsSubsequence(Filter(s, p), s)
    decreases |s|
  {
    if |s| > 0 {
      FilterIsSubsequence(s[1..], p);
      var r := Filter(s, p);
      if p(s[0]) {
        assert r[0] == s[0] && r[1..] == Filter(s[1..], p);
      }
    }
  }

  /** Filtering by `p` and by its negation splits `s` into two parts that together
      hold every element exactly as often as `s` does. */
  lemma {:induction false} FilterPartition<T(!new)>(s: seq<T>, p: T -> bool, q: T -> bool)
    requires forall x :: q(x) == !p(x)
    ensures multiset(Filter(s, p)) + multiset(Filter(s, q)) == multiset(s)
    decreases |s|
  {
    if |s| > 0 {
      FilterPartition(s[1..], p, q);
      assert s == [s[0]] + s[1..];
    }
  }

  /** Filtering by three predicates of which every element satisfies exactly one
      splits `s` into three parts that together hold every element as often as `s`. */
  lemma {:induction false} FilterPartition3<T(!new)>(s: seq<T>, p: T -> bool, q: T -> bool, w: T -> bool)
    requires forall x :: p(x) || q(x) || w(x)
    requires forall x :: !(p(x) && q(x)) && !(p(x) && w(x)) && !(q(x) && w(x))
    ensures multiset(Filter(s, p)) + multiset(Filter(s, q)) + multiset(Filter(s, w)) == multiset(s)
    decreases |s|
  {
    if |s| > 0 {
      FilterPartition3(s[1..], p, q, w);
      assert s == [s[0]] + s[1..];
    }
  }

  /** Filtering twice is filtering once by the conjunction. */
  lemma {:induction false} FilterFilter<T(!new)>(s: seq<T>, p: T -> bool, q: T -> bool, pq: T -> bool)
    requires forall x :: pq(x) == (p(x) && q(x))
    ensures Filter(Filter(s, p), q) == Filter(s, pq)
    decreases |s|
  {
    if |s| > 0 {
      FilterFilter(s[1..], p, q, pq);
    }
  }

  /** Filters by predicates that agree everywhere agree. */
  lemma {:induction false} FilterSame<T(!new)>(s: seq<T>, p: T -> bool, q: T -> bool)
    requires forall x :: p(x) == q(x)
    ensures Filter(s, p) == Filter(s, q)
    decreases |s|
  {
    if |s| > 0 {
      FilterSame(s[1..], p, q);
    }
  }

  /** A filter no element passes is empty. */
  lemma {:induction false} FilterNone<T(!new)>(s: seq<T>, p: T -> bool)
    requires forall x :: x in s ==> !p(x)
    ensures Filter(s, p) == []
    decreases |s|
  {
    if |s| > 0 {
      FilterNone(s[1..], p);
    }
  }

  /** A filter every element passes is the identity. */
  lemma {:induction false} FilterAll<T(!new)>(s: seq<T>, p: T -> bool)
    requires forall x :: x in s ==> p(x)
    ensures Filter(s, p) == s
    decreases |s|
  {
    if |s| > 0 {
      FilterAll(s[1..], p);
      assert s == [s[0]] + s[1..];
    }
  }

  /** Splitting by a predicate and by its negation splits the sum. */
  lemma {:induction false} SumByPartition<T(!new)>(s: seq<T>, p: T -> bool, q: T -> bool, f: T -> int)
    requires forall x :: q(x) == !p(x)
    ensures SumBy(s, f) == SumBy(Filter(s, p), f) + SumBy(Filter(s, q), f)
    decreases |s|
  {
    if |s| > 0 {
      SumByPartition(s[1..], p, q, f);
    }
  }

  lemma {:induction false} SumByAppend<T>(a: seq<T>, b: seq<T>, f: T -> int)
    ensures SumBy(a + b, f) == SumBy(a, f) + SumBy(b, f)
    decreases |a|
  {
    if |a| == 0 {
      assert a + b == b;
    } else {
      assert (a + b)[1..] == a[1..] + b;
      SumByAppend(a[1..], b, f);
    }
  }

  /** Replacing one element changes the sum by the difference. */
  lemma SumByUpdate<T>(s: seq<T>, i: nat, x: T, f: T -> int)
    requires i < |s|
    ensures SumBy(s[i := x], f) == SumBy(s, f) - f(s[i]) + f(x)
  {
    assert s == s[..i] + [s[i]] + s[i + 1..];
    assert s[i := x] == s[..i] + [x] + s[i + 1..];
    SumByAppend(s[..i] + [s[i]], s[i + 1..], f);
    SumByAppend(s[..i], [s[i]], f);
    SumByAppend(s[..i] + [x], s[i + 1..], f);
    SumByAppend(s[..i], [x], f);
  }

  /** A sequence without repeats holds each of its elements exactly once. */
  lemma {:induction false} DistinctMultiset<T>(s: seq<T>)
    ensures Distinct(s) <==> forall x :: multiset(s)[x] <= 1
    decreases |s|
  {
    if |s| > 0 {
      DistinctMultiset(s[1..]);
      assert s == [s[0]] + s[1..];
      if Distinct(s) {
        assert Distinct(s[1..]) by {
          forall i, j | 0 <= i < j < |s[1..]| ensures s[1..][i] != s[1..][j] {
            assert s[1..][i] == s[i + 1] && s[1..][j] == s[j + 1];
          }
        }
        assert s[0] !in s[1..];
      }
      if forall x :: multiset(s)[x] <= 1 {
        assert forall x :: multiset(s[1..])[x] <= 1 by {
          forall x ensures multiset(s[1..])[x] <= 1 {
            assert multiset(s)[x] == multiset{s[0]}[x] + multiset(s[1..])[x];
          }
        }
        assert multiset(s)[s[0]] == 1 + multiset(s[1..])[s[0]];
        assert s[0] !in s[1..];
        forall i, j | 0 <= i < j < |s| ensures s[i] != s[j] {
          if i == 0 {
            assert s[j] == s[1..][j - 1];
          } else {
            assert s[i] == s[1..][i - 1] && s[j] == s[1..][j - 1];
          }
        }
      }
    }
  }

  /** The distinct elements of `s` in order of first occurrence
      (`Array.from(new Set(s))`). */
  function Dedup<T(==,!new)>(s: seq<T>): (r: seq<T>)
    ensures Distinct(r)
    ensures forall x :: x in r <==> x in s
    decreases |s|
  {
    if |s| == 0 then []
    else
      var rest := Dedup(Filter(s[1..], (x: T) => x != s[0]));
      assert s[0] !in rest;
      [s[0]] + rest
  }
}

=== FILE: sorting.dfy ===
/** A stable sort by a comparator, standing for `Array.prototype.sort` with a
    comparator and for a database `orderBy`. `le(a, b)` means "`a` may be placed
    before `b`". */
module Sorting {

  ghost predicate Total<T(!new)>(le: (T, T) -> bool) {
    forall a, b :: le(a, b) || le(b, a)
  }

  ghost predicate Transitive<T(!new)>(le: (T, T) -> bool) {
    forall a, b, c :: le(a, b) && le(b, c) ==> le(a, c)
  }

  /** Every element may be placed before every later one. */
  ghost predicate SortedBy<T>(s: seq<T>, le: (T, T) -> bool) {
    forall i, j :: 0 <= i < j < |s| ==> le(s[i], s[j])
  }

  /** Inserts `x` in front of the first element it may precede. */
  function Insert<T>(x: T, s: seq<T>, le: (T, T) -> bool): (r: seq<T>)
    ensures multiset(r) == multiset(s) + multiset{x}
    ensures |r| == |s| + 1
  {
    if |s| == 0 || le(x, s[0]) then [x] + s
    else
      assert s == [s[0]] + s[1..];
      [s[0]] + Insert(x, s[1..], le)
  }

  /** Insertion sort; an element is placed before the equal elements that follow
      it in the input, so the sort is stable. */
  function Sort<T>(s: seq<T>, le: (T, T) -> bool): (r: seq<T>)
    ensures multiset(r) == multiset(s)
    ensures |r| == |s|
  {
    if |s| == 0 then []
    else
      assert s == [s[0]] + s[1..];
      Insert(s[0], Sort(s[1..], le), le)
  }

  lemma {:induction false} InsertSorted<T(!new)>(x: T, s: seq<T>, le: (T, T) -> bool)
    requires Total(le) && Transitive(le)
    requires SortedBy(s, le)
    ensures SortedBy(Insert(x, s, le), le)
    decreases |s|
  {
    if |s| > 0 && !le(x, s[0]) {
      var t := s[1..];
      assert SortedBy(t, le) by {
        forall i, j | 0 <= i < j < |t| ensures le(t[i], t[j]) {
          assert t[i] == s[i + 1] && t[j] == s[j + 1];
        }
      }
      InsertSorted(x, t, le);
      var r := Insert(x, s, le);
      var rt := Insert(x, t, le);
      assert r == [s[0]] + rt;
      assert le(s[0], x);
      forall j | 1 <= j < |r| ensures le(r[0], r[j]) {
        var y := rt[j - 1];
        assert y in multiset(rt);
        assert y == x || y in multiset(t);
        if y != x {
          var k :| 0 <= k < |t| && t[k] == y;
          assert s[k + 1] == y;
        }
      }
    }
  }

  lemma {:induction false} SortSorted<T(!new)>(s: seq<T>, le: (T, T) -> bool)
    requires Total(le) && Transitive(le)
    ensures SortedBy(Sort(s, le), le)
    decreases |s|
  {
    if |s| > 0 {
      SortSorted(s[1..], le);
      InsertSorted(s[0], Sort(s[1..], le), le);
    }
  }

  /** Sorting a list that is already sorted leaves it as it is. */
  lemma {:induction false} SortOfSorted<T(!new)>(s: seq<T>, le: (T, T) -> bool)
    requires SortedBy(s, le)
    ensures Sort(s, le) == s
    decreases |s|
  {
    if |s| > 0 {
      var t := s[1..];
      assert SortedBy(t, le) by {
        forall i, j | 0 <= i < j < |t| ensures le(t[i], t[j]) {
          assert t[i] == s[i + 1] && t[j] == s[j + 1];
        }
      }
      SortOfSorted(t, le);
      if |t| > 0 {
        assert le(s[0], t[0]);
      }
      assert s == [s[0]] + t;
    }
  }

  /** Sorting keeps exactly the elements it is given. */
  lemma SortSameElements<T(!new)>(s: seq<T>, le: (T, T) -> bool)
    ensures forall x :: x in Sort(s, le) <==> x in s
  {
    var r := Sort(s, le);
    forall x ensures x in r <==> x in s {
      assert x in r <==> x in multiset(r);
      assert x in s <==> x in multiset(s);
    }
  }
}

=== FILE: store.dfy ===
/** The server's relational store as an immutable value, the rows of its tables,
    and the reply shape of a route handler. A handler is a pure function from the
    store, the request and the clock to a reply and the next store. */
module Store {
  import opened Wrappers
  import opened Types
  import opened Seqs

  datatype ContestantRow = ContestantRow(
    id: Id,
    name: string,
    bio: string,
    categoryId: Id,
    photoUrl: string,
    linkedinUrl: Option<string>,
    email: string,
    contestId: Id,
    isVisible: bool,
    status: ContestantStatus,
    votes: int)

  datatype AdminRow = AdminRow(
    id: Id,
    email: string,
    passwordHash: string,
    name: string,
    role: Role,
    isActive: bool,
    createdAt: int)

  /** An admin-login one-time code. */
  datatype OtpRow = OtpRow(
    id: Id,
    adminId: Id,
    code: string,
    expiresAt: int,
    verified: bool)

  datatype InvitationRow = InvitationRow(
    id: Id,
    email: string,
    name: string,
    role: Role,
    token: string,
    expiresAt: int,
    accepted: bool,
    createdBy: Id,
    createdAt: int)

  /** The tables. A session is recorded by the id of the admin it belongs to. */
  datatype Db = Db(
    contests: seq<Contest>,
    categories: seq<Category>,
    contestants: seq<ContestantRow>,
    votes: seq<VoteRecord>,
    admins: seq<AdminRow>,
    otps: seq<OtpRow>,
    invitations: seq<InvitationRow>,
    sessions: seq<Id>)

  /** An HTTP reply: an error status with its message, or a success status with
      its body. */
  datatype Reply<T> = Fail(code: int, message: string) | Ok(code: int, value: T)

  datatype Handled<T> = Handled(reply: Reply<T>, db: Db)

  /** The user a valid session cookie identifies. */
  datatype SessionUser = SessionUser(id: Id, name: string, role: Role)

  /** The admin fields the login routes return. */
  datatype AdminSummary = AdminSummary(id: Id, email: string, name: string, role: Role)

  /** The admin fields the admin-management routes select; `passwordHash` has no
      place in it. */
  datatype AdminView = AdminView(
    id: Id,
    email: string,
    name: string,
    role: Role,
    isActive: bool,
    createdAt: int)

  function Summary(a: AdminRow): AdminSummary {
    AdminSummary(a.id, a.email, a.name, a.role)
  }

  function View(a: AdminRow): AdminView {
    AdminView(a.id, a.email, a.name, a.role, a.isActive, a.createdAt)
  }

  // Lookups (`findUnique`): the first row with the key.

  function ContestById(db: Db, id: Id): Option<Contest> {
    Find(db.contests, (c: Contest) => c.id == id)
  }

  function ContestantById(db: Db, id: Id): Option<ContestantRow> {
    Find(db.contestants, (c: ContestantRow) => c.id == id)
  }

  function AdminById(db: Db, id: Id): Option<AdminRow> {
    Find(db.admins, (a: AdminRow) => a.id == id)
  }

  function AdminByEmail(db: Db, email: string): Option<AdminRow> {
    Find(db.admins, (a: AdminRow) => a.email == email)
  }

  function InvitationByEmail(db: Db, email: string): Option<InvitationRow> {
    Find(db.invitations, (i: InvitationRow) => i.email == email)
  }

  function InvitationByToken(db: Db, token: string): Option<InvitationRow> {
    Find(db.invitations, (i: InvitationRow) => i.token == token)
  }

  /** The one-time codes issued to admin `adminId`. */
  function CodesOf(otps: seq<OtpRow>, adminId: Id): seq<OtpRow> {
    Filter(otps, (o: OtpRow) => o.adminId == adminId)
  }

  /** Primary key of the code table. */
  ghost predicate UniqueOtpIds(otps: seq<OtpRow>) {
    forall i, j :: 0 <= i < j < |otps| ==> otps[i].id != otps[j].id
  }

  /** The verified vote rows that credit contestant `id`. */
  function VerifiedVotesFor(votes: seq<VoteRecord>, id: Id): seq<VoteRecord> {
    Filter(votes, (v: VoteRecord) => v.contestantId == id && v.status == Verified)
  }

  /** Every contestant's cached `votes` counter equals the number of verified
      vote rows that credit it. */
  ghost predicate CountersMatch(db: Db) {
    forall k :: 0 <= k < |db.contestants| ==>
      db.contestants[k].votes == |VerifiedVotesFor(db.votes, db.contestants[k].id)|
  }

  /** At most one vote row per voter and contest: the composite unique key
      `(email, contestId)` of the vote table. */
  ghost predicate OneVotePerVoter(votes: seq<VoteRecord>) {
    forall i, j :: 0 <= i < j < |votes| ==>
      votes[i].email != votes[j].email || votes[i].contestId != votes[j].contestId
  }
}

=== FILE: strings.dfy ===
/** Character classes and string operations with JavaScript semantics, on strings
    modelled as `seq<char>`. */
module Strings {

  /** The characters JavaScript's `\s` matches, which are also the characters
      `String.prototype.trim` strips: the ECMAScript WhiteSpace and
      LineTerminator code points. */
  predicate IsSpace(c: char) {
    c == '\t' || c == '\n' || c == '\U{000B}' || c == '\U{000C}' || c == '\r' || c == ' '
    || c == '\U{00A0}' || c == '\U{1680}' || ('\U{2000}' <= c <= '\U{200A}')
    || c == '\U{2028}' || c == '\U{2029}' || c == '\U{202F}' || c == '\U{205F}'
    || c == '\U{3000}' || c == '\U{FEFF}'
  }

  /** `[0-9]`, which is also what `\d` matches. */
  predicate IsDigit(c: char) { '0' <= c <= '9' }

  /** `[A-Z]`. */
  predicate IsUpper(c: char) { 'A' <= c <= 'Z' }

  /** `[a-z]`. */
  predicate IsLower(c: char) { 'a' <= c <= 'z' }

  /** Some character of `s` satisfies `p` (a one-class regular expression test). */
  predicate HasChar(s: string, p: char -> bool) {
    exists i :: 0 <= i < |s| && p(s[i])
  }

  // ---------------------------------------------------------------------------
  // Ordering

  /** Lexicographic order on code points. JavaScript's `<=` on strings and
      `Array.prototype.sort()` without a comparator compare UTF-16 code units;
      the two orders agree except between a supplementary character and one in
      U+E000..U+FFFF. */
  predicate StrLe(a: string, b: string)
    decreases |a|
  {
    if |a| == 0 then true
    else if |b| == 0 then false
    else if a[0] != b[0] then a[0] < b[0]
    else StrLe(a[1..], b[1..])
  }

  lemma {:induction false} StrLeTotal(a: string, b: string)
    ensures StrLe(a, b) || StrLe(b, a)
    decreases |a|
  {
    if |a| > 0 && |b| > 0 && a[0] == b[0] {
      StrLeTotal(a[1..], b[1..]);
    }
  }

  lemma {:induction false} StrLeTransitive(a: string, b: string, c: string)
    requires StrLe(a, b) && StrLe(b, c)
    ensures StrLe(a, c)
    decreases |a|
  {
    if |a| > 0 && |b| > 0 && |c| > 0 && a[0] == b[0] && b[0] == c[0] {
      StrLeTransitive(a[1..], b[1..], c[1..]);
    }
  }

  lemma {:induction false} StrLeAntisymmetric(a: string, b: string)
    requires StrLe(a, b) && StrLe(b, a)
    ensures a == b
    decreases |a|
  {
    if |a| > 0 {
      StrLeAntisymmetric(a[1..], b[1..]);
      assert a == [a[0]] + a[1..] && b == [b[0]] + b[1..];
    }
  }

  // ---------------------------------------------------------------------------
  // Decimal rendering

  function DigitChar(d: nat): (c: char)
    requires d < 10
    ensures IsDigit(c)
  {
    ['0', '1', '2', '3', '4', '5', '6', '7', '8', '9'][d]
  }

  /** `n.toString()` for a non-negative integer: decimal digits without leading
      zeros. */
  function NatToDecimal(n: nat): (r: string)
    ensures |r| > 0
    ensures forall i :: 0 <= i < |r| ==> IsDigit(r[i])
  {
    if n < 10 then [DigitChar(n)] else NatToDecimal(n / 10) + [DigitChar(n % 10)]
  }

  /** A number in `[10^(k-1), 10^k)` has exactly `k` decimal digits. */
  lemma {:induction false} DecimalLength(n: nat, k: nat)
    requires 1 <= k
    requires Pow10(k - 1) <= n < Pow10(k)
    ensures |NatToDecimal(n)| == k
    decreases k
  {
    if k == 1 {
      assert n < 10;
    } else {
      assert Pow10(k - 1) == 10 * Pow10(k - 2);
      assert Pow10(k) == 10 * Pow10(k - 1);
      assert n >= 10;
      DecimalLength(n / 10, k - 1);
    }
  }

  function Pow10(k: nat): (r: nat)
    ensures r >= 1
  {
    if k == 0 then 1 else 10 * Pow10(k - 1)
  }

  // ---------------------------------------------------------------------------
  // Length

  /** The UTF-16 code units `c` occupies: two for a character outside the Basic
      Multilingual Plane (a surrogate pair), one otherwise. */
  function Utf16Units(c: char): nat {
    if c as int > 0xFFFF then 2 else 1
  }

  /** `s.length`: JavaScript counts UTF-16 code units, not characters. */
  function Utf16Length(s: string): (n: nat)
    ensures |s| <= n <= 2 * |s|
    decreases |s|
  {
    if |s| == 0 then 0 else Utf16Units(s[0]) + Utf16Length(s[1..])
  }

  /** The JavaScript length and the character count agree exactly when every
      character lies in the Basic Multilingual Plane. */
  lemma {:induction false} Utf16LengthBmp(s: string)
    ensures Utf16Length(s) == |s| <==> forall i :: 0 <= i < |s| ==> s[i] as int <= 0xFFFF
    decreases |s|
  {
    if |s| > 0 {
      Utf16LengthBmp(s[1..]);
      assert forall i :: 1 <= i < |s| ==> s[i] == s[1..][i - 1];
    }
  }

  /** Lengths add up over concatenation. */
  lemma {:induction false} Utf16LengthAppend(a: string, b: string)
    ensures Utf16Length(a + b) == Utf16Length(a) + Utf16Length(b)
    decreases |a|
  {
    if |a| == 0 {
      assert a + b == b;
    } else {
      assert (a + b)[1..] == a[1..] + b;
      Utf16LengthAppend(a[1..], b);
    }
  }

  /** The UTF-16 encoding of `c`: its code point, or a high and a low surrogate
      for a character outside the Basic Multilingual Plane. */
  function CodeUnits(c: char): (u: seq<int>)
    ensures |u| == Utf16Units(c)
    ensures forall k :: 0 <= k < |u| ==> 0 <= u[k] <= 0xFFFF
    ensures c as int <= 0xFFFF ==> u == [c as int]
    ensures c as int > 0xFFFF ==> 0xD800 <= u[0] < 0xDC00 <= u[1] < 0xE000
  {
    var v := c as int - 0x10000;
    if v < 0 then [c as int] else [0xD800 + v / 0x400, 0xDC00 + v % 0x400]
  }

  /** The UTF-16 code units of `s`, the units JavaScript strings are made of. */
  function Utf16(s: string): (u: seq<int>)
    ensures |u| == Utf16Length(s)
    decreases |s|
  {
    if |s| == 0 then [] else CodeUnits(s[0]) + Utf16(s[1..])
  }

  /** Lexicographic order on sequences of code units. */
  predicate UnitsLe(a: seq<int>, b: seq<int>)
    decreases |a|
  {
    if |a| == 0 then true
    else if |b| == 0 then false
    else if a[0] != b[0] then a[0] < b[0]
    else UnitsLe(a[1..], b[1..])
  }

  lemma {:induction false} UnitsLeTotal(a: seq<int>, b: seq<int>)
    ensures UnitsLe(a, b) || UnitsLe(b, a)
    decreases |a|
  {
    if |a| > 0 && |b| > 0 && a[0] == b[0] {
      UnitsLeTotal(a[1..], b[1..]);
    }
  }

  lemma {:induction false} UnitsLeTransitive(a: seq<int>, b: seq<int>, c: seq<int>)
    requires UnitsLe(a, b) && UnitsLe(b, c)
    ensures UnitsLe(a, c)
    decreases |a|
  {
    if |a| > 0 && |b| > 0 && |c| > 0 && a[0] == b[0] && b[0] == c[0] {
      UnitsLeTransitive(a[1..], b[1..], c[1..]);
    }
  }

  /** JavaScript's string order: `<=` on strings, and `Array.prototype.sort()`
      without a comparator. */
  predicate Utf16Le(a: string, b: string) {
    UnitsLe(Utf16(a), Utf16(b))
  }

  /** The two orders differ: U+1F600 is encoded from U+D83D, which is below
      U+FF46, so JavaScript places the emoji first although its code point is
      larger. */
  lemma Utf16OrderDiffers()
    ensures Utf16Le("\U{1F600}", "\U{FF46}") && !Utf16Le("\U{FF46}", "\U{1F600}")
    ensures StrLe("\U{FF46}", "\U{1F600}") && !StrLe("\U{1F600}", "\U{FF46}")
  {
    assert Utf16("\U{1F600}") == [0xD83D, 0xDE00] by {
      assert "\U{1F600}"[1..] == [];
    }
    assert Utf16("\U{FF46}") == [0xFF46] by {
      assert "\U{FF46}"[1..] == [];
    }
  }

  // ---------------------------------------------------------------------------
  // Searching and case

  /** `s.includes(t)`: `t` occurs in `s` as a contiguous block. */
  predicate Includes(s: string, t: string)
    decreases |s|
  {
    t <= s || (|s| > 0 && Includes(s[1..], t))
  }

  /** `toLowerCase` restricted to ASCII letters; JavaScript also folds every
      other cased Unicode letter. */
  function LowerChar(c: char): char {
    if IsUpper(c) then (c as int + 32) as char else c
  }

  function ToLower(s: string): (r: string)
    ensures |r| == |s|
    ensures forall i :: 0 <= i < |s| ==> r[i] == LowerChar(s[i])
  {
    seq(|s|, i requires 0 <= i < |s| => LowerChar(s[i]))
  }

  // ---------------------------------------------------------------------------
  // Trimming

  /** `s` without its leading white space. */
  function TrimStart(s: string): (r: string)
    ensures |r| <= |s| && r == s[|s| - |r|..]
    ensures forall k :: 0 <= k < |s| - |r| ==> IsSpace(s[k])
    ensures |r| > 0 ==> !IsSpace(r[0])
  {
    if |s| > 0 && IsSpace(s[0]) then TrimStart(s[1..]) else s
  }

  /** `s` without its trailing white space. */
  function TrimEnd(s: string): (r: string)
    ensures |r| <= |s| && r == s[..|r|]
    ensures forall k :: |r| <= k < |s| ==> IsSpace(s[k])
    ensures |r| > 0 ==> !IsSpace(r[|r| - 1])
  {
    if |s| > 0 && IsSpace(s[|s| - 1]) then TrimEnd(s[..|s| - 1]) else s
  }

  /** `r` is the block of `s` starting at `i`, and everything of `s` outside that
      block is white space. */
  ghost predicate TrimmedAt(s: string, r: string, i: int) {
    && 0 <= i <= |s| - |r|
    && r == s[i..i + |r|]
    && (forall k :: 0 <= k < i ==> IsSpace(s[k]))
    && (forall k :: i + |r| <= k < |s| ==> IsSpace(s[k]))
  }

  /** `String.prototype.trim`: the block of `s` between its leading and trailing
      white space. */
  function Trim(s: string): (r: string)
    ensures exists i :: TrimmedAt(s, r, i)
    ensures |r| > 0 ==> !IsSpace(r[0]) && !IsSpace(r[|r| - 1])
  {
    var t := TrimStart(s);
    var r := TrimEnd(t);
    TrimParts(s, t, r);
    r
  }

  /** Stripping a white-space prefix and then a white-space suffix leaves a block
      of `s` with only white space around it. */
  lemma TrimParts(s: string, t: string, r: string)
    requires |t| <= |s| && t == s[|s| - |t|..]
    requires forall k :: 0 <= k < |s| - |t| ==> IsSpace(s[k])
    requires |r| <= |t| && r == t[..|r|]
    requires forall k :: |r| <= k < |t| ==> IsSpace(t[k])
    ensures TrimmedAt(s, r, |s| - |t|)
  {
    var i := |s| - |t|;
    assert r == s[i..i + |r|];
    forall k | i + |r| <= k < |s| ensures IsSpace(s[k]) {
      assert s[k] == t[k - i];
    }
  }
}

=== FILE: types.dfy ===
/** The records of `types.ts`, with the status enumerations, and the role names
    used across the admin routes. Dates are integer milliseconds since the epoch. */
module Types {
  import opened Wrappers

  type Id = string

  datatype ContestStatus = Active | Upcoming | Ended | Paused

  datatype ContestantStatus = Active | Withdrawn

  /** Status of a stored vote row. */
  datatype VoteRowStatus = Pending | Verified | Rejected

  /** Step of the public vote dialog (`VoteStatus` in `types.ts`). */
  datatype VoteStatus = Idle | SendingOtp | AwaitingOtp | Verifying | Success | Error

  datatype Role = Admin | Manager

  datatype AdminUserStatus = Active | Invited | Inactive

  datatype Contest = Contest(
    id: Id,
    title: string,
    description: string,
    startDate: int,
    endDate: int,
    status: ContestStatus,
    bannerUrl: string)

  datatype Contestant = Contestant(
    id: Id,
    name: string,
    bio: string,
    category: string,
    photoUrl: string,
    votes: int,
    linkedinUrl: Option<string>,
    isVisible: bool,
    status: ContestantStatus,
    email: string,
    contestId: Id)

  datatype Category = Category(
    id: Id,
    name: string,
    description: string,
    coverPhotoUrl: string,
    icon: Option<string>,
    displayOrder: int,
    isActive: bool,
    contestId: Id)

  datatype VoteRecord = VoteRecord(
    id: Id,
    email: string,
    contestantId: Id,
    contestId: Id,
    timestamp: int,
    status: VoteRowStatus,
    ipAddress: Option<string>)

  datatype AdminUser = AdminUser(
    id: Id,
    email: string,
    role: Role,
    status: AdminUserStatus,
    lastLogin: string)

  /** The role a request names: only `"admin"` and `"manager"` are roles
      (`['admin', 'manager'].includes(role)`). */
  function ParseRole(s: string): (r: Option<Role>)
    ensures r == Some(Role.Admin) <==> s == "admin"
    ensures r == Some(Role.Manager) <==> s == "manager"
    ensures r.None? <==> s != "admin" && s != "manager"
  {
    if s == "admin" then Some(Role.Admin)
    else if s == "manager" then Some(Role.Manager)
    else None
  }
}

=== FILE: utils.dfy ===
/** The validators and helpers of `lib/utils.ts`. */
module Utils {
  import opened Types
  import opened Seqs
  import opened Strings

  // ---------------------------------------------------------------------------
  // validatePassword

  datatype PasswordCheck = PasswordCheck(valid: bool, message: string)

  const TooShort := "Password must be at least 8 characters long"
  const NoUpper := "Password must contain at least one uppercase letter"
  const NoLower := "Password must contain at least one lowercase letter"
  const NoDigit := "Password must contain at least one number"
  const PasswordOk := "Password is valid"

  /** Valid exactly when the password has at least 8 UTF-16 code units (its
      JavaScript `length`), an upper-case letter, a lower-case letter and a digit;
      the message names the first check that fails, in that order. */
  function ValidatePassword(p: string): (r: PasswordCheck)
    ensures r.valid <==> Utf16Length(p) >= 8 && HasChar(p, IsUpper) && HasChar(p, IsLower) && HasChar(p, IsDigit)
    ensures Utf16Length(p) < 8 ==> r.message == TooShort
    ensures Utf16Length(p) >= 8 && !HasChar(p, IsUpper) ==> r.message == NoUpper
    ensures Utf16Length(p) >= 8 && HasChar(p, IsUpper) && !HasChar(p, IsLower) ==> r.message == NoLower
    ensures Utf16Length(p) >= 8 && HasChar(p, IsUpper) && HasChar(p, IsLower) && !HasChar(p, IsDigit) ==> r.message == NoDigit
    ensures r.valid ==> r.message == PasswordOk
  {
    if Utf16Length(p) < 8 then PasswordCheck(false, TooShort)
    else if !HasChar(p, IsUpper) then PasswordCheck(false, NoUpper)
    else if !HasChar(p, IsLower) then PasswordCheck(false, NoLower)
    else if !HasChar(p, IsDigit) then PasswordCheck(false, NoDigit)
    else PasswordCheck(true, PasswordOk)
  }

  // ---------------------------------------------------------------------------
  // validateEmail

  /** A character `[^\s@]` accepts. */
  predicate EmailChar(c: char) { !IsSpace(c) && c != '@' }

  /** `s` splits as `local@host.tld` at the `@` in position `at` and the `.` in
      position `dot`, each part non-empty and made of `[^\s@]` characters: one
      way for `/^[^\s@]+@[^\s@]+\.[^\s@]+$/` to match. */
  predicate EmailSplit(s: string, at: int, dot: int) {
    && 0 < at && at + 1 < dot && dot + 1 < |s|
    && s[at] == '@' && s[dot] == '.'
    && forall k :: 0 <= k < |s| && k != at ==> EmailChar(s[k])
  }

  /** Number of occurrences of `c` in `s`. */
  function Occurrences(s: string, c: char): nat {
    if |s| == 0 then 0 else (if s[0] == c then 1 else 0) + Occurrences(s[1..], c)
  }

  /** `validateEmail`: the regular expression matches. Equivalently: no white
      space, exactly one `@`, something before it, and after it a domain with a
      `.` that is neither its first nor its last character. */
  function ValidateEmail(s: string): (ok: bool)
    ensures ok <==> exists at, dot :: EmailSplit(s, at, dot)
    ensures ok <==>
      && (forall k :: 0 <= k < |s| ==> !IsSpace(s[k]))
      && Occurrences(s, '@') == 1
      && (forall at :: 0 <= at < |s| && s[at] == '@' ==>
            0 < at && exists dot :: at + 1 < dot < |s| - 1 && s[dot] == '.')
  {
    var ok := exists at, dot | 0 <= at < |s| && 0 <= dot < |s| :: EmailSplit(s, at, dot);
    EmailCharacterisation(s);
    ok
  }

  lemma {:induction false} OccurrencesOne(s: string, c: char, at: int)
    requires 0 <= at < |s| && s[at] == c
    requires forall k :: 0 <= k < |s| && k != at ==> s[k] != c
    ensures Occurrences(s, c) == 1
    decreases |s|
  {
    if at == 0 {
      OccurrencesNone(s[1..], c);
    } else {
      OccurrencesOne(s[1..], c, at - 1);
    }
  }

  lemma {:induction false} OccurrencesNone(s: string, c: char)
    requires forall k :: 0 <= k < |s| ==> s[k] != c
    ensures Occurrences(s, c) == 0
    decreases |s|
  {
    if |s| > 0 { OccurrencesNone(s[1..], c); }
  }

  /** Two distinct positions holding `c` make at least two occurrences. */
  lemma {:induction false} OccurrencesTwo(s: string, c: char, i: int, j: int)
    requires 0 <= i < j < |s| && s[i] == c && s[j] == c
    ensures Occurrences(s, c) >= 2
    decreases |s|
  {
    if i == 0 {
      OccurrencesPositive(s[1..], c, j - 1);
    } else {
      OccurrencesTwo(s[1..], c, i - 1, j - 1);
    }
  }

  lemma {:induction false} OccurrencesPositive(s: string, c: char, i: int)
    requires 0 <= i < |s| && s[i] == c
    ensures Occurrences(s, c) >= 1
    decreases |s|
  {
    if i > 0 { OccurrencesPositive(s[1..], c, i - 1); }
  }

  lemma {:induction false} OccurrencesFound(s: string, c: char)
    requires Occurrences(s, c) >= 1
    ensures exists i :: 0 <= i < |s| && s[i] == c
    decreases |s|
  {
    if s[0] != c {
      OccurrencesFound(s[1..], c);
      var i :| 0 <= i < |s[1..]| && s[1..][i] == c;
      assert s[i + 1] == c;
    }
  }

  lemma EmailCharacterisation(s: string)
    ensures (exists at, dot :: EmailSplit(s, at, dot)) <==>
      && (forall k :: 0 <= k < |s| ==> !IsSpace(s[k]))
      && Occurrences(s, '@') == 1
      && (forall at :: 0 <= at < |s| && s[at] == '@' ==>
            0 < at && exists dot :: at + 1 < dot < |s| - 1 && s[dot] == '.')
  {
    if exists at, dot :: EmailSplit(s, at, dot) {
      var at, dot :| EmailSplit(s, at, dot);
      OccurrencesOne(s, '@', at);
      forall a | 0 <= a < |s| && s[a] == '@'
        ensures 0 < a && exists d :: a + 1 < d < |s| - 1 && s[d] == '.'
      {
        assert a == at;
      }
    }
    if && (forall k :: 0 <= k < |s| ==> !IsSpace(s[k]))
       && Occurrences(s, '@') == 1
       && (forall at :: 0 <= at < |s| && s[at] == '@' ==>
             0 < at && exists dot :: at + 1 < dot < |s| - 1 && s[dot] == '.')
    {
      OccurrencesFound(s, '@');
      var at :| 0 <= at < |s| && s[at] == '@';
      var dot :| at + 1 < dot < |s| - 1 && s[dot] == '.';
      forall k | 0 <= k < |s| && k != at ensures EmailChar(s[k]) {
        if s[k] == '@' {
          if k < at { OccurrencesTwo(s, '@', k, at); } else { OccurrencesTwo(s, '@', at, k); }
        }
      }
      assert EmailSplit(s, at, dot);
    }
  }

  // ---------------------------------------------------------------------------
  // generateSecurePassword

  const Uppercase := "ABCDEFGHIJKLMNOPQRSTUVWXYZ"
  const Lowercase := "abcdefghijklmnopqrstuvwxyz"
  const Numbers := "0123456789"
  const Symbols := "!@#$%^&*()_+-=[]{}|;:,.<>?"
  const AllChars := Uppercase + Lowercase + Numbers + Symbols

  /** `perm` lists every position below `n` exactly once: an arbitrary
      shuffle. */
  predicate IsPermutation(perm: seq<nat>, n: nat) {
    && |perm| == n
    && (forall i :: 0 <= i < n ==> perm[i] < n)
    && (forall j :: 0 <= j < n ==> j in perm)
    && Distinct(perm)
  }

  function Max(a: int, b: int): int { if a < b then b else a }

  /** The characters before the shuffle: one drawn from each class, then
      `length - 4` from the whole alphabet. */
  function Unshuffled(u: nat, l: nat, d: nat, sy: nat, fill: seq<nat>): (pw: string)
    requires u < |Uppercase| && l < |Lowercase| && d < |Numbers| && sy < |Symbols|
    requires forall i :: 0 <= i < |fill| ==> fill[i] < |AllChars|
    ensures |pw| == 4 + |fill|
    ensures forall i :: 0 <= i < |pw| ==> pw[i] in AllChars
  {
    [Uppercase[u], Lowercase[l], Numbers[d], Symbols[sy]]
      + seq(|fill|, i requires 0 <= i < |fill| => AllChars[fill[i]])
  }

  /** `generateSecurePassword(length)`. The random draws are parameters: `u`,
      `l`, `d`, `sy` pick the mandatory characters, `fill` the remaining ones and
      `perm` is the shuffle. */
  function GenerateSecurePassword(length: int, u: nat, l: nat, d: nat, sy: nat,
                                  fill: seq<nat>, perm: seq<nat>): (r: string)
    requires u < |Uppercase| && l < |Lowercase| && d < |Numbers| && sy < |Symbols|
    requires |fill| == Max(length, 4) - 4
    requires forall i :: 0 <= i < |fill| ==> fill[i] < |AllChars|
    requires IsPermutation(perm, Max(length, 4))
    ensures |r| == Max(length, 4)
    ensures forall i :: 0 <= i < |r| ==> r[i] in AllChars
    ensures HasChar(r, IsUpper) && HasChar(r, IsLower) && HasChar(r, IsDigit)
    ensures exists i :: 0 <= i < |r| && r[i] in Symbols
    ensures length >= 8 ==> ValidatePassword(r).valid
  {
    var pw := Unshuffled(u, l, d, sy, fill);
    var r := Shuffle(pw, perm);
    AlphabetClasses();
    ShuffleKeeps(pw, perm, 0);
    ShuffleKeeps(pw, perm, 1);
    ShuffleKeeps(pw, perm, 2);
    ShuffleKeeps(pw, perm, 3);
    r
  }

  /** `pw` rearranged by `perm`: the same characters, each as often as in
      `pw`. */
  function Shuffle(pw: string, perm: seq<nat>): (r: string)
    requires IsPermutation(perm, |pw|)
    ensures |r| == |pw|
    ensures forall i :: 0 <= i < |r| ==> r[i] in pw
    ensures multiset(r) == multiset(pw)
  {
    ShuffleMultiset(pw, perm);
    Permuted(pw, perm)
  }

  /** The character of `pw` at each position `perm` names. */
  function Permuted(pw: string, perm: seq<nat>): (r: string)
    requires forall i :: 0 <= i < |perm| ==> perm[i] < |pw|
    ensures |r| == |perm| && forall i :: 0 <= i < |perm| ==> r[i] == pw[perm[i]]
  {
    seq(|perm|, i requires 0 <= i < |perm| => pw[perm[i]])
  }

  /** Rearranging by a permutation keeps the multiset of characters: the
      position holding the last index is taken out, which leaves a permutation
      of the shorter string. */
  lemma {:induction false} ShuffleMultiset(pw: string, perm: seq<nat>)
    requires IsPermutation(perm, |pw|)
    ensures multiset(Permuted(pw, perm)) == multiset(pw)
    decreases |pw|
  {
    if |pw| > 0 {
      var n := |pw| - 1;
      var k := PositionOf(perm, n);
      var rest := perm[..k] + perm[k + 1..];
      RemovedPermutation(perm, n, k, rest);
      var front := pw[..n];
      ShuffleMultiset(front, rest);
      PermutedSplice(pw, perm, k, rest);
      SpliceStep(Permuted(pw, perm), Permuted(front, rest), k, pw);
    }
  }

  /** The multiset step of the induction: splicing the last character of `pw`
      into a rearrangement of the rest gives a rearrangement of `pw`. */
  lemma SpliceStep(p: string, r2: string, k: nat, pw: string)
    requires |pw| > 0 && k <= |r2| && p == r2[..k] + [pw[|pw| - 1]] + r2[k..]
    requires multiset(r2) == multiset(pw[..|pw| - 1])
    ensures multiset(p) == multiset(pw)
  {
    SpliceMultiset(r2, k, pw[|pw| - 1]);
    assert pw == pw[..|pw| - 1] + [pw[|pw| - 1]];
  }

  /** Where `perm` holds position `n`. */
  lemma PositionOf(perm: seq<nat>, n: nat) returns (k: nat)
    requires IsPermutation(perm, n + 1)
    ensures k < |perm| && perm[k] == n
  {
    assert n in perm;
    k :| 0 <= k < |perm| && perm[k] == n;
  }

  /** Taking position `k` out of `perm` takes the last character out of the
      rearranged string at `k`. */
  lemma PermutedSplice(pw: string, perm: seq<nat>, k: nat, rest: seq<nat>)
    requires IsPermutation(perm, |pw|) && k < |perm| && perm[k] == |pw| - 1
    requires rest == perm[..k] + perm[k + 1..] && IsPermutation(rest, |pw| - 1)
    ensures var r2 := Permuted(pw[..|pw| - 1], rest);
      k <= |r2| && Permuted(pw, perm) == r2[..k] + [pw[|pw| - 1]] + r2[k..]
  {
    var r, r2 := Permuted(pw, perm), Permuted(pw[..|pw| - 1], rest);
    forall i | 0 <= i < |r| ensures r[i] == (r2[..k] + [pw[|pw| - 1]] + r2[k..])[i] {
      if i < k { assert rest[i] == perm[i]; }
      else if k < i { assert rest[i - 1] == perm[i]; }
    }
  }

  lemma SpliceMultiset<T>(s: seq<T>, k: nat, x: T)
    requires k <= |s|
    ensures multiset(s[..k] + [x] + s[k..]) == multiset(s) + multiset{x}
  {
    assert s == s[..k] + s[k..];
  }

  /** Taking the last index `n` out of a permutation of `n + 1` positions leaves
      a permutation of `n`. */
  lemma RemovedPermutation(perm: seq<nat>, n: nat, k: nat, rest: seq<nat>)
    requires IsPermutation(perm, n + 1) && k < |perm| && perm[k] == n
    requires rest == perm[..k] + perm[k + 1..]
    ensures IsPermutation(rest, n)
  {
    assert forall i :: 0 <= i < k ==> rest[i] == perm[i];
    assert forall i :: k <= i < n ==> rest[i] == perm[i + 1];
    forall j | 0 <= j < n ensures j in rest {
      assert j in perm;
      var m :| 0 <= m < |perm| && perm[m] == j;
      if m < k { assert rest[m] == j; } else { assert m != k && rest[m - 1] == j; }
    }
  }

  lemma AlphabetClasses()
    ensures forall i :: 0 <= i < |Uppercase| ==> IsUpper(Uppercase[i])
    ensures forall i :: 0 <= i < |Lowercase| ==> IsLower(Lowercase[i])
    ensures forall i :: 0 <= i < |Numbers| ==> IsDigit(Numbers[i])
  {
  }

  /** Every character of `pw` survives the shuffle. */
  lemma ShuffleKeeps(pw: string, perm: seq<nat>, j: nat)
    requires IsPermutation(perm, |pw|) && j < |pw|
    ensures exists i :: 0 <= i < |perm| && Shuffle(pw, perm)[i] == pw[j]
  {
    assert j in perm;
    var i :| 0 <= i < |perm| && perm[i] == j;
    assert Shuffle(pw, perm)[i] == pw[j];
  }

  // ---------------------------------------------------------------------------
  // sanitizeInput

  predicate IsAngle(c: char) { c == '<' || c == '>' }

  /** `sanitizeInput`: trims, then deletes every `<` and `>`, keeping every
      other character of the trimmed input as often as it occurs, in order. */
  function SanitizeInput(s: string): (r: string)
    ensures forall i :: 0 <= i < |r| ==> !IsAngle(r[i])
    ensures |r| <= |s|
    ensures IsSubsequence(r, Trim(s))
    ensures forall c :: c in Trim(s) && !IsAngle(c) ==> c in r
    ensures forall c :: multiset(r)[c] == if IsAngle(c) then 0 else multiset(Trim(s))[c]
  {
    var r := Filter(Trim(s), (c: char) => !IsAngle(c));
    FilterIsSubsequence(Trim(s), (c: char) => !IsAngle(c));
    FilterCount(Trim(s), (c: char) => !IsAngle(c));
    assert forall i :: 0 <= i < |r| ==> r[i] in r;
    r
  }

  /** Input without angle brackets comes back trimmed and otherwise unchanged. */
  lemma SanitizeKeepsCleanInput(s: string)
    requires forall i :: 0 <= i < |s| ==> !IsAngle(s[i])
    ensures SanitizeInput(s) == Trim(s)
  {
    var t := Trim(s);
    var i :| TrimmedAt(s, t, i);
    assert forall k :: 0 <= k < |t| ==> t[k] == s[i + k];
    FilterAll(t, (c: char) => !IsAngle(c));
  }

  /** Sanitising twice can differ from sanitising once: deleting `<` from
      `"< a"` exposes a leading space that the second pass trims. */
  lemma SanitizeNotIdempotent()
    ensures SanitizeInput("< a") == " a"
    ensures SanitizeInput(SanitizeInput("< a")) == "a"
  {
    TrimExamples();
    FilterExamples();
  }

  lemma TrimExamples()
    ensures Trim("< a") == "< a"
    ensures Trim(" a") == "a"
  {
    assert !IsSpace('<') && !IsSpace('a') && IsSpace(' ');
    assert "< a"[0] == '<' && "< a"[2] == 'a';
    assert " a"[0] == ' ' && " a"[1..] == "a";
  }

  lemma FilterExamples()
    ensures Filter("< a", (c: char) => !IsAngle(c)) == " a"
    ensures Filter("a", (c: char) => !IsAngle(c)) == "a"
  {
    var p := (c: char) => !IsAngle(c);
    assert "< a"[1..] == " a" && " a"[1..] == "a" && "a"[1..] == "";
    assert Filter("a", p) == "a";
    assert Filter(" a", p) == " a";
  }

  // ---------------------------------------------------------------------------
  // hasRole and validateOTP

  /** `hasRole`: `admin` satisfies both roles, `manager` only `manager`, and
      any other string neither. */
  function HasRole(userRole: string, required: Role): (ok: bool)
    ensures required == Admin ==> (ok <==> userRole == "admin")
    ensures required == Manager ==> (ok <==> userRole == "admin" || userRole == "manager")
  {
    if required == Manager then userRole == "admin" || userRole == "manager"
    else userRole == "admin"
  }

  /** The roles are ordered: whoever may act as admin may act as manager. */
  lemma AdminIncludesManager(userRole: string)
    ensures HasRole(userRole, Admin) ==> HasRole(userRole, Manager)
    ensures HasRole(userRole, Manager) && userRole != "admin" ==> !HasRole(userRole, Admin)
  {
  }

  /** `validateOTP`: `/^\d{6}$/`. */
  function ValidateOtp(s: string): (ok: bool)
    ensures ok <==> |s| == 6 && forall i :: 0 <= i < 6 ==> IsDigit(s[i])
  {
    AllDigitsEach(s);
    |s| == 6 && AllDigits(s)
  }

  /** Every character is a decimal digit, scanning from the left. */
  predicate AllDigits(s: string) {
    |s| == 0 || (IsDigit(s[0]) && AllDigits(s[1..]))
  }

  lemma {:induction false} AllDigitsEach(s: string)
    ensures AllDigits(s) <==> forall i :: 0 <= i < |s| ==> IsDigit(s[i])
    decreases |s|
  {
    if |s| > 0 {
      AllDigitsEach(s[1..]);
      assert forall i :: 1 <= i < |s| ==> s[i] == s[1..][i - 1];
    }
  }
}

=== FILE: verify_otp_route.dfy ===
/** `POST /api/admin/auth/verify-otp`: consume a one-time code and open a
    session. */
module VerifyOtpRoute {
  import opened Wrappers
  import opened Types
  import opened Seqs
  import opened Store

  datatype VerifyRequest = VerifyRequest(adminId: Id, otp: string)

  const MissingFields := "Admin ID and OTP are required"
  const InvalidOtp := "Invalid or expired OTP"
  const InternalError := "Internal server error"

  /** A row the lookup accepts: same admin, same code, unused, and not yet
      expired (expiry exactly at `now` still counts). */
  predicate Usable(o: OtpRow, req: VerifyRequest, now: int) {
    o.adminId == req.adminId && o.code == req.otp && !o.verified && o.expiresAt >= now
  }

  function FirstUsable(otps: seq<OtpRow>, req: VerifyRequest, now: int): Option<nat> {
    FindIndex(otps, (o: OtpRow) => Usable(o, req, now))
  }

  /** After a match at index `k`: that row marked as used, then the admin's other
      rows (by id) dropped. */
  function Consume(otps: seq<OtpRow>, k: nat): (r: seq<OtpRow>)
    requires k < |otps|
    ensures otps[k].(verified := true) in r
    ensures forall x :: x in r ==> x in otps[k := otps[k].(verified := true)]
    ensures forall x :: x in CodesOf(r, otps[k].adminId) ==> x.id == otps[k].id
    ensures forall b :: b != otps[k].adminId ==> CodesOf(r, b) == CodesOf(otps, b)
  {
    var m := otps[k];
    var marked := otps[k := m.(verified := true)];
    var r := Filter(marked, (o: OtpRow) => !(o.adminId == m.adminId && o.id != m.id));
    assert marked[k] in marked;
    ConsumeKeepsOthers(otps, k, marked, r);
    r
  }

  lemma ConsumeKeepsOthers(otps: seq<OtpRow>, k: nat, marked: seq<OtpRow>, r: seq<OtpRow>)
    requires k < |otps|
    requires marked == otps[k := otps[k].(verified := true)]
    requires r == Filter(marked, (o: OtpRow) => !(o.adminId == otps[k].adminId && o.id != otps[k].id))
    ensures forall b :: b != otps[k].adminId ==> CodesOf(r, b) == CodesOf(otps, b)
  {
    var m := otps[k];
    var keep := (o: OtpRow) => !(o.adminId == m.adminId && o.id != m.id);
    forall b | b != m.adminId
      ensures CodesOf(r, b) == CodesOf(otps, b)
    {
      var theirs := (o: OtpRow) => o.adminId == b;
      FilterFilter(marked, keep, theirs, theirs);
      MarkKeepsCodesOf(otps, k, b);
    }
  }

  /** Marking a row of another admin does not change `b`'s codes. */
  lemma {:induction false} MarkKeepsCodesOf(otps: seq<OtpRow>, k: nat, b: Id)
    requires k < |otps| && otps[k].adminId != b
    ensures CodesOf(otps[k := otps[k].(verified := true)], b) == CodesOf(otps, b)
    decreases |otps|
  {
    var marked := otps[k := otps[k].(verified := true)];
    if k == 0 {
      assert marked == [marked[0]] + otps[1..];
      assert otps == [otps[0]] + otps[1..];
    } else {
      MarkKeepsCodesOf(otps[1..], k - 1, b);
      assert marked == [otps[0]] + otps[1..][k - 1 := otps[k].(verified := true)];
      assert otps == [otps[0]] + otps[1..];
    }
  }

  /** `POST`. Missing fields give 400; no usable row gives 401 with the store
      unchanged. A match is marked used; a session is opened for the row's admin
      and the admin's other codes are deleted. */
  function Verify(db: Db, req: VerifyRequest, now: int): (h: Handled<AdminSummary>)
    ensures req.adminId == "" || req.otp == "" ==> h == Handled(Fail(400, MissingFields), db)
    ensures (req.adminId != "" && req.otp != ""
             && forall i :: 0 <= i < |db.otps| ==> !Usable(db.otps[i], req, now)) ==>
      h == Handled(Fail(401, InvalidOtp), db)
    ensures h.reply.Ok? <==>
      && req.adminId != "" && req.otp != ""
      && (exists i :: 0 <= i < |db.otps| && Usable(db.otps[i], req, now))
      && AdminById(db, req.adminId).Some?
    ensures h.db.(otps := db.otps, sessions := db.sessions) == db
    ensures h.reply.Ok? ==>
      var k := FirstUsable(db.otps, req, now).value;
      && h.reply == Ok(200, Summary(AdminById(db, req.adminId).value))
      && h.db.sessions == db.sessions + [req.adminId]
      && db.otps[k].(verified := true) in h.db.otps
      && (forall x :: x in CodesOf(h.db.otps, req.adminId) ==> x.id == db.otps[k].id)
      && (forall b :: b != req.adminId ==> CodesOf(h.db.otps, b) == CodesOf(db.otps, b))
  {
    if req.adminId == "" || req.otp == "" then Handled(Fail(400, MissingFields), db)
    else match FirstUsable(db.otps, req, now)
      case None => Handled(Fail(401, InvalidOtp), db)
      case Some(k) =>
        var marked := db.(otps := db.otps[k := db.otps[k].(verified := true)]);
        match AdminById(db, req.adminId)
          case None => Handled(Fail(500, InternalError), marked)
          case Some(a) =>
            Handled(Ok(200, Summary(a)),
                    db.(otps := Consume(db.otps, k), sessions := db.sessions + [a.id]))
  }

  /** Single use: once a code has been accepted, the same request is refused
      from then on. Row ids are the table's primary key. */
  lemma SingleUse(db: Db, req: VerifyRequest, now: int, later: int)
    requires UniqueOtpIds(db.otps)
    requires Verify(db, req, now).reply.Ok?
    ensures Verify(Verify(db, req, now).db, req, later).reply == Fail(401, InvalidOtp)
  {
    var k := FirstUsable(db.otps, req, now).value;
    var after := Verify(db, req, now).db.otps;
    assert after == Consume(db.otps, k);
    forall i | 0 <= i < |after| ensures !Usable(after[i], req, later) {
      var x := after[i];
      if x.adminId == req.adminId {
        assert x in CodesOf(after, req.adminId);
        MarkedRowIsUsed(db.otps, k, x);
      }
    }
  }

  /** With unique ids, the only row of the marked table carrying the matched
      row's id is the matched row itself, now used. */
  lemma MarkedRowIsUsed(otps: seq<OtpRow>, k: nat, x: OtpRow)
    requires UniqueOtpIds(otps) && k < |otps|
    requires x in otps[k := otps[k].(verified := true)] && x.id == otps[k].id
    ensures x.verified
  {
    var marked := otps[k := otps[k].(verified := true)];
    var j :| 0 <= j < |marked| && marked[j] == x;
    if j != k {
      assert otps[j].id == otps[k].id;
      assert j < k || k < j;
    }
  }
}

=== FILE: votes_route.dfy ===
/** `POST /api/votes`: a fixed chain of guards, then one `pending` vote row. */
module VotesRoute {
  import opened Wrappers
  import opened Types
  import opened Seqs
  import opened Store

  datatype CastRequest = CastRequest(
    email: string,
    contestantId: Id,
    contestId: Id,
    ipAddress: Option<string>)

  datatype VoteCreated = VoteCreated(message: string, voteId: Id)

  const MissingFields := "Missing required fields"
  const ContestNotFound := "Contest not found"
  const VotingClosed := "Voting is currently closed for this contest"
  const ContestantNotFound := "Contestant not found"
  const NotEligible := "This contestant is not eligible for voting"
  const AlreadyVoted := "You have already voted in this contest"
  const Recorded := "Vote recorded. Please verify via OTP."

  /** The request names an email, a contestant and a contest (all non-empty). */
  predicate HasFields(req: CastRequest) {
    req.email != "" && req.contestantId != "" && req.contestId != ""
  }

  /** A vote row of the voter `email` in contest `contestId`. */
  predicate SameVoter(v: VoteRecord, email: string, contestId: Id) {
    v.email == email && v.contestId == contestId
  }

  /** Some vote row, pending or verified, exists for the voter in the contest. */
  predicate HasVoted(db: Db, email: string, contestId: Id) {
    exists i :: 0 <= i < |db.votes| && SameVoter(db.votes[i], email, contestId)
  }

  /** The row a successful cast inserts. */
  function PendingVote(req: CastRequest, voteId: Id, now: int): VoteRecord {
    VoteRecord(voteId, req.email, req.contestantId, req.contestId, now, Pending, req.ipAddress)
  }

  /** The contest exists and is open for voting. */
  predicate ContestOpen(db: Db, contestId: Id) {
    ContestById(db, contestId).Some? && ContestById(db, contestId).value.status.Active?
  }

  /** The contestant exists, is still competing and is shown. */
  predicate Eligible(db: Db, contestantId: Id) {
    && ContestantById(db, contestantId).Some?
    && ContestantById(db, contestantId).value.status.Active?
    && ContestantById(db, contestantId).value.isVisible
  }

  /** The handler. `voteId` is the id the database assigns to a new row and `now`
      its creation time. Each guard answers only when every earlier guard passed. */
  function Cast(db: Db, req: CastRequest, voteId: Id, now: int): (h: Handled<VoteCreated>)
    ensures !HasFields(req) ==> h.reply == Fail(400, MissingFields)
    ensures (HasFields(req) && ContestById(db, req.contestId).None?)
      ==> h.reply == Fail(404, ContestNotFound)
    ensures (HasFields(req) && ContestById(db, req.contestId).Some? && !ContestOpen(db, req.contestId))
      ==> h.reply == Fail(400, VotingClosed)
    ensures (HasFields(req) && ContestOpen(db, req.contestId) && ContestantById(db, req.contestantId).None?)
      ==> h.reply == Fail(404, ContestantNotFound)
    ensures (HasFields(req) && ContestOpen(db, req.contestId)
             && ContestantById(db, req.contestantId).Some? && !Eligible(db, req.contestantId))
      ==> h.reply == Fail(400, NotEligible)
    ensures (HasFields(req) && ContestOpen(db, req.contestId) && Eligible(db, req.contestantId)
             && HasVoted(db, req.email, req.contestId))
      ==> h.reply == Fail(400, AlreadyVoted)
    ensures h.reply.Ok? <==>
      HasFields(req) && ContestOpen(db, req.contestId) && Eligible(db, req.contestantId)
      && !HasVoted(db, req.email, req.contestId)
    ensures h.reply.Fail? ==> h.db == db
    ensures h.reply.Ok? ==>
      && h.reply == Ok(201, VoteCreated(Recorded, voteId))
      && h.db == db.(votes := db.votes + [PendingVote(req, voteId, now)])
  {
    if !HasFields(req) then Handled(Fail(400, MissingFields), db)
    else match ContestById(db, req.contestId)
      case None => Handled(Fail(404, ContestNotFound), db)
      case Some(contest) =>
        if !contest.status.Active? then Handled(Fail(400, VotingClosed), db)
        else match ContestantById(db, req.contestantId)
          case None => Handled(Fail(404, ContestantNotFound), db)
          case Some(contestant) =>
            if !contestant.status.Active? || !contestant.isVisible then
              Handled(Fail(400, NotEligible), db)
            else if Find(db.votes, (v: VoteRecord) => SameVoter(v, req.email, req.contestId)).Some? then
              Handled(Fail(400, AlreadyVoted), db)
            else
              Handled(Ok(201, VoteCreated(Recorded, voteId)),
                      db.(votes := db.votes + [PendingVote(req, voteId, now)]))
  }

  /** A cast never creates a second row for a voter in a contest: sequential casts
      keep the vote table's `(email, contestId)` key unique. */
  lemma CastKeepsOneVotePerVoter(db: Db, req: CastRequest, voteId: Id, now: int)
    requires OneVotePerVoter(db.votes)
    ensures OneVotePerVoter(Cast(db, req, voteId, now).db.votes)
  {
    var h := Cast(db, req, voteId, now);
    if h.reply.Ok? {
      var vs := h.db.votes;
      forall i, j | 0 <= i < j < |vs|
        ensures vs[i].email != vs[j].email || vs[i].contestId != vs[j].contestId
      {
        if j == |vs| - 1 {
          assert vs[i] == db.votes[i];
          assert !SameVoter(db.votes[i], req.email, req.contestId);
        }
      }
    }
  }

  /** Casting never moves a contestant's counter, and a pending row credits
      nobody, so the counters keep matching the verified rows. */
  lemma {:induction false} CastKeepsCountersMatching(db: Db, req: CastRequest, voteId: Id, now: int)
    requires CountersMatch(db)
    ensures CountersMatch(Cast(db, req, voteId, now).db)
  {
    var h := Cast(db, req, voteId, now);
    if h.reply.Ok? {
      forall k | 0 <= k < |db.contestants|
        ensures |VerifiedVotesFor(h.db.votes, db.contestants[k].id)| == |VerifiedVotesFor(db.votes, db.contestants[k].id)|
      {
        var id := db.contestants[k].id;
        FilterAppend(db.votes, [PendingVote(req, voteId, now)],
                     (v: VoteRecord) => v.contestantId == id && v.status == Verified);
      }
    }
  }

  /** Once a cast has succeeded, any later cast by the same email in the same
      contest is refused, whichever contestant it names. */
  lemma RecastRefused(db: Db, req: CastRequest, voteId: Id, now: int,
                      contestantId: Id, ipAddress: Option<string>, voteId2: Id, later: int)
    requires Cast(db, req, voteId, now).reply.Ok?
    ensures var db2 := Cast(db, req, voteId, now).db;
            var h := Cast(db2, CastRequest(req.email, contestantId, req.contestId, ipAddress), voteId2, later);
            h.reply.Fail? && h.db == db2
  {
    var db2 := Cast(db, req, voteId, now).db;
    assert SameVoter(db2.votes[|db2.votes| - 1], req.email, req.contestId);
  }
}

=== FILE: wrappers.dfy ===
/** Optional values: the model's stand-in for a JavaScript `undefined` field and for
    a database lookup that finds no row. */
module Wrappers {

  datatype Option<+T> = None | Some(value: T) {

    /** The value, or `default` when there is none (a destructuring default such
        as `role = 'manager'`). */
    function GetOr(default: T): T {
      match this
      case Some(v) => v
      case None => default
    }
  }
}
